=== FILE: README.md ===
# Call analytics core in Dafny

A model of the plan-validate-execute engine behind a call-analytics
pipeline for a carpet rental and cleaning business. Phone calls are
transcribed, tagged from a fixed Russian vocabulary and stored as JSON or
CSV records. A user's question is then turned into an analysis plan by a
language model (period, target tags, metrics, grouping), the plan is
validated, the metrics are computed over the stored calls, and a
deterministic answer is printed when the language model is unavailable.

The model covers, one Dafny module per concern:

- `Matching`, `Planning`, `PlannerColab`, `PlannerLegacy`, `PlannerLlm`: the
  three planners' `_validate_tags` (bidirectional, case-insensitive
  substring match, first vocabulary entry wins), `_parse_metrics`,
  `_parse_time_period`, the keyword default plans and `create_analysis_plan`
  with its differing error policies.
- `Executor`, `Tally`, `Ranking`: `JSONQueryExecutor` of both
  orchestrators: inclusive period filter, first-match-wins count by tag,
  trend buckets, `Counter.most_common`, the two-tag comparison, and the
  metric loop of `execute_plan`.
- `Answer`: `_generate_fallback_answer` of both orchestrators.
- `CallStore`, `FileDates`: the loaders' cache, sequential ids over loaded
  files, CSV loading, `convert_json_to_csv`, and the three variants of
  `_extract_date_from_filename`.
- `Batching`: the greedy size-bounded batch split and the adjacent-batch
  merge up to 1.2 times the limit, plus the to-process filter.
- `RussianDates`: `RussianDateParser` — the order in which pattern families
  are tried, the month and week arithmetic, and Russian plural forms.
- `Preprocess`: date extraction, the quality-score clamp, the transcription
  decision, and skip/dedupe/sort in `process_directory`.
- `JsonValues`, `Tagging`: the tag post-processing of the tagging agent and
  its rewrite of a call file.
- Helpers: `Wrappers` (Option/Result), `Seqs`, `Text`, `Sorting`,
  `Calendar` (proleptic Gregorian dates with a day number, `timedelta`
  arithmetic, weekday, ISO week), `Domain` (call records and plans).

The language model, JSON decoding, ISO and `dateutil` date parsing, the
regular-expression scan of a Russian query, directory listings, file
contents, file sizes, modification times, audio measurements, transcripts
and "now" are all parameters: function-valued oracles or plain inputs.
Python exceptions are `Result.Err`; dicts are ordered association lists.

Where the code and its design description disagree, the model follows the
code:

- A CSV call may have no date (pandas `NaT`). Such a call fails every period
  comparison, so the filter drops it. When the first loaded call is undated,
  the CSV loader's date-range print raises after the cache is filled, so that
  call returns nothing and the next one returns the cached records.
- `_compare_tags` pads with `None`, and `_count_by_tag` then calls
  `None.lower()`. So a padded comparison raises as soon as a tag occurrence
  fails to match the real tag. It does not count zero.
- `_count_by_tag` counts every tag occurrence. A call that carries the same
  tag string twice counts twice.
- `_parse_metrics` returns a list: order and duplicates are kept.
- Only the Colab executor short-circuits on an empty store. The older one
  always runs the metric loop.
- The older planner raises when a start or end is missing. It then falls back
  to its default plan, whose tags are outside its own vocabulary.
- The Colab planner and the LLM-query planner let a JSON error escape; the
  Colab default plan is never called.
- The Colab loader never calls its `_extract_date_from_filename`: CSV rows
  carry their own `call_date`. `FileDates.DateForColab` models the method as
  written all the same.
- Each planner has its own default window (30 days, 180 days, or none). The
  model keeps each variant's window as written.

## Model

| member | source | states |
|---|---|---|
| Matching.FirstMatchIndex | colab/mcp_orchestrator.py:476-479 | the index of the first vocabulary entry that fuzzily matches the candidate, no earlier entry matches, and none exists exactly when no entry matches |
| Matching.FirstMatch | colab/mcp_orchestrator.py:476-479 | a returned tag is a vocabulary entry that matches the candidate; nothing is returned exactly when no entry matches |
| Matching.MatchAll | colab/mcp_orchestrator.py:474-479 | every validated tag is a vocabulary entry and no candidate contributes more than one |
| Matching.MatchAllAppend | colab/mcp_orchestrator.py:475-479 | validation works candidate by candidate: the output for a concatenation is the concatenation of outputs, so output order follows candidate order |
| Matching.MatchAllSingle | colab/mcp_orchestrator.py:476-479 | one candidate contributes exactly its first match, or nothing |
| Matching.MatchAllEmpty | colab/mcp_orchestrator.py:474-481 | the matches are empty exactly when no candidate matches any vocabulary entry |
| Matching.FuzzyReflexive | colab/mcp_orchestrator.py:477 | a tag always matches itself |
| Matching.FuzzyEmpty | colab/mcp_orchestrator.py:477 | the empty string matches everything in both directions |
| Planning.MetricOf | colab/mcp_orchestrator.py:485-490 | no literal maps to summary statistics, and the sentiment metric exists only where its literal is known |
| Planning.KnownMetrics | colab/mcp_orchestrator.py:492-495 | the known metrics never outnumber the input strings |
| Planning.KnownMetricsAppend | colab/mcp_orchestrator.py:493-495 | metric parsing is element-wise: it distributes over concatenation, keeping order and duplicates |
| Planning.KnownMetricsEmpty | colab/mcp_orchestrator.py:492-497 | no metric is recognised exactly when no string is a known literal |
| Planning.KnownMetricsMembers | colab/mcp_orchestrator.py:485-495 | recognised metrics never include summary statistics, nor sentiment when it is not enabled |
| Planning.ParseMetrics | mcp_orchestrator.py:374-388 | never empty; the recognised metrics in input order when any literal is known, otherwise exactly `[COUNT_BY_TAG]`; the older orchestrator uses it directly |
| Planning.ValidateTags | colab/mcp_orchestrator.py:473-481 | the matches when there are any, otherwise the fallback; every tag is a vocabulary entry or the fallback |
| PlannerColab.DefaultStart | colab/mcp_orchestrator.py:453 | the default start is exactly 30 days before now, at the same time of day |
| PlannerColab.Bound | colab/mcp_orchestrator.py:456-465 | a bound differs from its default only when the value is truthy and parses, and then it is the parsed value |
| PlannerColab.ParseTimePeriod | colab/mcp_orchestrator.py:449-471 | start and end each default independently (30 days ago, now); the description is the given one or the dotted "с … по …" range |
| PlannerColab.BoundsIndependent | colab/mcp_orchestrator.py:456-465 | changing the raw end never changes the start, and changing the raw start never changes the end |
| PlannerColab.InvertedWindowAccepted | colab/mcp_orchestrator.py:456-471 | a start later than now with no end yields a window whose start is after its end: there is no ordering check |
| PlannerColab.ValidateTags | colab/mcp_orchestrator.py:473-481 | never empty; the matches when any candidate matches, otherwise `['низкое_качество_стирки_или_чистки']` |
| PlannerColab.ValidatedInVocabulary | colab/mcp_orchestrator.py:473-481 | when the fallback is in the vocabulary, every validated tag is a vocabulary entry |
| PlannerColab.ParseMetrics | colab/mcp_orchestrator.py:483-497 | never empty, no sentiment or summary metric; known literals in order, else `[COUNT_BY_TAG]` |
| PlannerColab.DefaultPlan | colab/mcp_orchestrator.py:499-521 | each of the three tags appears exactly when its keywords occur (quality also when nothing else matched), no other tag appears, no tag repeats, quality comes first and consultation last; window 180 days to now, metrics count and trends, monthly |
| PlannerColab.CreatePlan | colab/mcp_orchestrator.py:362-397 | fails exactly when the answer is missing or does not decode; otherwise the plan has non-empty tags and metrics, and each field is its helper's result on the decoded field or its default: the period from `_parse_time_period` of `time_period` (or `{}`), validated tags, parsed metrics, grouping "month", comparison tags `[]` |
| PlannerLegacy.ParseTimePeriod | mcp_orchestrator.py:327-360 | succeeds exactly when both start and end are given and parse; then they are the parsed values, and the description defaults to the range |
| PlannerLegacy.ValidateTags | mcp_orchestrator.py:362-372 | never empty; the matches when any candidate matches, otherwise `['жалоба_качество_стирки']` |
| PlannerLegacy.FallbackOutsideVocabulary | mcp_orchestrator.py:227-252 | the fallback tag is not in this planner's vocabulary, yet it is what an empty candidate list validates to |
| PlannerLegacy.NoComplaintInVocabulary | mcp_orchestrator.py:227-252 | no vocabulary entry starts with 'ж', so no `жалоба_…` tag is in it |
| PlannerLegacy.DefaultPlan | mcp_orchestrator.py:390-410 | quality tag then delivery tag, each by its keyword: both when both are mentioned, delivery alone when only delivery is, quality alone when delivery is not mentioned; window 180 days to now, metrics count and trends, monthly |
| PlannerLegacy.DefaultTagsOutsideVocabulary | mcp_orchestrator.py:390-410 | no default-plan tag is in the vocabulary |
| PlannerLegacy.PlanFromAnswer | mcp_orchestrator.py:269-285 | building a plan from decoded output fails exactly when the period fails to parse |
| PlannerLegacy.CreatePlan | mcp_orchestrator.py:254-290 | always a plan with non-empty tags and metrics; the default plan when the answer is missing, does not decode or has an unusable period; otherwise the parsed period, validated tags, parsed metrics, grouping (default "month") and comparison tags (default `[]`) |
| PlannerLegacy.MissingPeriodMeansDefault | mcp_orchestrator.py:327-360 | decoded output without a time period always ends in the default plan |
| PlannerLlm.RelativeWindow | llm_query_planner.py:143-156 | end is now; start is 180 days back, the 1st of this month, the 1st of January, or 30 days back, by the first phrase found in that order |
| PlannerLlm.RelativeWindowOrdered | llm_query_planner.py:143-156 | a relative window never starts after it ends |
| PlannerLlm.ParseTimePeriod | llm_query_planner.py:139-165 | relative periods use the relative window; absolute ones fail exactly when a given bound does not parse, and a missing bound becomes 30 days ago or now |
| PlannerLlm.ValidateTags | llm_query_planner.py:167-177 | never empty and always within the vocabulary: the matches, or the first vocabulary entry |
| PlannerLlm.ParseMetrics | llm_query_planner.py:179-194 | never empty, no summary metric; known literals including 'sentiment' in order, else `[COUNT_BY_TAG]` |
| PlannerLlm.SentimentOnlyHere | llm_query_planner.py:181-187 | 'sentiment' is a metric for this planner and is dropped by the orchestrators' parser |
| PlannerLlm.CreatePlan | llm_query_planner.py:66-88 | fails exactly when the answer is missing, does not decode or has an unparseable absolute bound; a plan's tags are non-empty and within the vocabulary, and its window, tags, metrics, grouping and comparison tags are the helpers' results on the decoded fields, with "month" and `[]` as defaults |
| Executor.FilterByPeriod | colab/mcp_orchestrator.py:580-591 | an order-preserving sublist holding exactly the dated calls with start ≤ date ≤ end, each with its multiplicity |
| Executor.FilterByPeriodIdempotent | colab/mcp_orchestrator.py:580-591 | filtering twice is filtering once |
| Executor.FilterSkipsOutside | colab/mcp_orchestrator.py:580-591 | a call outside the period is dropped wherever it stands in the list |
| Executor.AttributionCount | colab/mcp_orchestrator.py:595-601 | the occurrences attributed to a target are the occurrences whose first matching target it is |
| Executor.CountByTag | colab/mcp_orchestrator.py:592-604 | distinct keys, all targets, each count equals the occurrences attributed to it by first match, every count positive, total at most the number of occurrences |
| Executor.CountByTagPresence | colab/mcp_orchestrator.py:592-604 | a target has a key exactly when at least one occurrence is attributed to it |
| Executor.HitTargets | colab/mcp_orchestrator.py:620-624 | the targets of the trend hits, one per hit, in order |
| Executor.HitTargetsAreAttributions | colab/mcp_orchestrator.py:611-624 | trend hits occur exactly where the count by tag counts, target for target |
| Executor.PeriodsCount | colab/mcp_orchestrator.py:620-631 | a target has as many period keys as it has hits |
| Executor.TrendTable | colab/mcp_orchestrator.py:609-633 | one series per counted target in the same order, buckets strictly ascending by key, no empty bucket, and bucket counts summing to that target's count |
| Executor.TrendTableFacts | colab/mcp_orchestrator.py:609-633 | the table built from hits has the series, order, sortedness and sums stated for the trend table |
| Executor.TrendsLegacy | mcp_orchestrator.py:492-526 | empty targets give an empty table; otherwise it fails exactly when some call has no date |
| Executor.TrendsColab | colab/mcp_orchestrator.py:605-607 | empty targets or no calls give an empty table |
| Executor.TrendGuardsAgree | colab/mcp_orchestrator.py:605-607 | the Colab variant's extra guard never changes the result of the older variant |
| Executor.TopNTags | colab/mcp_orchestrator.py:635-645 | min(n, distinct tags) entries with distinct literal tags and their exact counts, counts non-increasing, ties in first-encounter order, and no omitted tag outcounts a listed one |
| Executor.TopNFacts | colab/mcp_orchestrator.py:636-643 | `most_common` over the counter of all occurrences has the length, counts, tie order and completeness of the top-n list |
| Executor.TopNLength | colab/mcp_orchestrator.py:636-639 | the counter has one entry per distinct tag |
| Executor.TallyEntry | colab/mcp_orchestrator.py:636-639 | each counter entry is a tag that occurs, with its number of occurrences |
| Executor.TopNCounts | colab/mcp_orchestrator.py:641-643 | each listed entry is an occurring tag with its exact count |
| Executor.TopNTies | colab/mcp_orchestrator.py:641-643 | tied entries keep the order in which their tags were first encountered |
| Executor.TopNComplete | colab/mcp_orchestrator.py:641-643 | an occurring tag left out of the list never has a higher count than a listed one |
| Executor.PairCounts | colab/mcp_orchestrator.py:650-656 | no occurrences give the counts (0, 0) |
| Executor.PairCountsAgree | colab/mcp_orchestrator.py:650-656 | with two real tags the pair counts are the first-match counts of the general count by tag, and a repeated tag's second slot is 0 |
| Executor.PairCountsFails | colab/mcp_orchestrator.py:647-650 | with a padded second slot the comparison fails exactly when some occurrence does not match the first tag |
| Executor.CompareTags | colab/mcp_orchestrator.py:646-657 | total is the number of calls, names are the padded tags, ratio is count1/count2 or 0 when count2 is 0; two tags always succeed with the count-by-tag values; fewer fail exactly when an occurrence falls through |
| Executor.CompareFacts | colab/mcp_orchestrator.py:646-657 | the pair counts agree with the count by tag over the first two tags, and padding fails exactly on a fall-through |
| Executor.ComparisonTargets | colab/mcp_orchestrator.py:567 | the comparison tags when given, otherwise the first two target tags |
| Executor.RunMetrics | colab/mcp_orchestrator.py:550-568 | the metric loop fails exactly when a requested trend or comparison fails |
| Executor.RunMetricsCounts | colab/mcp_orchestrator.py:550-562 | after the loop, requested count and top-n keys hold their values and unrequested keys are untouched |
| Executor.RunMetricsFallible | colab/mcp_orchestrator.py:554-568 | after the loop, a requested trend or comparison holds its value and an unrequested one is untouched |
| Executor.TrendsOnFiltered | colab/mcp_orchestrator.py:547-559 | trends over filtered calls never fail, since every such call has a date |
| Executor.ExecuteColab | colab/mcp_orchestrator.py:530-579 | an empty store gives the no-data error with total 0 and no metrics; otherwise exactly the requested metrics, each holding its value over the calls inside the period (count by tag, top tags, trends, comparison), total equal to the filtered count, a data-source label; fails exactly when a requested comparison raises |
| Executor.ExecuteLegacy | mcp_orchestrator.py:421-463 | exactly the requested metrics, each holding its value over the calls inside the period, summary with the filtered count, period and date range; fails exactly when a requested comparison raises |
| Executor.ExecuteIgnoresOutside | mcp_orchestrator.py:421-463 | a call outside the plan's period changes neither executor's result, wherever it is inserted into the store (the Colab one given a non-empty store) |
| Executor.RunMetricsSameTrends | colab/mcp_orchestrator.py:550-568 | the metric loop depends on the variant only through the trends |
| Executor.ExecutorsAgree | mcp_orchestrator.py:421-463 | on a non-empty store both executors succeed together and agree on every metric and the call total |
| Tally.TallyAll | colab/mcp_orchestrator.py:636-639 | a well-formed counter whose count for each key is its multiplicity, keys exactly the elements, total the length |
| Tally.TallyKeyOrder | colab/mcp_orchestrator.py:636-639 | counter keys appear in order of first occurrence |
| Tally.GetInc | colab/mcp_orchestrator.py:600 | incrementing a key adds one to it and leaves every other count unchanged |
| Tally.KeysInc | colab/mcp_orchestrator.py:600 | an existing key keeps its place and a new key goes last |
| Tally.SortByKey | colab/mcp_orchestrator.py:626-631 | `sorted(items())`: strictly ascending keys, same entries, same total |
| Ranking.SortRanked | colab/mcp_orchestrator.py:643 | the stable rank sort is a permutation sorted by count, then by original position |
| Ranking.MostCommon | colab/mcp_orchestrator.py:643 | min(n, size) distinct entries of the counter, counts non-increasing, ties in counter order, no omitted entry larger than a listed one |
| Ranking.MostCommonFacts | colab/mcp_orchestrator.py:643 | a prefix of the rank-sorted counter has the properties of `most_common` |
| Answer.DirectionMatchesChange | mcp_orchestrator.py:634-637 | the integer growth, decline or no-change classification agrees with the sign of `(last - first) / first * 100`, and a zero first bucket means no change |
| Answer.ArgMax | mcp_orchestrator.py:642 | `max(..., key=count)` picks the first entry with the largest count |
| Answer.CountLines | mcp_orchestrator.py:625-628 | one count line per counted tag, in table order |
| Answer.TrendLines | mcp_orchestrator.py:631-638 | the trend section consists only of trend lines |
| Answer.TrendLinesExact | mcp_orchestrator.py:631-638 | a trend line is printed exactly for each non-empty series, with that series' direction |
| Answer.RecommendationIsTop | mcp_orchestrator.py:641-645 | a recommendation names the first most frequent tag and appears only when that tag is alarming |
| Answer.FallbackLegacy | mcp_orchestrator.py:616-647 | starts with the period header and never prints the no-data notice; a computed count table follows as one line per tag in table order; a trend line appears exactly when it is one of the series' trend lines; a recommendation appears exactly for the first most frequent tag when the table is non-empty and that tag holds 'жалоба' |
| Answer.FallbackColab | colab/mcp_orchestrator.py:746-779 | starts with the period header and prints the no-data notice exactly when the count table is missing or empty; otherwise the table follows as one line per tag in table order, and no other count line appears; a trend line appears exactly when it is one of the series' trend lines; a recommendation appears exactly for the first most frequent tag when it holds 'жалоба' or 'низкое' |
| Answer.FallbacksAgree | colab/mcp_orchestrator.py:746-779 | with a non-empty count table both variants print the same count and trend lines, and every older-variant recommendation is also a Colab one |
| CallStore.SliceTo | mcp_orchestrator.py:60 | Python's `s[:limit]`, including negative limits |
| CallStore.FromCache | mcp_orchestrator.py:59-60 | a cached answer is a prefix of the cache: the whole cache without a limit, `limit` records with a positive one |
| CallStore.Quota | mcp_orchestrator.py:96-97 | the loop keeps every loadable file without a limit and at least one with a limit, never more than are available |
| CallStore.Numbered | mcp_orchestrator.py:80 | records are renumbered consecutively from the starting id |
| CallStore.JsonStoreRecord | mcp_orchestrator.py:65-100 | a file yields a record exactly when it is `.json`, decodes, has a date and has a `tags` object; the record carries the id, name, path, date and `fixed_tags` |
| CallStore.JsonStoreRecordId | mcp_orchestrator.py:79-94 | whether a file loads does not depend on its id |
| CallStore.LimitedLoadPrefix | mcp_orchestrator.py:65-97 | the loop keeps a prefix of the loadable files, numbered consecutively, of the limit's length |
| CallStore.LoadedInNameOrder | mcp_orchestrator.py:65 | records of a sorted listing come in file-name order |
| CallStore.JsonStoreLoopIsLimitedLoad | mcp_orchestrator.py:63-97 | numbering by `files_processed` while loading is the same as loading and then numbering |
| CallStore.FreshLoad | mcp_orchestrator.py:62-104 | a fresh load numbers records 0, 1, …, keeps only dated `.json` files, in name order |
| CallStore.LoadJsonStore | mcp_orchestrator.py:57-104 | a filled cache answers every call; otherwise the sorted listing is loaded with ids 0, 1, … over loaded files only, in name order, and becomes the cache |
| CallStore.FreshLoadBounded | mcp_orchestrator.py:96-97 | a positive limit bounds a fresh load |
| CallStore.CsvLoop | colab/mcp_orchestrator.py:134-162 | the row loop yields the limit's quota of rows, each with its row index as id |
| CallStore.LoadCsvStore | colab/mcp_orchestrator.py:81-193 | a filled cache answers every call; otherwise the cache is filled exactly when a CSV file exists and its table reads, with one record per row up to the limit; the records are returned unless the first one is undated, in which case the date-range print raises after the cache is filled and nothing is returned; every other failure returns nothing and leaves the cache empty |
| CallStore.CsvOutRow | jsons2csv.py:42-62 | a file yields a row exactly when it is `.json`, decodes, has a valid date and a `transcription`; the row carries the file-name date, the transcription's text (default empty), the `fixed_tags` (default `[]`), the `reason` as summary (default empty) and the file name |
| CallStore.ConvertJsonToCsv | jsons2csv.py:33-66 | `None` exactly when no file converts; otherwise the converted rows in listing order, each coming from some file |
| FileDates.SearchFrom | jsons2csv.py:15 | the leftmost match at or after a position, with no match before it |
| FileDates.Search | jsons2csv.py:15 | `re.search`: the leftmost match, none before it, and none at all exactly when no position matches |
| FileDates.FirstOccurring | jsons2csv.py:14-16 | the first pattern in list order that occurs anywhere; nothing exactly when no pattern occurs |
| FileDates.FromPatterns | jsons2csv.py:14-27 | the date, or the `ValueError`, read from the leftmost match of the first pattern that occurs |
| FileDates.DateForCsv | jsons2csv.py:5-31 | three patterns tried in order, and now when none occurs |
| FileDates.DateForColab | colab/mcp_orchestrator.py:195-224 | three patterns, then the modification time when readable, then now |
| FileDates.DateForJsonStore | mcp_orchestrator.py:106-136 | only the dashed pattern is active, then the modification time, then now |
| FileDates.DashedPrefix | jsons2csv.py:19-21 | a name starting `YYYY-MM-DD` matches at 0 with those groups |
| FileDates.DayKeyMatch | jsons2csv.py:19-21 | a day's `%Y-%m-%d` text matches the dashed pattern at 0 and reads back as that day |
| FileDates.DayKeyRoundTrip | jsons2csv.py:14-21 | a file named after a day, whatever follows, is dated that day at midnight by every variant |
| FileDates.PatternOrderBeatsPosition | jsons2csv.py:14-27 | in `20240115_2023-03-05` the compact date is leftmost, but the dashed pattern is tried first and wins |
| Batching.ToProcess | audio_processor.py:97-98 | an order-preserving sublist holding exactly the files not yet processed |
| Batching.GreedyBatches | audio_processor.py:440-456 | the batches concatenate to the input, none is empty, one exceeding the limit holds a single file, no batch could have taken the next file, and there are none exactly when there are no files |
| Batching.OptimizeBatches | audio_processor.py:462-488 | at most one batch is returned unchanged; otherwise the files keep their order, no batch is empty, the count never grows, a batch over 1.2 times the limit is an input batch left as it was, and no two neighbouring batches could be merged within 1.2 times the limit |
| Batching.CreateBatches | audio_processor.py:438-460 | the final batches concatenate to the input, none is empty, one over 1.2 times the limit holds a single file, and no two neighbours could be merged within 1.2 times the limit |
| RussianDates.PluralIsCommonRule | russian_date_parser.py:322-327 | the day and month plural choice is the usual Russian one/few/many rule |
| RussianDates.UnitName | russian_date_parser.py:319-336 | days and months take the one/few/many form by the plural rule; other units are returned unchanged |
| RussianDates.UnitNamePeriodic | russian_date_parser.py:319-336 | the unit form depends only on n modulo 100 |
| RussianDates.MonthOfWord | russian_date_parser.py:63-68 | a word has a month exactly when it starts with one of the month prefixes |
| RussianDates.GenitiveRoundTrip | russian_date_parser.py:63-68 | each genitive month name reads back as its own month |
| RussianDates.LastMonthsOfPreviousYear | russian_date_parser.py:115-132 | succeeds exactly for 1 ≤ N ≤ 12 in a representable year; from the 1st of month 13−N to 31 December of the previous year |
| RussianDates.MonthEndViaNextMonth | russian_date_parser.py:143-144 | the 1st of a month plus 32 days, back to the 1st, minus a day, is that month's last day |
| RussianDates.FirstMonthsOfPreviousYear | russian_date_parser.py:135-152 | succeeds exactly for 1 ≤ N ≤ 12; from 1 January to the last day of month N of the previous year |
| RussianDates.SingleDate | russian_date_parser.py:281-297 | a numeric date first, else a day, month word and year whose word has a month |
| RussianDates.FromToPeriod | russian_date_parser.py:161-171 | the two dates sorted, so start ≤ end, with the description in the order written |
| RussianDates.Complex | russian_date_parser.py:111-173 | last N months of the previous year first, then first N months, then "с … по …"; other year words fall through; in the "с … по …" branch it raises exactly when a side's date raises, is the sorted from-to period when both sides are dates, and recognises nothing when a side is not a date |
| RussianDates.LastUnits | russian_date_parser.py:186-207 | end is now and start is N days, weeks, 30-day months or 365-day years earlier, with the declined unit in the description |
| RussianDates.LastMonthAsWritten | russian_date_parser.py:218-219 | the whole month holding the day 31 days before today, from its 1st to its last day, ending before today |
| RussianDates.LastMonthWindow | russian_date_parser.py:218-219 | the corrected definition of these lines, not the code as written: the whole previous calendar month, from its 1st to its last day |
| RussianDates.LastMonthAsWrittenAgrees | russian_date_parser.py:218-219 | the as-written window is the previous calendar month exactly when today's day plus the previous month's length exceeds 31 |
| RussianDates.LastMonthAsWrittenSkipsFebruary | russian_date_parser.py:218-219 | on 2024-03-01 the as-written window is January 2024 while the previous calendar month is February |
| RussianDates.MondayOf | russian_date_parser.py:213 | the Monday of the current week, weekday-many days back |
| RussianDates.LastWeekWindow | russian_date_parser.py:214-215 | the previous Monday to the Sunday just before this week's Monday |
| RussianDates.ThisYearWindow | russian_date_parser.py:220 | 1 January of this year to today |
| RussianDates.LastYearWindow | russian_date_parser.py:221-222 | 1 January to 31 December of the previous year, all before today |
| RussianDates.SpecialWindow | russian_date_parser.py:210-223 | every special window is ordered and ends by today, with each case's bounds; 'last_month' is the month holding today minus 31 days, as written |
| RussianDates.SpecialPeriod | russian_date_parser.py:225-233 | a special period runs from midnight of its first day to midnight of its last |
| RussianDates.Standard | russian_date_parser.py:175-235 | the first unit in days, weeks, months, years order that matches answers with its "last N units" period; otherwise the first matching special in dictionary order answers with its window; the error comes only from an unrepresentable previous year |
| RussianDates.SingleDay | russian_date_parser.py:249-250 | one day from 00:00:00 to 23:59:59 |
| RussianDates.Absolute | russian_date_parser.py:237-279 | a numeric date answers, or raises when invalid; else a worded date whose month word is known; a single-day period either way |
| RussianDates.Dateutil | russian_date_parser.py:299-317 | skipped when the query holds 'по' or 'с'; otherwise the parsed day, if any |
| RussianDates.ParseQuery | russian_date_parser.py:70-109 | complex, then standard, then absolute, then the date parser, the first recognised answering with its own period; an error of complex, standard or absolute propagates when the earlier steps declined; 'unclear' exactly when all four decline |
| Preprocess.ExtractDay | preprocess_calls_full.py:24-40 | the date of the first `_`-separated part shaped `YYYY-MM-DD` that is a real date, else today |
| Preprocess.DayKeyHasNoUnderscore | preprocess_calls_full.py:31-34 | a formatted day is 10 characters long and has no underscore |
| Preprocess.ExtractDateRoundTrip | preprocess_calls_full.py:31-34 | a file named `<day>_<anything>` is dated that day |
| Preprocess.RawScore | preprocess_calls_full.py:90-110 | the unclamped score lies between 0 and 9 |
| Preprocess.Clamp | preprocess_calls_full.py:113 | the clamp lands in 1..10, leaves an in-range score alone, raises a low score to 1 and lowers a high one to 10 |
| Preprocess.AssessQuality | preprocess_calls_full.py:66-119 | the score lies in 1..10, is 5 when measuring fails, is the raw score when that is at least 1, and 1 when the raw score is 0 |
| Preprocess.LouderNeverScoresLower | preprocess_calls_full.py:93-98 | a louder recording never scores lower |
| Preprocess.NoisierNeverScoresHigher | preprocess_calls_full.py:101-104 | a noisier recording never scores higher |
| Preprocess.ProcessFile | preprocess_calls_full.py:132-170 | a row for every file with its name, date, score and empty tags; text is the transcript when transcribing is forced or the threshold allows it, otherwise empty |
| Preprocess.NewFiles | preprocess_calls_full.py:190-199 | an order-preserving sublist holding exactly the audio files not already in the CSV |
| Preprocess.DedupeFrom | preprocess_calls_full.py:230 | deduplication never grows the rows and keeps no source already seen |
| Preprocess.DedupeKeepsFirst | preprocess_calls_full.py:230 | each kept row is the first row of its source |
| Preprocess.DedupeCovers | preprocess_calls_full.py:230 | every source not yet seen keeps a row |
| Preprocess.DedupeDistinct | preprocess_calls_full.py:230 | kept rows have distinct sources |
| Preprocess.DedupeBySource | preprocess_calls_full.py:230 | `drop_duplicates(keep='first')`: first row per source, every source kept, sources distinct |
| Preprocess.NewRowsCover | preprocess_calls_full.py:210-219 | every new file that processes gets a row |
| Preprocess.Merge | preprocess_calls_full.py:221-235 | sorted by date; the new rows, or the deduplicated concatenation with the existing ones |
| Preprocess.ProcessDirectory | preprocess_calls_full.py:172-257 | the existing rows when nothing new processes, otherwise the merged, deduplicated, date-sorted table |
| Preprocess.MergeCovers | preprocess_calls_full.py:221-235 | every source, old or new, keeps a row after the merge |
| Preprocess.ProcessDirectoryCovers | preprocess_calls_full.py:180-235 | every known source and every new processable audio file has a row in the result |
| JsonValues.Lookup | assign_tags_from_fixed_list.py:105 | `d.get(k)`: nothing exactly when the key is absent, otherwise a field with that key |
| JsonValues.Put | assign_tags_from_fixed_list.py:103-105 | after `d[k] = v` the key reads `v` and every other key reads as before |
| JsonValues.PutKeys | assign_tags_from_fixed_list.py:103-105 | setting keeps the key order and appends a new key last |
| JsonValues.Remove | assign_tags_from_fixed_list.py:107 | after `pop` the key is absent, every other key reads as before, and no key is added |
| JsonValues.PutKeepsUnique | assign_tags_from_fixed_list.py:103-105 | setting keeps a dict's keys distinct |
| JsonValues.RemoveKeepsUnique | assign_tags_from_fixed_list.py:107 | removing keeps a dict's keys distinct |
| Tagging.Truncate | assign_tags_from_fixed_list.py:123 | text up to 3000 characters is unchanged; longer text becomes its first 3000 characters and "..." |
| Tagging.TruncateIdempotent | assign_tags_from_fixed_list.py:123 | truncating twice is truncating once |
| Tagging.LastIndexOf | assign_tags_from_fixed_list.py:170 | the last position of a character, none exactly when it is absent |
| Tagging.BraceSpan | assign_tags_from_fixed_list.py:170-171 | a span exists exactly when some '{' precedes some '}', and it runs from the first '{' to the last '}' |
| Tagging.Parsed | assign_tags_from_fixed_list.py:170-172 | succeeds exactly when a span exists and decodes to an object, which it returns |
| Tagging.Candidates | assign_tags_from_fixed_list.py:176 | what `for tag in value` walks: a list's items; a number, boolean or null raises |
| Tagging.StringsOfMembers | assign_tags_from_fixed_list.py:176-178 | the strings kept are exactly the string candidates |
| Tagging.ValidTags | assign_tags_from_fixed_list.py:175-182 | an order-preserving sublist of the string candidates holding exactly those in the tag list |
| Tagging.ValidTagsIdempotent | assign_tags_from_fixed_list.py:175-182 | filtering the filtered tags again changes nothing |
| Tagging.WrapStrings | assign_tags_from_fixed_list.py:182 | storing the tags as JSON strings and reading them back is the identity |
| Tagging.TryTags | assign_tags_from_fixed_list.py:148-186 | fails exactly when the model gives nothing, no object is found, or `result` cannot be iterated; otherwise `result` is replaced by the filtered tags and every other key kept |
| Tagging.TagsFromLlm | assign_tags_from_fixed_list.py:115-195 | any failure gives the stub with an empty `result`; otherwise the sanitised reply |
| Tagging.ResultWithinVocabulary | assign_tags_from_fixed_list.py:176-195 | the returned `result` is always a list of tag-list members |
| Tagging.HasText | assign_tags_from_fixed_list.py:91 | `'text' in value`: an object's keys; numbers, booleans and null raise |
| Tagging.ExtractText | assign_tags_from_fixed_list.py:91-96 | `transcription.text` when present, else top-level `text`, else an error; the text is a string found at one of the two; a transcription that is not an object fails with `TypeError` unless `'text' in` it is plainly false (a number, boolean or null fails too) |
| Tagging.TagSingleFile | assign_tags_from_fixed_list.py:79-113 | succeeds exactly when text is found and `tags` is absent or an object; then `tags.fixed_tags` is the sanitised result, `segments` is gone, every other top-level key is unchanged, and every key of an existing `tags` object other than `fixed_tags` is kept as it was (a new `tags` holds only `fixed_tags`) |
| Tagging.FixedTagsWithinVocabulary | assign_tags_from_fixed_list.py:99-107 | a tagged file's `fixed_tags` only ever hold tag-list members |

## Left out

- The SQLite layers (`setup_in_memory_db`, `get_cursor`, `query_executor.py`, `in_memory_analytics.py`): their meaning lives in the SQL engine, and the executor never reads them.
- Language-model calls, prompts and the primary path of `generate_answer`: the model is an oracle returning an optional reply, and JSON decoding is a parameter.
- File, CSV and JSON I/O, `os.listdir`, `os.path.exists`, modification times and `datetime.now()`: listings, decoded contents, tables, modification times and "now" are inputs.
- Audio decoding, resampling, librosa features and whisper transcription: the three quality measures and the transcript are inputs, and a failed measurement is `None`.
- Floating point: the comparison ratio is a Dafny `real`; the fallback answer's percentage is modelled only through its sign; batch sizes are whole numbers with 1.2 times written as `5·size ≤ 6·limit`; the quality thresholds compare `real` measures.
- Printed number formatting (`:.1f`), emoji and console output.
- Microseconds: a moment is a date and a second of the day.
- Python's `OverflowError` and the year range outside 1..9999 are modelled only where a window is built (the previous year must exist). The day arithmetic does not model them: `RussianDates.LastUnits` subtracts N days, weeks, months or years for any N, and `PlannerColab.DefaultStart`, `PlannerColab.DefaultPlan`, `PlannerLegacy.DefaultPlan` and `PlannerLlm.RelativeWindow` subtract 30 or 180 days, all on an unbounded proleptic calendar, where Python raises `OverflowError` once the date would fall before year 1.
- Calendar.IsoWeek: states only the week range; the ISO 8601 week-date arithmetic (section 4.1.4 of ISO 8601:2004) is computed but not proved against a reference.
- Full Unicode `str.lower()` and `\d` (`str.strip()` is modelled with Python's full white-space set): lowercase covers ASCII and the basic Cyrillic alphabet with Ё, and digits are ASCII.
- Regular-expression fidelity in `russian_date_parser.py`: the scan of a query into pattern matches is an oracle; the order in which families are tried, and the arithmetic, are modelled.
- `strptime`'s lenient forms (single-digit fields) in `preprocess_calls_full.py`: a part is read as four, two and two ASCII digits.
- `eval` of CSV tag strings: the CSV table hands over tags already as a list.
- JSON numbers are integers; floats are not modelled, and a duplicate JSON key resolves to its first occurrence.
- A non-string call text is an error where Python would go on with it (`len`, string slicing).
- Preprocess.Merge: states sortedness and the multiset only. pandas' default `sort_values` is not stable, so the order among rows of one date is not claimed; the model sorts stably.
- Preprocess.ProcessDirectory: an existing CSV that cannot be read is not modelled (the first read's error is caught, a later read raises); the existing table is an input, `None` when there is no file.
- Preprocess.LouderNeverScoresLower and Preprocess.NoisierNeverScoresHigher: monotonicity in one measure, the others fixed; the pause step is not compared.
- Executor.PairCounts: its own contract only covers the empty case; the pair counts are related to the general count by Executor.PairCountsAgree and Executor.PairCountsFails.
- Executor.TrendsColab: its own contract states the guard; its equality with the older variant is Executor.TrendGuardsAgree.
- The batch loop of `process_large_dataset`: line 107 returns `[]` unconditionally, so nothing after it runs; only the filter and the batch helpers are modelled.
- `llama_2.py`, the UI and bootstrap scripts, the tagging agent's directory loop and consistency report, and the Colab planner's `config.yml` loading (the vocabulary is a parameter).
- Patterns that `russian_date_parser.py` defines but never consults (`between`, the quarters, `tomorrow`, the `next_…` periods, `recently`, `lately`, `in_past`) are not modelled.

## Findings

| source | as written | input that shows it | evidently intended | confidence | as-written member | corrected member |
|---|---|---|---|---|---|---|
| russian_date_parser.py:218-219 | "last month" is the month holding today minus 31 days | today 2024-03-01: minus 31 days is 2024-01-30, so the window is January 2024 | the previous calendar month, February 2024 | high, not executed | RussianDates.LastMonthAsWrittenSkipsFebruary (and RussianDates.LastMonthAsWrittenAgrees: the two agree exactly when today's day plus the previous month's length exceeds 31) | RussianDates.LastMonthWindow |

`parse_query` is modelled as written: `RussianDates.SpecialWindow` uses
`RussianDates.LastMonthAsWritten`. `RussianDates.LastMonthWindow` is the
intended window, and `RussianDates.LastMonthAsWrittenAgrees` states on which
days the two coincide.

=== FILE: answer.dfy ===
/** `DeepSeekAnalyzer._generate_fallback_answer`: the answer assembled from the
    metric results when the LLM cannot be used. The answer is modelled as its
    sequence of lines, each line by what it reports; the emoji and the `%.1f`
    rendering of the percentage are not modelled. */
module Answer {
  import opened Wrappers
  import Text
  import Tally
  import Executor

  datatype Direction = Growth | Decline | NoChange

  datatype Line =
    | Header(description: string)
    | CountsHeader
    | CountLine(tag: string, count: nat)
    | NoTagData
    | TrendLine(tag: string, direction: Direction)
    | Recommendation(tag: string)

  /** The percentage the source prints: `(last - first) / first * 100`, or 0
      when the first bucket is empty. */
  function Change(first: nat, last: nat): real {
    if first > 0 then (last - first) as real / first as real * 100.0 else 0.0
  }

  /** The trend word, decided on whole counts. */
  function DirectionOf(first: nat, last: nat): Direction {
    if first == 0 || last == first then NoChange
    else if last > first then Growth
    else Decline
  }

  /** The integer classification agrees with the sign of the printed percentage. */
  lemma DirectionMatchesChange(first: nat, last: nat)
    ensures DirectionOf(first, last) == Growth <==> Change(first, last) > 0.0
    ensures DirectionOf(first, last) == Decline <==> Change(first, last) < 0.0
    ensures DirectionOf(first, last) == NoChange <==> Change(first, last) == 0.0
  {
    if first > 0 {
      var d := (last - first) as real;
      var f := first as real;
      assert Change(first, last) == d / f * 100.0;
      if last > first {
        assert d > 0.0;
        assert d / f > 0.0;
      } else if last < first {
        assert d < 0.0;
        assert d / f < 0.0;
      } else {
        assert d == 0.0;
      }
    }
  }

  /** Direction of one series: first bucket against last bucket. */
  function TrendDirection(buckets: seq<Tally.Entry<string>>): Direction
    requires |buckets| > 0
  {
    DirectionOf(buckets[0].count, buckets[|buckets| - 1].count)
  }

  /** `max(counts.items(), key=count)`: the index of the FIRST entry with the
      largest count. */
  function ArgMax(counts: seq<Tally.Entry<string>>): (r: nat)
    requires |counts| > 0
    ensures r < |counts|
    ensures forall j :: 0 <= j < |counts| ==> counts[j].count <= counts[r].count
    ensures forall j :: 0 <= j < r ==> counts[j].count < counts[r].count
    decreases |counts|
  {
    if |counts| == 1 then 0
    else
      var k := ArgMax(counts[..|counts| - 1]);
      assert forall j :: 0 <= j < |counts| - 1 ==> counts[..|counts| - 1][j] == counts[j];
      if counts[|counts| - 1].count > counts[k].count then |counts| - 1 else k
  }

  function CountLines(counts: seq<Tally.Entry<string>>): (r: seq<Line>)
    ensures |r| == |counts|
    ensures forall i :: 0 <= i < |counts| ==> r[i] == CountLine(counts[i].key, counts[i].count)
    ensures forall l :: l in r ==> l.CountLine?
  {
    seq(|counts|, i requires 0 <= i < |counts| => CountLine(counts[i].key, counts[i].count))
  }

  /** One line per series that has at least one bucket. */
  function TrendLines(trends: seq<Executor.Trend>): (r: seq<Line>)
    ensures forall l :: l in r ==> l.TrendLine?
    decreases |trends|
  {
    if |trends| == 0 then []
    else
      var t := trends[0];
      (if |t.buckets| > 0 then [TrendLine(t.tag, TrendDirection(t.buckets))] else []) + TrendLines(trends[1..])
  }

  /** A trend line is reported exactly for each non-empty series, with that
      series' direction. */
  lemma {:induction false} TrendLinesExact(trends: seq<Executor.Trend>, tag: string, d: Direction)
    ensures TrendLine(tag, d) in TrendLines(trends) <==>
            exists i :: 0 <= i < |trends| && trends[i].tag == tag && |trends[i].buckets| > 0 &&
                        TrendDirection(trends[i].buckets) == d
    decreases |trends|
  {
    if |trends| > 0 {
      TrendLinesExact(trends[1..], tag, d);
      var l := TrendLine(tag, d);
      if exists i :: 0 <= i < |trends[1..]| && trends[1..][i].tag == tag && |trends[1..][i].buckets| > 0 &&
                     TrendDirection(trends[1..][i].buckets) == d {
        var i :| 0 <= i < |trends[1..]| && trends[1..][i].tag == tag && |trends[1..][i].buckets| > 0 &&
                 TrendDirection(trends[1..][i].buckets) == d;
        assert trends[i + 1] == trends[1..][i];
      }
      if exists i :: 0 <= i < |trends| && trends[i].tag == tag && |trends[i].buckets| > 0 &&
                     TrendDirection(trends[i].buckets) == d {
        var i :| 0 <= i < |trends| && trends[i].tag == tag && |trends[i].buckets| > 0 &&
                 TrendDirection(trends[i].buckets) == d;
        if i > 0 {
          assert trends[1..][i - 1] == trends[i];
        }
      }
    }
  }

  /** Tags whose recommendation the older variant prints. */
  predicate LegacyAlarming(tag: string) {
    |tag| > 0 && Text.Contains(tag, "жалоба")
  }

  /** The Colab variant also flags tags of the `низкое_…` family. */
  predicate ColabAlarming(tag: string) {
    |tag| > 0 && (Text.Contains(tag, "жалоба") || Text.Contains(tag, "низкое"))
  }

  function RecommendationLines(counts: seq<Tally.Entry<string>>, alarming: string -> bool): (r: seq<Line>)
    ensures forall l :: l in r ==> l.Recommendation?
    ensures forall t :: Recommendation(t) in r <==>
              |counts| > 0 && t == counts[ArgMax(counts)].key && alarming(t)
  {
    if |counts| == 0 then []
    else
      var top := counts[ArgMax(counts)].key;
      if alarming(top) then [Recommendation(top)] else []
  }

  /** The recommendation names a most frequent tag, the first one listed, and
      appears only when that tag is alarming. */
  lemma RecommendationIsTop(counts: seq<Tally.Entry<string>>, alarming: string -> bool, tag: string)
    requires Recommendation(tag) in RecommendationLines(counts, alarming)
    ensures alarming(tag)
    ensures exists k :: 0 <= k < |counts| && counts[k].key == tag &&
                        (forall j :: 0 <= j < |counts| ==> counts[j].count <= counts[k].count) &&
                        (forall j :: 0 <= j < k ==> counts[j].count < counts[k].count)
  {
    var k := ArgMax(counts);
    assert counts[k].key == tag;
  }

  /** The answer's layout: the header, the counts section, the trend
      section and the recommendation, in that order. */
  function Layout(header: Line, counts: seq<Line>, trends: seq<Line>, rec: seq<Line>): (r: seq<Line>)
    ensures |r| == 1 + |counts| + |trends| + |rec| && r[0] == header && r[1..1 + |counts|] == counts
    ensures forall l :: l in r <==> l == header || l in counts || l in trends || l in rec
  {
    var r := [header] + counts + trends + rec;
    assert r[1..1 + |counts|] == counts;
    r
  }

  /** The trend lines of a layout are those of its trend section, when no
      other section holds one. */
  lemma LayoutTrends(header: Line, counts: seq<Line>, trends: seq<Line>, rec: seq<Line>)
    requires !header.TrendLine?
    requires forall l :: l in counts ==> !l.TrendLine?
    requires forall l :: l in rec ==> !l.TrendLine?
    ensures forall t, d :: TrendLine(t, d) in Layout(header, counts, trends, rec) <==> TrendLine(t, d) in trends
  {
  }

  /** The recommendations of a layout are those of its last section, when no
      other section holds one. */
  lemma LayoutRecommendations(header: Line, counts: seq<Line>, trends: seq<Line>, rec: seq<Line>)
    requires !header.Recommendation?
    requires forall l :: l in counts ==> !l.Recommendation?
    requires forall l :: l in trends ==> !l.Recommendation?
    ensures forall t :: Recommendation(t) in Layout(header, counts, trends, rec) <==> Recommendation(t) in rec
  {
  }

  /** The counts section: its heading, then one line per table entry. */
  function CountSection(counts: seq<Tally.Entry<string>>): (r: seq<Line>)
    ensures |r| == |counts| + 1 && r[0] == CountsHeader && r[1..] == CountLines(counts)
    ensures forall l :: l in r ==> l == CountsHeader || l.CountLine?
    ensures forall t, c :: CountLine(t, c) in r <==> CountLine(t, c) in CountLines(counts)
  {
    var r := [CountsHeader] + CountLines(counts);
    assert r[1..] == CountLines(counts);
    r
  }

  /** The trend section: the trend lines of the series, when computed. */
  function TrendSection(trends: Option<seq<Executor.Trend>>): (r: seq<Line>)
    ensures forall l :: l in r ==> l.TrendLine?
    ensures forall t, d :: TrendLine(t, d) in r <==> trends.Some? && TrendLine(t, d) in TrendLines(trends.value)
  {
    if trends.Some? then TrendLines(trends.value) else []
  }

  /** The lines of the older orchestrator's fallback answer. */
  function LegacyLines(m: Executor.Metrics, description: string): seq<Line> {
    var trends := TrendSection(m.tagTrends);
    match m.countByTag
    case None => Layout(Header(description), [], trends, [])
    case Some(counts) =>
      Layout(Header(description), CountSection(counts), trends, RecommendationLines(counts, LegacyAlarming))
  }

  /** The older answer's count section: one line per table entry, in table
      order, after its heading; nothing of it without a table. */
  lemma LegacyCounts(m: Executor.Metrics, description: string)
    ensures var r := LegacyLines(m, description);
            |r| >= 1 && r[0] == Header(description) && NoTagData !in r &&
            (m.countByTag.Some? ==> CountsHeader in r) &&
            (m.countByTag.None? ==> forall l :: l in r ==> !l.CountLine? && !l.Recommendation? && l != CountsHeader) &&
            (m.countByTag.Some? ==> |r| >= |m.countByTag.value| + 2 &&
                                    r[1..1 + |m.countByTag.value| + 1] == [CountsHeader] + CountLines(m.countByTag.value)) &&
            (forall t, c :: CountLine(t, c) in r <==> m.countByTag.Some? && CountLine(t, c) in CountLines(m.countByTag.value))
  {
    var ts := TrendSection(m.tagTrends);
    match m.countByTag
    case None =>
      var r := Layout(Header(description), [], ts, []);
      forall l | l in r ensures !l.CountLine? && !l.Recommendation? && l != CountsHeader {
        assert l == Header(description) || l in ts;
      }
    case Some(counts) =>
      var cs, rs := CountSection(counts), RecommendationLines(counts, LegacyAlarming);
      var r := Layout(Header(description), cs, ts, rs);
      assert cs == [CountsHeader] + CountLines(counts) by {
        assert cs == [cs[0]] + cs[1..];
      }
      assert r[1..1 + |cs|] == cs;
      assert NoTagData !in cs && NoTagData !in ts && NoTagData !in rs;
      assert r[1] == CountsHeader;
      forall t, c ensures CountLine(t, c) in r <==> CountLine(t, c) in cs {
        assert CountLine(t, c) !in ts && CountLine(t, c) !in rs;
      }
  }

  /** The older answer's trend lines are the series' trend lines. */
  lemma LegacyTrends(m: Executor.Metrics, description: string)
    ensures forall t, d :: TrendLine(t, d) in LegacyLines(m, description) <==>
              m.tagTrends.Some? && TrendLine(t, d) in TrendLines(m.tagTrends.value)
  {
    var ts := TrendSection(m.tagTrends);
    match m.countByTag
    case None =>
      LayoutTrends(Header(description), [], ts, []);
    case Some(counts) =>
      LayoutTrends(Header(description), CountSection(counts), ts, RecommendationLines(counts, LegacyAlarming));
  }

  /** The older answer recommends exactly the first most frequent tag, when
      it is alarming. */
  lemma LegacyRecommendation(m: Executor.Metrics, description: string)
    ensures forall t :: Recommendation(t) in LegacyLines(m, description) <==>
              m.countByTag.Some? && |m.countByTag.value| > 0 &&
              t == m.countByTag.value[ArgMax(m.countByTag.value)].key && LegacyAlarming(t)
  {
    var ts := TrendSection(m.tagTrends);
    match m.countByTag
    case None =>
      LayoutRecommendations(Header(description), [], ts, []);
    case Some(counts) =>
      LayoutRecommendations(Header(description), CountSection(counts), ts, RecommendationLines(counts, LegacyAlarming));
  }

  /** `_generate_fallback_answer` of the older orchestrator. */
  function FallbackLegacy(m: Executor.Metrics, description: string): (r: seq<Line>)
    ensures |r| >= 1 && r[0] == Header(description)
    ensures NoTagData !in r
    ensures m.countByTag.Some? ==> CountsHeader in r
    ensures m.countByTag.None? ==> forall l :: l in r ==> !l.CountLine? && !l.Recommendation? && l != CountsHeader
    ensures m.countByTag.Some? ==> |r| >= |m.countByTag.value| + 2 &&
                                   r[1..1 + |m.countByTag.value| + 1] == [CountsHeader] + CountLines(m.countByTag.value)
    ensures forall t, c :: CountLine(t, c) in r <==> m.countByTag.Some? && CountLine(t, c) in CountLines(m.countByTag.value)
    ensures forall t, d :: TrendLine(t, d) in r <==> m.tagTrends.Some? && TrendLine(t, d) in TrendLines(m.tagTrends.value)
    ensures forall t :: Recommendation(t) in r <==>
              m.countByTag.Some? && |m.countByTag.value| > 0 &&
              t == m.countByTag.value[ArgMax(m.countByTag.value)].key && LegacyAlarming(t)
  {
    LegacyCounts(m, description);
    LegacyTrends(m, description);
    LegacyRecommendation(m, description);
    LegacyLines(m, description)
  }

  /** The count table, with a missing table read as an empty one. */
  function TableOrEmpty(m: Executor.Metrics): seq<Tally.Entry<string>> {
    match m.countByTag
    case None => []
    case Some(counts) => counts
  }

  /** The lines of the Colab orchestrator's fallback answer. */
  function ColabLines(m: Executor.Metrics, description: string): seq<Line> {
    var trends := TrendSection(m.tagTrends);
    var counts := TableOrEmpty(m);
    if |counts| == 0 then Layout(Header(description), [NoTagData], trends, [])
    else Layout(Header(description), CountSection(counts), trends, RecommendationLines(counts, ColabAlarming))
  }

  /** The Colab answer opens with the header and prints the no-data notice
      exactly without a non-empty table. */
  lemma ColabNotice(m: Executor.Metrics, description: string)
    ensures var r := ColabLines(m, description);
            |r| >= 1 && r[0] == Header(description) &&
            (NoTagData in r <==> m.countByTag.None? || |m.countByTag.value| == 0)
  {
    var ts, counts := TrendSection(m.tagTrends), TableOrEmpty(m);
    if |counts| > 0 {
      var cs, rs := CountSection(counts), RecommendationLines(counts, ColabAlarming);
      assert NoTagData !in cs && NoTagData !in ts && NoTagData !in rs;
    }
  }

  /** A non-empty table follows the header as one line per entry, in table
      order, after its heading. */
  lemma ColabTable(m: Executor.Metrics, description: string)
    ensures m.countByTag.Some? && |m.countByTag.value| > 0 ==>
              var r := ColabLines(m, description);
              |r| >= |m.countByTag.value| + 2 &&
              r[1..1 + |m.countByTag.value| + 1] == [CountsHeader] + CountLines(m.countByTag.value)
  {
    if m.countByTag.Some? && |m.countByTag.value| > 0 {
      var counts := m.countByTag.value;
      var cs := CountSection(counts);
      assert TableOrEmpty(m) == counts;
      assert cs == [CountsHeader] + CountLines(counts) by {
        assert cs == [cs[0]] + cs[1..];
      }
    }
  }

  /** The Colab answer's count lines are exactly those of the table. */
  lemma ColabCounts(m: Executor.Metrics, description: string)
    ensures forall t, c :: CountLine(t, c) in ColabLines(m, description) <==>
              m.countByTag.Some? && CountLine(t, c) in CountLines(m.countByTag.value)
  {
    var ts, counts := TrendSection(m.tagTrends), TableOrEmpty(m);
    if |counts| == 0 {
      var r := Layout(Header(description), [NoTagData], ts, []);
      forall t, c ensures CountLine(t, c) !in r {
      }
    } else {
      var cs, rs := CountSection(counts), RecommendationLines(counts, ColabAlarming);
      var r := Layout(Header(description), cs, ts, rs);
      assert m.countByTag == Some(counts);
      forall t, c ensures CountLine(t, c) in r <==> CountLine(t, c) in cs {
        assert CountLine(t, c) !in ts && CountLine(t, c) !in rs;
      }
    }
  }

  /** The Colab answer's trend lines are the series' trend lines. */
  lemma ColabTrends(m: Executor.Metrics, description: string)
    ensures forall t, d :: TrendLine(t, d) in ColabLines(m, description) <==>
              m.tagTrends.Some? && TrendLine(t, d) in TrendLines(m.tagTrends.value)
  {
    var ts, counts := TrendSection(m.tagTrends), TableOrEmpty(m);
    if |counts| == 0 {
      LayoutTrends(Header(description), [NoTagData], ts, []);
    } else {
      LayoutTrends(Header(description), CountSection(counts), ts, RecommendationLines(counts, ColabAlarming));
    }
  }

  /** The Colab answer recommends exactly the first most frequent tag, when
      it is alarming. */
  lemma ColabRecommendation(m: Executor.Metrics, description: string)
    ensures forall t :: Recommendation(t) in ColabLines(m, description) <==>
              m.countByTag.Some? && |m.countByTag.value| > 0 &&
              t == m.countByTag.value[ArgMax(m.countByTag.value)].key && ColabAlarming(t)
  {
    var ts, counts := TrendSection(m.tagTrends), TableOrEmpty(m);
    if |counts| == 0 {
      LayoutRecommendations(Header(description), [NoTagData], ts, []);
    } else {
      assert m.countByTag == Some(counts);
      LayoutRecommendations(Header(description), CountSection(counts), ts, RecommendationLines(counts, ColabAlarming));
    }
  }

  /** `_generate_fallback_answer` of the Colab orchestrator: an empty or
      missing count table prints a "no data" notice instead. */
  function FallbackColab(m: Executor.Metrics, description: string): (r: seq<Line>)
    ensures |r| >= 1 && r[0] == Header(description)
    ensures NoTagData in r <==> m.countByTag.None? || |m.countByTag.value| == 0
    ensures m.countByTag.Some? && |m.countByTag.value| > 0 ==>
              |r| >= |m.countByTag.value| + 2 && r[1..1 + |m.countByTag.value| + 1] == [CountsHeader] + CountLines(m.countByTag.value)
    ensures forall t, c :: CountLine(t, c) in r <==> m.countByTag.Some? && CountLine(t, c) in CountLines(m.countByTag.value)
    ensures forall t, d :: TrendLine(t, d) in r <==> m.tagTrends.Some? && TrendLine(t, d) in TrendLines(m.tagTrends.value)
    ensures forall t :: Recommendation(t) in r <==>
              m.countByTag.Some? && |m.countByTag.value| > 0 &&
              t == m.countByTag.value[ArgMax(m.countByTag.value)].key && ColabAlarming(t)
  {
    ColabNotice(m, description);
    ColabTable(m, description);
    ColabCounts(m, description);
    ColabTrends(m, description);
    ColabRecommendation(m, description);
    ColabLines(m, description)
  }

  /** Both variants report the same counts and the same trends; wherever the
      older variant recommends, the Colab variant recommends the same tag. */
  lemma FallbacksAgree(m: Executor.Metrics, description: string)
    requires m.countByTag.Some? && |m.countByTag.value| > 0
    ensures forall l: Line :: l.CountLine? || l.TrendLine? ==>
              (l in FallbackLegacy(m, description) <==> l in FallbackColab(m, description))
    ensures forall t :: Recommendation(t) in FallbackLegacy(m, description) ==>
              Recommendation(t) in FallbackColab(m, description)
  {
    var counts := m.countByTag.value;
    var top := counts[ArgMax(counts)].key;
    assert LegacyAlarming(top) ==> ColabAlarming(top);
  }
}

=== FILE: batching.dfy ===
/** `SmartAudioProcessor`'s size-bounded batching: the files still to
    process, a greedy split of them into batches of bounded total size, and
    a pass that merges adjacent batches while the merged size stays within
    1.2 times the bound. File sizes are a parameter, in one integer unit
    shared with the bound; "at most 1.2 times" is `5 * total <= 6 * limit`. */
module Batching {
  import Seqs

  type File = string

  /** Concatenation of batches, built from the end. */
  function Flatten<T>(xss: seq<seq<T>>): seq<T>
    decreases |xss|
  {
    if |xss| == 0 then [] else Flatten(xss[..|xss| - 1]) + xss[|xss| - 1]
  }

  lemma FlattenPush<T>(xss: seq<seq<T>>, xs: seq<T>)
    ensures Flatten(xss + [xs]) == Flatten(xss) + xs
  {
    assert (xss + [xs])[..|xss|] == xss;
  }

  /** Total size of a batch, summed from the end. */
  function Total(fs: seq<File>, size: File -> nat): nat
    decreases |fs|
  {
    if |fs| == 0 then 0 else Total(fs[..|fs| - 1], size) + size(fs[|fs| - 1])
  }

  lemma TotalPush(fs: seq<File>, f: File, size: File -> nat)
    ensures Total(fs + [f], size) == Total(fs, size) + size(f)
  {
    assert (fs + [f])[..|fs|] == fs;
  }

  lemma {:induction false} TotalAppend(a: seq<File>, b: seq<File>, size: File -> nat)
    ensures Total(a + b, size) == Total(a, size) + Total(b, size)
    decreases |b|
  {
    if |b| == 0 {
      assert a + b == a;
    } else {
      var b' := b[..|b| - 1];
      assert a + b == (a + b') + [b[|b| - 1]];
      TotalPush(a + b', b[|b| - 1], size);
      TotalAppend(a, b', size);
      TotalPush(b', b[|b| - 1], size);
      assert b' + [b[|b| - 1]] == b;
    }
  }

  /** `[f for f in all_files if f not in processed]`. */
  function ToProcess(allFiles: seq<File>, processed: set<File>): (r: seq<File>)
    ensures Seqs.IsSubsequence(r, allFiles)
    ensures forall f :: f in r <==> f in allFiles && f !in processed
  {
    Seqs.Filter(allFiles, f => f !in processed)
  }

  predicate AllNonEmpty(bs: seq<seq<File>>) {
    forall i :: 0 <= i < |bs| ==> |bs[i]| > 0
  }

  /** A batch holding two or more files stays within the bound. */
  predicate Bounded(bs: seq<seq<File>>, size: File -> nat, limit: nat) {
    forall i :: 0 <= i < |bs| ==> |bs[i]| >= 2 ==> Total(bs[i], size) <= limit
  }

  /** Greedy: no batch could have taken the next batch's first file. */
  predicate Maximal(bs: seq<seq<File>>, size: File -> nat, limit: nat)
    requires AllNonEmpty(bs)
  {
    forall i :: 0 <= i < |bs| - 1 ==> Total(bs[i], size) + size(bs[i + 1][0]) > limit
  }

  /** Closing the current batch keeps the greedy invariants. */
  lemma PushBatch(batches: seq<seq<File>>, current: seq<File>, size: File -> nat, limit: nat)
    requires AllNonEmpty(batches) && Bounded(batches, size, limit) && Maximal(batches, size, limit)
    requires |current| > 0
    requires |current| >= 2 ==> Total(current, size) <= limit
    requires |batches| > 0 ==> Total(batches[|batches| - 1], size) + size(current[0]) > limit
    ensures AllNonEmpty(batches + [current])
    ensures Bounded(batches + [current], size, limit)
    ensures Maximal(batches + [current], size, limit)
  {
    var bs := batches + [current];
    forall i | 0 <= i < |bs| ensures |bs[i]| > 0 {
      if i < |batches| {
        assert bs[i] == batches[i];
      }
    }
    forall i | 0 <= i < |bs| && |bs[i]| >= 2 ensures Total(bs[i], size) <= limit {
      if i < |batches| {
        assert bs[i] == batches[i];
      }
    }
    forall i | 0 <= i < |bs| - 1 ensures Total(bs[i], size) + size(bs[i + 1][0]) > limit {
      assert bs[i] == batches[i];
      if i + 1 < |batches| {
        assert bs[i + 1] == batches[i + 1];
      } else {
        assert bs[i + 1] == current;
      }
    }
  }

  /** What the greedy loop keeps after `i` files: the closed batches and
      the open one spell out `files[..i]`, and the closed ones are greedy. */
  predicate GreedyInv(files: seq<File>, i: nat, batches: seq<seq<File>>, current: seq<File>, currentSize: nat,
                      size: File -> nat, limit: nat)
  {
    i <= |files| &&
    Flatten(batches) + current == files[..i] &&
    AllNonEmpty(batches) && Bounded(batches, size, limit) && Maximal(batches, size, limit) &&
    currentSize == Total(current, size) &&
    (|current| >= 2 ==> currentSize <= limit) &&
    (|batches| > 0 && |current| > 0 ==> Total(batches[|batches| - 1], size) + size(current[0]) > limit) &&
    (i > 0 ==> |current| > 0)
  }

  /** The next file does not fit: the open batch is closed and the file
      opens a new one. */
  lemma GreedyFlush(files: seq<File>, i: nat, batches: seq<seq<File>>, current: seq<File>, currentSize: nat,
                    size: File -> nat, limit: nat)
    requires GreedyInv(files, i, batches, current, currentSize, size, limit)
    requires i < |files| && currentSize + size(files[i]) > limit && |current| > 0
    ensures GreedyInv(files, i + 1, batches + [current], [files[i]], size(files[i]), size, limit)
  {
    PushBatch(batches, current, size, limit);
    FlattenPush(batches, current);
    TotalPush([], files[i], size);
    assert [] + [files[i]] == [files[i]];
    assert files[..i + 1] == files[..i] + [files[i]];
  }

  /** The next file fits, or the open batch is empty: the file joins it. */
  lemma GreedyAppend(files: seq<File>, i: nat, batches: seq<seq<File>>, current: seq<File>, currentSize: nat,
                     size: File -> nat, limit: nat)
    requires GreedyInv(files, i, batches, current, currentSize, size, limit)
    requires i < |files| && !(currentSize + size(files[i]) > limit && |current| > 0)
    ensures GreedyInv(files, i + 1, batches, current + [files[i]], currentSize + size(files[i]), size, limit)
  {
    TotalPush(current, files[i], size);
    assert files[..i + 1] == files[..i] + [files[i]];
    if |current| > 0 {
      assert (current + [files[i]])[0] == current[0];
    }
  }

  /** The first loop of `_create_batches`: a file joins the current batch
      unless that would push it over `limit` and the batch is not empty. */
  method GreedyBatches(files: seq<File>, size: File -> nat, limit: nat) returns (batches: seq<seq<File>>)
    ensures Flatten(batches) == files
    ensures AllNonEmpty(batches)
    ensures Bounded(batches, size, limit)
    ensures forall i :: 0 <= i < |batches| ==> Total(batches[i], size) > limit ==> |batches[i]| == 1
    ensures Maximal(batches, size, limit)
    ensures |files| == 0 <==> |batches| == 0
  {
    batches := [];
    var current: seq<File> := [];
    var currentSize: nat := 0;
    for i := 0 to |files|
      invariant GreedyInv(files, i, batches, current, currentSize, size, limit)
    {
      var f := files[i];
      if currentSize + size(f) > limit && |current| > 0 {
        GreedyFlush(files, i, batches, current, currentSize, size, limit);
        batches := batches + [current];
        current := [f];
        currentSize := size(f);
      } else {
        GreedyAppend(files, i, batches, current, currentSize, size, limit);
        current := current + [f];
        currentSize := currentSize + size(f);
      }
    }
    assert files[..|files|] == files;
    if |current| > 0 {
      PushBatch(batches, current, size, limit);
      FlattenPush(batches, current);
      batches := batches + [current];
    }
    forall k | 0 <= k < |batches| && Total(batches[k], size) > limit ensures |batches[k]| == 1 {
      assert |batches[k]| > 0;
    }
  }

  /** No two neighbouring batches could be merged within 1.2 times the
      bound. */
  predicate NoMergeableNeighbours(r: seq<seq<File>>, size: File -> nat, limit: nat) {
    forall k :: 0 <= k < |r| - 1 ==> 5 * (Total(r[k], size) + Total(r[k + 1], size)) > 6 * limit
  }

  /** Emitting a batch that could not join the last one keeps neighbours
      unmergeable. */
  lemma PushNeighbours(r: seq<seq<File>>, c: seq<File>, size: File -> nat, limit: nat)
    requires NoMergeableNeighbours(r, size, limit)
    requires |r| > 0 ==> 5 * (Total(r[|r| - 1], size) + Total(c, size)) > 6 * limit
    ensures NoMergeableNeighbours(r + [c], size, limit)
  {
    var r' := r + [c];
    forall k | 0 <= k < |r'| - 1 ensures 5 * (Total(r'[k], size) + Total(r'[k + 1], size)) > 6 * limit {
      assert r'[k] == r[k];
      if k + 1 < |r| {
        assert r'[k + 1] == r[k + 1];
      }
    }
  }

  /** What the merging loop keeps after `i` input batches: the emitted
      batches and the open one spell out the first `i` batches, and only an
      input batch can be over 1.2 times the bound. */
  predicate MergeInv(batches: seq<seq<File>>, i: nat, r: seq<seq<File>>, current: seq<File>, currentSize: nat,
                     size: File -> nat, limit: nat)
  {
    i <= |batches| &&
    Flatten(r) + current == Flatten(batches[..i]) &&
    AllNonEmpty(r) &&
    |r| + (if |current| > 0 then 1 else 0) <= i &&
    currentSize == Total(current, size) &&
    (forall k :: 0 <= k < |r| ==> 5 * Total(r[k], size) > 6 * limit ==> r[k] in batches) &&
    (5 * currentSize > 6 * limit ==> current in batches)
  }

  /** The merging loop's maximality: emitted neighbours could not be merged,
      and the open batch could not have joined the last emitted one. */
  predicate MergeMaximal(r: seq<seq<File>>, currentSize: nat, size: File -> nat, limit: nat) {
    NoMergeableNeighbours(r, size, limit) &&
    (|r| > 0 ==> 5 * (Total(r[|r| - 1], size) + currentSize) > 6 * limit)
  }

  /** A batch that did not fit is emitted and the next one opens; the
      maximality is kept. */
  lemma MergeMaximalFlush(r: seq<seq<File>>, current: seq<File>, currentSize: nat, b: seq<File>,
                          size: File -> nat, limit: nat)
    requires MergeMaximal(r, currentSize, size, limit) && currentSize == Total(current, size)
    requires 5 * (currentSize + Total(b, size)) > 6 * limit
    ensures MergeMaximal(if |current| > 0 then r + [current] else r, Total(b, size), size, limit)
  {
    if |current| > 0 {
      PushNeighbours(r, current, size, limit);
      assert (r + [current])[|r|] == current;
    }
  }

  /** The next batch fits: it joins the open one. */
  lemma MergeJoin(batches: seq<seq<File>>, i: nat, r: seq<seq<File>>, current: seq<File>, currentSize: nat,
                  size: File -> nat, limit: nat)
    requires MergeInv(batches, i, r, current, currentSize, size, limit) && i < |batches|
    requires 5 * (currentSize + Total(batches[i], size)) <= 6 * limit
    ensures MergeInv(batches, i + 1, r, current + batches[i], currentSize + Total(batches[i], size), size, limit)
  {
    var b := batches[i];
    FlattenPush(batches[..i], b);
    assert batches[..i + 1] == batches[..i] + [b];
    TotalAppend(current, b, size);
  }

  /** The next batch does not fit: the open one is emitted, when not empty,
      and the next batch opens a new one. */
  lemma MergeFlush(batches: seq<seq<File>>, i: nat, r: seq<seq<File>>, current: seq<File>, currentSize: nat,
                   size: File -> nat, limit: nat)
    requires MergeInv(batches, i, r, current, currentSize, size, limit) && i < |batches|
    ensures var r' := if |current| > 0 then r + [current] else r;
            MergeInv(batches, i + 1, r', batches[i], Total(batches[i], size), size, limit)
  {
    var b := batches[i];
    FlattenPush(batches[..i], b);
    assert batches[..i + 1] == batches[..i] + [b];
    if |current| > 0 {
      FlattenPush(r, current);
      var r' := r + [current];
      forall k | 0 <= k < |r'| ensures |r'[k]| > 0 {
        if k < |r| {
          assert r'[k] == r[k];
        }
      }
      forall k | 0 <= k < |r'| && 5 * Total(r'[k], size) > 6 * limit ensures r'[k] in batches {
        if k < |r| {
          assert r'[k] == r[k];
        }
      }
    } else {
      assert current == [];
    }
  }

  /** After the last input batch the open batch, when not empty, is
      emitted: the result spells out the input. */
  lemma MergeClose(batches: seq<seq<File>>, r: seq<seq<File>>, current: seq<File>, currentSize: nat,
                   size: File -> nat, limit: nat)
    requires MergeInv(batches, |batches|, r, current, currentSize, size, limit)
    requires MergeMaximal(r, currentSize, size, limit)
    ensures var r' := if |current| > 0 then r + [current] else r;
            Flatten(r') == Flatten(batches) && AllNonEmpty(r') && |r'| <= |batches| &&
            (forall i :: 0 <= i < |r'| ==> 5 * Total(r'[i], size) > 6 * limit ==> r'[i] in batches)
  {
    assert batches[..|batches|] == batches;
    if |current| > 0 {
      FlattenPush(r, current);
      var r' := r + [current];
      forall k | 0 <= k < |r'| ensures |r'[k]| > 0 {
        if k < |r| {
          assert r'[k] == r[k];
        }
      }
      forall k | 0 <= k < |r'| && 5 * Total(r'[k], size) > 6 * limit ensures r'[k] in batches {
        if k < |r| {
          assert r'[k] == r[k];
        }
      }
    }
  }

  /** `_optimize_batches`: at most one batch is returned as is; otherwise a
      batch is appended to the current merged batch while the merged size
      stays within 1.2 times `limit`, and starts a new one when it would not. */
  method OptimizeBatches(batches: seq<seq<File>>, size: File -> nat, limit: nat) returns (r: seq<seq<File>>)
    ensures |batches| <= 1 ==> r == batches
    ensures Flatten(r) == Flatten(batches)
    ensures |batches| > 1 ==> AllNonEmpty(r)
    ensures |r| <= |batches|
    ensures |batches| > 1 ==> forall i :: 0 <= i < |r| ==> 5 * Total(r[i], size) > 6 * limit ==> r[i] in batches
    ensures |batches| > 1 ==> NoMergeableNeighbours(r, size, limit)
  {
    if |batches| <= 1 {
      return batches;
    }
    r := [];
    var current: seq<File> := [];
    var currentSize: nat := 0;
    for i := 0 to |batches|
      invariant MergeInv(batches, i, r, current, currentSize, size, limit)
      invariant MergeMaximal(r, currentSize, size, limit)
    {
      var b := batches[i];
      var batchSize := Total(b, size);
      if 5 * (currentSize + batchSize) <= 6 * limit {
        MergeJoin(batches, i, r, current, currentSize, size, limit);
        current := current + b;
        currentSize := currentSize + batchSize;
      } else {
        MergeFlush(batches, i, r, current, currentSize, size, limit);
        MergeMaximalFlush(r, current, currentSize, b, size, limit);
        if |current| > 0 {
          r := r + [current];
        }
        current := b;
        currentSize := batchSize;
      }
    }
    MergeClose(batches, r, current, currentSize, size, limit);
    if |current| > 0 {
      PushNeighbours(r, current, size, limit);
      r := r + [current];
    }
  }

  /** `_create_batches`: the greedy split followed by the merging pass. Every
      file is kept, in order, and a batch over 1.2 times the bound is a
      single file. */
  method CreateBatches(files: seq<File>, size: File -> nat, limit: nat) returns (r: seq<seq<File>>)
    ensures Flatten(r) == files
    ensures AllNonEmpty(r)
    ensures forall i :: 0 <= i < |r| ==> 5 * Total(r[i], size) > 6 * limit ==> |r[i]| == 1
    ensures NoMergeableNeighbours(r, size, limit)
  {
    var greedy := GreedyBatches(files, size, limit);
    r := OptimizeBatches(greedy, size, limit);
    forall i | 0 <= i < |r| && 5 * Total(r[i], size) > 6 * limit ensures |r[i]| == 1 {
      if |greedy| > 1 {
        var k :| 0 <= k < |greedy| && greedy[k] == r[i];
      } else {
        assert r[i] == greedy[i];
      }
    }
  }
}

=== FILE: calendar.dfy ===
/** Proleptic Gregorian dates and date-times as Python's `datetime` sees them:
    field-wise construction that raises on out-of-range components, ordering,
    adding and subtracting whole days, month boundaries, weekdays, ISO weeks
    and the string formats the pipeline prints (`%Y-%m`, `%Y-%m-%d`,
    `%d.%m.%Y`, `YYYY-Www`). */
module Calendar {
  import opened Wrappers
  import Text

  /** A calendar day. */
  datatype Date = Date(year: int, month: int, day: int)

  /** A moment: a day and the seconds elapsed since its midnight. A bare
      `date` of the source is a `DateTime` at midnight. */
  datatype DateTime = DateTime(date: Date, secs: int)

  const SecondsPerDay: int := 86400

  predicate IsLeap(y: int) {
    y % 4 == 0 && (y % 100 != 0 || y % 400 == 0)
  }

  function YearDays(y: int): (r: int)
    ensures r == 365 || r == 366
  {
    if IsLeap(y) then 366 else 365
  }

  function DaysInMonth(y: int, m: int): (r: int)
    requires 1 <= m <= 12
    ensures 28 <= r <= 31
  {
    if m == 2 then (if IsLeap(y) then 29 else 28)
    else if m == 4 || m == 6 || m == 9 || m == 11 then 30
    else 31
  }

  predicate ValidDate(d: Date) {
    1 <= d.month <= 12 && 1 <= d.day <= DaysInMonth(d.year, d.month)
  }

  predicate ValidDateTime(t: DateTime) {
    ValidDate(t.date) && 0 <= t.secs < SecondsPerDay
  }

  /** A `datetime` value: always a real day and a time within it. */
  type Moment = t: DateTime | ValidDateTime(t) witness DateTime(Date(1, 1, 1), 0)

  /** Python's `datetime.MINYEAR` and `datetime.MAXYEAR`. */
  const MinYear := 1
  const MaxYear := 9999

  /** Python's `datetime(year, month, day)`: midnight of that day, or
      `ValueError` when a component is out of range. */
  function MakeDate(y: int, m: int, d: int): (r: Result<Moment>)
    ensures r.Ok? <==> MinYear <= y <= MaxYear && 1 <= m <= 12 && 1 <= d <= DaysInMonth(y, m)
    ensures r.Ok? ==> r.value == DateTime(Date(y, m, d), 0)
  {
    if MinYear <= y <= MaxYear && 1 <= m <= 12 && 1 <= d <= DaysInMonth(y, m) then Ok(DateTime(Date(y, m, d), 0))
    else Err("ValueError: date component out of range")
  }

  function Midnight(d: Date): DateTime {
    DateTime(d, 0)
  }

  /** `d.replace(hour=23, minute=59, second=59)`. */
  function LastSecond(d: Date): DateTime {
    DateTime(d, SecondsPerDay - 1)
  }

  /** Chronological order of days, field by field. */
  predicate DateLess(a: Date, b: Date) {
    a.year < b.year
    || (a.year == b.year && a.month < b.month)
    || (a.year == b.year && a.month == b.month && a.day < b.day)
  }

  /** Python's `a <= b` on `datetime`. */
  predicate Le(a: DateTime, b: DateTime) {
    DateLess(a.date, b.date) || (a.date == b.date && a.secs <= b.secs)
  }

  lemma LeTotal(a: DateTime, b: DateTime)
    ensures Le(a, b) || Le(b, a)
  {
  }

  lemma LeTransitive(a: DateTime, b: DateTime, c: DateTime)
    requires Le(a, b) && Le(b, c)
    ensures Le(a, c)
  {
  }

  // ---------------------------------------------------------------- day numbers

  /** Days from 0001-01-01 to January 1st of `y`. */
  function DaysBeforeYear(y: int): int
    decreases if y >= 1 then y - 1 else 1 - y
  {
    if y == 1 then 0
    else if y > 1 then DaysBeforeYear(y - 1) + YearDays(y - 1)
    else DaysBeforeYear(y + 1) - YearDays(y)
  }

  lemma DaysBeforeYearStep(y: int)
    ensures DaysBeforeYear(y + 1) == DaysBeforeYear(y) + YearDays(y)
  {
  }

  /** Days from January 1st to the first of month `m`. */
  function DaysBeforeMonth(y: int, m: int): (r: int)
    requires 1 <= m <= 12
    ensures 0 <= r && r + DaysInMonth(y, m) <= YearDays(y)
  {
    var leap := if m > 2 && IsLeap(y) then 1 else 0;
    leap + (if m == 1 then 0 else if m == 2 then 31 else if m == 3 then 59
            else if m == 4 then 90 else if m == 5 then 120 else if m == 6 then 151
            else if m == 7 then 181 else if m == 8 then 212 else if m == 9 then 243
            else if m == 10 then 273 else if m == 11 then 304 else 334)
  }

  lemma DaysBeforeMonthStep(y: int, m: int)
    requires 1 <= m < 12
    ensures DaysBeforeMonth(y, m + 1) == DaysBeforeMonth(y, m) + DaysInMonth(y, m)
  {
  }

  /** The number of days since 0001-01-01 (Python's `toordinal() - 1`). */
  function DayNumber(d: Date): int
    requires 1 <= d.month <= 12
  {
    DaysBeforeYear(d.year) + DaysBeforeMonth(d.year, d.month) + d.day - 1
  }

  /** Python's `date.weekday()`: 0 is Monday; 0001-01-01 was a Monday. */
  function Weekday(d: Date): (r: int)
    requires 1 <= d.month <= 12
    ensures 0 <= r < 7
  {
    DayNumber(d) % 7
  }

  /** The last day of the month before `d`'s month. */
  function PrevMonthEnd(d: Date): (r: Date)
    requires ValidDate(d)
    ensures ValidDate(r) && DayNumber(r) == DayNumber(d) - d.day
  {
    if d.month == 1 then
      DaysBeforeYearStep(d.year - 1);
      Date(d.year - 1, 12, 31)
    else
      DaysBeforeMonthStep(d.year, d.month - 1);
      Date(d.year, d.month - 1, DaysInMonth(d.year, d.month - 1))
  }

  /** The first day of the month after `d`'s month. */
  function NextMonthStart(d: Date): (r: Date)
    requires ValidDate(d)
    ensures ValidDate(r) && r.day == 1
    ensures DayNumber(r) == DayNumber(d) + DaysInMonth(d.year, d.month) - d.day + 1
  {
    if d.month == 12 then
      DaysBeforeYearStep(d.year);
      Date(d.year + 1, 1, 1)
    else
      DaysBeforeMonthStep(d.year, d.month);
      Date(d.year, d.month + 1, 1)
  }

  /** `d - timedelta(days=n)`. */
  function MinusDays(d: Date, n: nat): (r: Date)
    requires ValidDate(d)
    ensures ValidDate(r) && DayNumber(r) == DayNumber(d) - n
    decreases n
  {
    if n < d.day then Date(d.year, d.month, d.day - n)
    else MinusDays(PrevMonthEnd(d), n - d.day)
  }

  /** `d + timedelta(days=n)`. */
  function PlusDays(d: Date, n: nat): (r: Date)
    requires ValidDate(d)
    ensures ValidDate(r) && DayNumber(r) == DayNumber(d) + n
    decreases n
  {
    if d.day + n <= DaysInMonth(d.year, d.month) then Date(d.year, d.month, d.day + n)
    else PlusDays(NextMonthStart(d), n - (DaysInMonth(d.year, d.month) - d.day + 1))
  }

  /** `t - timedelta(days=n)`: the time of day is kept. */
  function MinusDaysAt(t: DateTime, n: nat): (r: DateTime)
    requires ValidDateTime(t)
    ensures ValidDateTime(r) && r.secs == t.secs
    ensures DayNumber(r.date) + n == DayNumber(t.date)
  {
    DateTime(MinusDays(t.date, n), t.secs)
  }

  /** A day's position within its year stays below the year's length. */
  lemma DayOfYearBound(d: Date)
    requires ValidDate(d)
    ensures 0 <= DaysBeforeMonth(d.year, d.month) + d.day - 1 < YearDays(d.year)
  {
  }

  /** Every day of year `y` is numbered from DaysBeforeYear(y) on, below the
      first day of year `y + 1`. */
  lemma YearRange(d: Date)
    requires ValidDate(d)
    ensures DaysBeforeYear(d.year) <= DayNumber(d) < DaysBeforeYear(d.year + 1)
  {
    DaysBeforeYearStep(d.year);
  }

  lemma {:induction false} DaysBeforeYearMonotone(a: int, b: int)
    requires a < b
    ensures DaysBeforeYear(a) < DaysBeforeYear(b)
    decreases b - a
  {
    DaysBeforeYearStep(a);
    if a + 1 < b {
      DaysBeforeYearMonotone(a + 1, b);
    }
  }

  /** Day numbers follow the calendar order: the field-wise order of valid
      days is the order of their day numbers. */
  lemma DayNumberOrder(a: Date, b: Date)
    requires ValidDate(a) && ValidDate(b)
    ensures DateLess(a, b) <==> DayNumber(a) < DayNumber(b)
  {
    YearRange(a);
    YearRange(b);
    if a.year < b.year {
      if a.year + 1 < b.year {
        DaysBeforeYearMonotone(a.year + 1, b.year);
      }
    } else if b.year < a.year {
      if b.year + 1 < a.year {
        DaysBeforeYearMonotone(b.year + 1, a.year);
      }
    } else if a.month < b.month {
      MonthOrder(a.year, a.month, b.month);
    } else if b.month < a.month {
      MonthOrder(a.year, b.month, a.month);
    }
  }

  /** Moments compare as their day numbers, then their times of day. */
  lemma LeByDayNumber(a: DateTime, b: DateTime)
    requires ValidDate(a.date) && ValidDate(b.date)
    requires DayNumber(a.date) < DayNumber(b.date) || (DayNumber(a.date) == DayNumber(b.date) && a.secs <= b.secs)
    ensures Le(a, b)
  {
    DayNumberOrder(a.date, b.date);
    if DayNumber(a.date) == DayNumber(b.date) {
      DayNumberInjective(a.date, b.date);
    }
  }

  lemma MonthOrder(y: int, m1: int, m2: int)
    requires 1 <= m1 < m2 <= 12
    ensures DaysBeforeMonth(y, m1) + DaysInMonth(y, m1) <= DaysBeforeMonth(y, m2)
  {
  }

  /** Two valid days with the same number are the same day. */
  lemma DayNumberInjective(a: Date, b: Date)
    requires ValidDate(a) && ValidDate(b) && DayNumber(a) == DayNumber(b)
    ensures a == b
  {
    DayNumberOrder(a, b);
    DayNumberOrder(b, a);
  }

  // ------------------------------------------------------------ month boundaries

  /** `date.replace(day=1)`. */
  function FirstOfMonth(d: Date): (r: Date)
    requires ValidDate(d)
    ensures ValidDate(r) && r.year == d.year && r.month == d.month && r.day == 1
    ensures DayNumber(r) == DayNumber(d) - d.day + 1
  {
    Date(d.year, d.month, 1)
  }

  /** `_last_day_of_month`: day 31 in December, otherwise the day before the
      first of the next month. */
  function LastOfMonth(d: Date): (r: Date)
    requires ValidDate(d)
  {
    if d.month == 12 then Date(d.year, 12, 31)
    else MinusDays(Date(d.year, d.month + 1, 1), 1)
  }

  /** The result of `LastOfMonth` is the last day of the same month. */
  lemma LastOfMonthIsLastDay(d: Date)
    requires ValidDate(d)
    ensures ValidDate(LastOfMonth(d))
    ensures LastOfMonth(d) == Date(d.year, d.month, DaysInMonth(d.year, d.month))
  {
    if d.month < 12 {
      var first := Date(d.year, d.month + 1, 1);
      var r := MinusDays(first, 1);
      assert r == MinusDays(PrevMonthEnd(first), 0);
    }
  }

  // ------------------------------------------------------------------ ISO weeks

  /** ISO 8601 week-numbering year and week of `d` (Python's `isocalendar()`
      first two fields): the week belongs to the year of its Thursday. */
  function IsoWeek(d: Date): (r: (int, int))
    requires ValidDate(d)
    ensures 1 <= r.1 <= 53
  {
    var wd := Weekday(d);
    var th := if wd <= 3 then PlusDays(d, 3 - wd) else MinusDays(d, wd - 3);
    DayOfYearBound(th);
    (th.year, (DaysBeforeMonth(th.year, th.month) + th.day - 1) / 7 + 1)
  }

  // -------------------------------------------------------------------- formats

  /** `%Y`: the year on (at least) four digits. */
  function YearText(y: int): string {
    if y < 0 then "-" + Text.ZeroPad(Text.NatToDecimal(-y), 4)
    else Text.ZeroPad(Text.NatToDecimal(y), 4)
  }

  /** `%m`, `%d`, `%02d`: two digits. */
  function TwoDigits(n: nat): (r: string)
    ensures n < 100 ==> |r| == 2
  {
    Text.ZeroPad(Text.NatToDecimal(n), 2)
  }

  /** `strftime('%Y-%m')`: the monthly trend bucket. */
  function MonthKey(d: Date): string
    requires ValidDate(d)
  {
    YearText(d.year) + "-" + TwoDigits(d.month)
  }

  /** `strftime('%Y-%m-%d')`: the daily trend bucket and the date-range text. */
  function DayKey(d: Date): string
    requires ValidDate(d)
  {
    YearText(d.year) + "-" + TwoDigits(d.month) + "-" + TwoDigits(d.day)
  }

  /** `f"{year}-W{week:02d}"` from `isocalendar()`: the weekly trend bucket. */
  function WeekKey(d: Date): string
    requires ValidDate(d)
  {
    var (y, w) := IsoWeek(d);
    (if y < 0 then "-" + Text.NatToDecimal(-y) else Text.NatToDecimal(y)) + "-W" + TwoDigits(w)
  }

  /** `strftime('%d.%m.%Y')`: the format of period descriptions. */
  function DotFormat(d: Date): string
    requires ValidDate(d)
  {
    TwoDigits(d.day) + "." + TwoDigits(d.month) + "." + YearText(d.year)
  }
}

=== FILE: callstore.dfy ===
/** The call stores: the older orchestrator's JSON-directory loader
    (`JSONDataLoader.load_all_calls`), the Colab CSV loader
    (`DriveDataLoader.load_all_calls`) and the one-off `convert_json_to_csv`.
    Directory listings, file contents and modification times are parameters;
    a file that cannot be opened or decoded has no content. */
module CallStore {
  import opened Wrappers
  import Text
  import Calendar
  import Seqs
  import Sorting
  import FileDates
  import opened Domain

  // ------------------------------------------------------------------ inputs

  /** The `tags` object of a call file. */
  datatype TagsObject = TagsObject(fixedTags: Option<seq<string>>)

  /** The `transcription` object of a call file. */
  datatype Transcription = Transcription(text: Option<string>)

  /** The keys of a call JSON file that the loaders read; `None` is a missing
      key. */
  datatype CallJson = CallJson(
    text: Option<string>,
    reason: Option<string>,
    transcription: Option<Transcription>,
    tags: Option<TagsObject>)

  /** A directory entry: its name, its decoded content (`None` when it cannot
      be read as JSON) and its modification time (`None` when unavailable). */
  datatype DirEntry = DirEntry(name: string, content: Option<CallJson>, mtime: Option<Calendar.Moment>)

  function NameOf(e: DirEntry): string { e.name }

  predicate IsJsonName(name: string) {
    Text.EndsWith(name, ".json")
  }

  /** `os.path.join(directory, name)` for a plain file name. */
  function JoinPath(directory: string, name: string): (r: string)
    ensures Text.EndsWith(r, name)
  {
    if |directory| == 0 then name
    else if Text.EndsWith(directory, "/") then directory + name
    else directory + "/" + name
  }

  // ------------------------------------------------------------------ limits

  /** Python truthiness of the optional `limit` argument. */
  predicate LimitSet(limit: Option<int>) {
    limit.Some? && limit.value != 0
  }

  /** `calls[:limit]` with Python's slice rule for a negative bound. */
  function SliceTo<T>(s: seq<T>, limit: int): (r: seq<T>)
    ensures limit >= 0 ==> r == s[..if limit < |s| then limit else |s|]
    ensures limit < 0 ==> r == s[..if |s| + limit > 0 then |s| + limit else 0]
  {
    if limit >= 0 then s[..if limit < |s| then limit else |s|]
    else s[..if |s| + limit > 0 then |s| + limit else 0]
  }

  /** The cached answer: `cache[:limit] if limit else cache`. */
  function FromCache(cache: seq<CallRecord>, limit: Option<int>): (r: seq<CallRecord>)
    ensures |r| <= |cache| && r == cache[..|r|]
    ensures !LimitSet(limit) ==> r == cache
    ensures LimitSet(limit) && limit.value > 0 ==> |r| == if limit.value < |cache| then limit.value else |cache|
  {
    if LimitSet(limit) then SliceTo(cache, limit.value) else cache
  }

  /** How many records a loop that starts numbering at `id` keeps before its
      `if limit and id + 1 >= limit: break`: at least one, since the check
      runs after a record is appended. */
  function Quota(limit: Option<int>, id: nat, available: nat): (r: nat)
    ensures r <= available
    ensures !LimitSet(limit) ==> r == available
    ensures LimitSet(limit) && available > 0 ==> r >= 1
  {
    if !LimitSet(limit) then available
    else
      var cap := if limit.value - id >= 1 then limit.value - id else 1;
      if cap < available then cap else available
  }

  /** Renumber records `id`, `id + 1`, ... */
  function Numbered(cs: seq<CallRecord>, id: nat): (r: seq<CallRecord>)
    ensures |r| == |cs|
    ensures forall i :: 0 <= i < |r| ==> r[i] == cs[i].(id := id + i)
  {
    seq(|cs|, i requires 0 <= i < |cs| => cs[i].(id := id + i))
  }

  // ------------------------------------------------------ JSON-directory store

  /** One file of the older loader: skipped unless it is a `.json` file that
      decodes, whose name yields a date, and which has a `tags` object
      (`data.get('tags').get(...)` raises otherwise). */
  function JsonStoreRecord(directory: string, e: DirEntry, id: nat, now: Calendar.Moment): (r: Option<CallRecord>)
    ensures r.Some? ==> IsJsonName(e.name) && e.content.Some? && e.content.value.tags.Some?
    ensures r.Some? ==> r.value.id == id && r.value.fileName == e.name && r.value.callDate.Some?
    ensures r.Some? ==> r.value.sourceFile == JoinPath(directory, e.name)
    ensures r.Some? ==> r.value.tags == e.content.value.tags.value.fixedTags.GetOr([])
    ensures r.None? <==> !IsJsonName(e.name) || e.content.None? ||
                         FileDates.DateForJsonStore(e.name, e.mtime, now).Err? || e.content.value.tags.None?
  {
    if !IsJsonName(e.name) || e.content.None? then None
    else
      match FileDates.DateForJsonStore(e.name, e.mtime, now)
      case Err(_) => None
      case Ok(date) =>
        var data := e.content.value;
        if data.tags.None? then None
        else Some(CallRecord(id, e.name, Some(date), data.text.GetOr(""), data.reason.GetOr(""),
                             data.tags.value.fixedTags.GetOr([]), JoinPath(directory, e.name)))
  }

  /** Whether a file loads does not depend on the id it would get. */
  lemma JsonStoreRecordId(directory: string, e: DirEntry, id: nat, now: Calendar.Moment)
    ensures JsonStoreRecord(directory, e, id, now).Some? <==> JsonStoreRecord(directory, e, 0, now).Some?
    ensures JsonStoreRecord(directory, e, id, now).Some? ==>
              JsonStoreRecord(directory, e, id, now).value == JsonStoreRecord(directory, e, 0, now).value.(id := id)
  {
  }

  function JsonStoreLoader(directory: string, now: Calendar.Moment): DirEntry -> Option<CallRecord> {
    e => JsonStoreRecord(directory, e, 0, now)
  }

  /** A loading loop over `files` that numbers the records it keeps from
      `id` on and stops after the record that reaches `limit`; `load` builds
      a file's record (with id 0) or fails. */
  function LimitedLoad(files: seq<DirEntry>, load: DirEntry -> Option<CallRecord>, id: nat, limit: Option<int>): (r: seq<CallRecord>)
    decreases |files|
  {
    if |files| == 0 then []
    else
      match load(files[0])
      case None => LimitedLoad(files[1..], load, id, limit)
      case Some(c) =>
        if LimitSet(limit) && id + 1 >= limit.value then [c.(id := id)]
        else [c.(id := id)] + LimitedLoad(files[1..], load, id + 1, limit)
  }

  /** Numbering a record and then the rest from the next id. */
  lemma NumberedCons(c: CallRecord, cs: seq<CallRecord>, id: nat)
    ensures Numbered([c] + cs, id) == [c.(id := id)] + Numbered(cs, id + 1)
  {
    var lhs := [c.(id := id)] + Numbered(cs, id + 1);
    forall i | 0 <= i < |lhs| ensures lhs[i] == Numbered([c] + cs, id)[i] {
      if i > 0 {
        assert lhs[i] == Numbered(cs, id + 1)[i - 1];
        assert ([c] + cs)[i] == cs[i - 1];
      }
    }
  }

  /** The loop keeps a prefix of the loadable files, numbered consecutively
      from `id`; the length of the prefix is the limit's quota. */
  lemma {:induction false} LimitedLoadPrefix(files: seq<DirEntry>, load: DirEntry -> Option<CallRecord>, id: nat, limit: Option<int>)
    ensures var all := Seqs.FilterMap(files, load);
            LimitedLoad(files, load, id, limit) == Numbered(all[..Quota(limit, id, |all|)], id)
    decreases |files|
  {
    var all := Seqs.FilterMap(files, load);
    if |files| > 0 {
      var rest := Seqs.FilterMap(files[1..], load);
      match load(files[0])
      case None =>
        LimitedLoadPrefix(files[1..], load, id, limit);
        assert all == rest;
      case Some(c0) =>
        assert all == [c0] + rest;
        if LimitSet(limit) && id + 1 >= limit.value {
          assert Quota(limit, id, |all|) == 1;
          assert all[..1] == [c0];
        } else {
          LimitedLoadPrefix(files[1..], load, id + 1, limit);
          var q := Quota(limit, id, |all|);
          assert q >= 1 && Quota(limit, id + 1, |rest|) == q - 1;
          assert all[..q] == [c0] + rest[..q - 1];
          NumberedCons(c0, rest[..q - 1], id);
        }
    }
  }

  /** Records in non-decreasing file-name order. */
  predicate NameOrdered(cs: seq<CallRecord>) {
    forall i, j :: 0 <= i < j < |cs| ==> Text.LexLessEq(cs[i].fileName, cs[j].fileName)
  }

  /** The first loadable file's record precedes, by name, every later one. */
  lemma HeadBeforeRest(files: seq<DirEntry>, load: DirEntry -> Option<CallRecord>)
    requires |files| > 0 && Sorting.SortedBy(files, NameOf)
    requires forall e :: load(e).Some? ==> load(e).value.fileName == e.name
    requires load(files[0]).Some?
    ensures forall j :: 0 <= j < |Seqs.FilterMap(files[1..], load)| ==>
              Text.LexLessEq(load(files[0]).value.fileName, Seqs.FilterMap(files[1..], load)[j].fileName)
  {
    var rest := Seqs.FilterMap(files[1..], load);
    Seqs.FilterMapFrom(files[1..], load);
    forall j | 0 <= j < |rest| ensures Text.LexLessEq(files[0].name, rest[j].fileName) {
      var k :| 0 <= k < |files[1..]| && load(files[1..][k]) == Some(rest[j]);
      assert files[1..][k] == files[k + 1];
      assert NameOf(files[0]) == files[0].name && NameOf(files[k + 1]) == files[k + 1].name;
    }
  }

  /** Records that keep their file's name appear in the files' name order. */
  lemma {:induction false} LoadedInNameOrder(files: seq<DirEntry>, load: DirEntry -> Option<CallRecord>)
    requires Sorting.SortedBy(files, NameOf)
    requires forall e :: load(e).Some? ==> load(e).value.fileName == e.name
    ensures NameOrdered(Seqs.FilterMap(files, load))
    decreases |files|
  {
    if |files| > 0 {
      var rest := Seqs.FilterMap(files[1..], load);
      Sorting.SortedTail(files, NameOf);
      LoadedInNameOrder(files[1..], load);
      if load(files[0]).Some? {
        HeadBeforeRest(files, load);
        SortedCons(load(files[0]).value, rest);
        assert Seqs.FilterMap(files, load) == [load(files[0]).value] + rest;
      } else {
        assert Seqs.FilterMap(files, load) == rest;
      }
    }
  }

  lemma SortedCons(c: CallRecord, rest: seq<CallRecord>)
    requires NameOrdered(rest)
    requires forall j :: 0 <= j < |rest| ==> Text.LexLessEq(c.fileName, rest[j].fileName)
    ensures NameOrdered([c] + rest)
  {
    var all := [c] + rest;
    forall i, j | 0 <= i < j < |all| ensures Text.LexLessEq(all[i].fileName, all[j].fileName) {
      assert all[j] == rest[j - 1];
      if i > 0 {
        assert all[i] == rest[i - 1];
      }
    }
  }

  /** The source's loop builds each record with `id = files_processed`;
      building it with id 0 and renumbering is the same thing. */
  lemma JsonStoreLoopIsLimitedLoad(directory: string, files: seq<DirEntry>, now: Calendar.Moment, id: nat, limit: Option<int>)
    ensures JsonStoreLoop(directory, files, now, id, limit) == LimitedLoad(files, JsonStoreLoader(directory, now), id, limit)
    decreases |files|
  {
    if |files| > 0 {
      JsonStoreRecordId(directory, files[0], id, now);
      JsonStoreLoopIsLimitedLoad(directory, files[1..], now, id, limit);
      JsonStoreLoopIsLimitedLoad(directory, files[1..], now, id + 1, limit);
    }
  }

  /** The `for filename in sorted(...)` loop as written: `id` counts the files
      loaded so far and the loop stops after the record that reaches
      `limit`. */
  function JsonStoreLoop(directory: string, files: seq<DirEntry>, now: Calendar.Moment, id: nat, limit: Option<int>): (r: seq<CallRecord>)
    decreases |files|
  {
    if |files| == 0 then []
    else
      match JsonStoreRecord(directory, files[0], id, now)
      case None => JsonStoreLoop(directory, files[1..], now, id, limit)
      case Some(c) =>
        if LimitSet(limit) && id + 1 >= limit.value then [c]
        else [c] + JsonStoreLoop(directory, files[1..], now, id + 1, limit)
  }

  /** What every loaded record satisfies. */
  lemma LoadedRecords(directory: string, files: seq<DirEntry>, now: Calendar.Moment)
    ensures forall c :: c in Seqs.FilterMap(files, JsonStoreLoader(directory, now)) ==>
              IsJsonName(c.fileName) && c.callDate.Some?
  {
    var all := Seqs.FilterMap(files, JsonStoreLoader(directory, now));
    Seqs.FilterMapFrom(files, JsonStoreLoader(directory, now));
    forall c | c in all ensures IsJsonName(c.fileName) && c.callDate.Some? {
      var i :| 0 <= i < |all| && all[i] == c;
      var j :| 0 <= j < |files| && JsonStoreLoader(directory, now)(files[j]) == Some(c);
    }
  }

  /** What a fresh load of the sorted listing returns. */
  lemma FreshLoad(directory: string, files: seq<DirEntry>, limit: Option<int>, now: Calendar.Moment)
    requires Sorting.SortedBy(files, NameOf)
    ensures var calls := JsonStoreLoop(directory, files, now, 0, limit);
            var all := Seqs.FilterMap(files, JsonStoreLoader(directory, now));
            calls == Numbered(all[..Quota(limit, 0, |all|)], 0) &&
            (forall i :: 0 <= i < |calls| ==> calls[i].id == i) &&
            (forall i :: 0 <= i < |calls| ==> IsJsonName(calls[i].fileName) && calls[i].callDate.Some?) &&
            NameOrdered(calls)
  {
    var load := JsonStoreLoader(directory, now);
    var calls := JsonStoreLoop(directory, files, now, 0, limit);
    JsonStoreLoopIsLimitedLoad(directory, files, now, 0, limit);
    LimitedLoadPrefix(files, load, 0, limit);
    LoadedRecords(directory, files, now);
    LoadedInNameOrder(files, load);
    var all := Seqs.FilterMap(files, load);
    assert forall i :: 0 <= i < |calls| ==> calls[i].fileName == all[i].fileName && calls[i].callDate == all[i].callDate;
    assert forall i :: 0 <= i < |calls| ==> all[i] in all;
  }

  /** `JSONDataLoader.load_all_calls`: returns the records and the new
      cache. A filled cache answers every later call, whatever the directory
      holds by then; otherwise the directory is read in sorted name order. */
  function LoadJsonStore(cache: Option<seq<CallRecord>>, directory: string, listing: seq<DirEntry>,
                         limit: Option<int>, now: Calendar.Moment): (r: (seq<CallRecord>, Option<seq<CallRecord>>))
    ensures cache.Some? ==> r.1 == cache && r.0 == FromCache(cache.value, limit)
    ensures cache.None? ==> r.1 == Some(r.0)
    ensures cache.None? ==> forall i :: 0 <= i < |r.0| ==> r.0[i].id == i
    ensures cache.None? ==>
              var all := Seqs.FilterMap(Sorting.SortBy(listing, NameOf), JsonStoreLoader(directory, now));
              r.0 == Numbered(all[..Quota(limit, 0, |all|)], 0)
    ensures cache.None? ==> forall i :: 0 <= i < |r.0| ==> IsJsonName(r.0[i].fileName) && r.0[i].callDate.Some?
    ensures cache.None? ==> NameOrdered(r.0)
  {
    if cache.Some? then (FromCache(cache.value, limit), cache)
    else
      var files := Sorting.SortBy(listing, NameOf);
      FreshLoad(directory, files, limit, now);
      var calls := JsonStoreLoop(directory, files, now, 0, limit);
      (calls, Some(calls))
  }

  /** With a positive limit, a fresh load returns at most `limit` records. */
  lemma FreshLoadBounded(directory: string, listing: seq<DirEntry>, limit: int, now: Calendar.Moment)
    requires limit >= 1
    ensures |LoadJsonStore(None, directory, listing, Some(limit), now).0| <= limit
  {
    var all := Seqs.FilterMap(Sorting.SortBy(listing, NameOf), JsonStoreLoader(directory, now));
    assert Quota(Some(limit), 0, |all|) <= limit;
  }

  // ---------------------------------------------------------- Colab CSV store

  /** One CSV row as pandas hands it over: `date` is NaT-able, `text` may be
      missing, `tags` is already a list. */
  datatype CsvRow = CsvRow(date: Option<Calendar.Moment>, text: Option<string>, summary: string, tags: seq<string>)

  /** A CSV file that reads, has the required columns, and maybe a
      `summary` column. */
  datatype CsvTable = CsvTable(hasSummary: bool, rows: seq<CsvRow>)

  predicate IsCsvName(name: string) {
    Text.EndsWith(name, ".csv")
  }

  function CsvRecord(directory: string, fileName: string, table: CsvTable, idx: nat): CallRecord
    requires idx < |table.rows|
  {
    var row := table.rows[idx];
    CallRecord(idx, fileName, row.date, row.text.GetOr(""), if table.hasSummary then row.summary else "",
               row.tags, JoinPath(directory, fileName))
  }

  /** The `for idx, row in df.iterrows()` loop from row `idx` on, with its
      `if limit and idx + 1 >= limit: break`. */
  function CsvLoop(directory: string, fileName: string, table: CsvTable, idx: nat, limit: Option<int>): (r: seq<CallRecord>)
    requires idx <= |table.rows|
    ensures |r| == Quota(limit, idx, |table.rows| - idx)
    ensures forall i :: 0 <= i < |r| ==> r[i] == CsvRecord(directory, fileName, table, idx + i)
    decreases |table.rows| - idx
  {
    if idx == |table.rows| then []
    else
      var c := CsvRecord(directory, fileName, table, idx);
      if LimitSet(limit) && idx + 1 >= limit.value then [c]
      else
        var rest := CsvLoop(directory, fileName, table, idx + 1, limit);
        assert forall i :: 1 <= i < |rest| + 1 ==> ([c] + rest)[i] == rest[i - 1];
        [c] + rest
  }

  /** `DriveDataLoader.load_all_calls`. `listing` is `None` when the
      directory is missing or cannot be listed; `read` gives the table of a
      CSV file, or `None` when it is empty, unreadable or lacks a required
      column. Only the first CSV name of the listing is read, and only a
      successful read fills the cache. The cache is filled before the date
      range is printed; when the first record is undated (NaT), `min` and
      `max` of the dates are NaT, its `strftime` raises, and the outer
      handler returns nothing with the cache already filled. */
  function LoadCsvStore(cache: Option<seq<CallRecord>>, directory: string, listing: Option<seq<string>>,
                        read: string -> Option<CsvTable>, limit: Option<int>): (r: (seq<CallRecord>, Option<seq<CallRecord>>))
    ensures cache.Some? ==> r.1 == cache && r.0 == FromCache(cache.value, limit)
    ensures cache.None? && r.1.None? ==> r.0 == []
    ensures cache.None? ==>
              (r.1.Some? <==> listing.Some? && (exists n :: n in listing.value && IsCsvName(n)) &&
                              read(Seqs.Filter(listing.value, IsCsvName)[0]).Some?)
    ensures cache.None? && r.1.Some? ==>
              var name := Seqs.Filter(listing.value, IsCsvName)[0];
              var table := read(name).value;
              var calls := r.1.value;
              |calls| == Quota(limit, 0, |table.rows|) &&
              (forall i :: 0 <= i < |calls| ==> calls[i].id == i && calls[i] == CsvRecord(directory, name, table, i)) &&
              (r.0 == calls <==> |calls| == 0 || calls[0].callDate.Some?) &&
              (r.0 != calls ==> r.0 == [])
  {
    if cache.Some? then (FromCache(cache.value, limit), cache)
    else if listing.None? then ([], None)
    else
      var csvs := Seqs.Filter(listing.value, IsCsvName);
      if |csvs| == 0 then ([], None)
      else
        assert csvs[0] in csvs;
        match read(csvs[0])
        case None => ([], None)
        case Some(table) =>
          var calls := CsvLoop(directory, csvs[0], table, 0, limit);
          if |calls| > 0 && calls[0].callDate.None? then ([], Some(calls)) else (calls, Some(calls))
  }

  // ------------------------------------------------------- convert_json_to_csv

  /** A row of the CSV that `convert_json_to_csv` writes. */
  datatype CsvOut = CsvOut(date: Calendar.Moment, text: string, tags: seq<string>, summary: string, sourceFile: string)

  /** One file: skipped unless it is a `.json` file that decodes, whose name
      yields a valid date, and which has a `transcription` object; a missing
      `tags` object or `fixed_tags` list means no tags. */
  function CsvOutRow(e: DirEntry, now: Calendar.Moment): (r: Option<CsvOut>)
    ensures r.None? <==> !IsJsonName(e.name) || e.content.None? ||
                         FileDates.DateForCsv(e.name, now).Err? || e.content.value.transcription.None?
    ensures r.Some? ==> r.value.sourceFile == e.name && r.value.date == FileDates.DateForCsv(e.name, now).value
    ensures r.Some? && e.content.value.tags.None? ==> r.value.tags == []
    ensures r.Some? && e.content.value.tags.Some? ==> r.value.tags == e.content.value.tags.value.fixedTags.GetOr([])
    ensures r.Some? ==> r.value.text == e.content.value.transcription.value.text.GetOr("") &&
                        r.value.summary == e.content.value.reason.GetOr("")
  {
    if !IsJsonName(e.name) || e.content.None? then None
    else
      match FileDates.DateForCsv(e.name, now)
      case Err(_) => None
      case Ok(date) =>
        var data := e.content.value;
        if data.transcription.None? then None
        else
          var tags := if data.tags.None? then [] else data.tags.value.fixedTags.GetOr([]);
          Some(CsvOut(date, data.transcription.value.text.GetOr(""), tags, data.reason.GetOr(""), e.name))
  }

  function CsvOutConverter(now: Calendar.Moment): DirEntry -> Option<CsvOut> {
    e => CsvOutRow(e, now)
  }

  /** `convert_json_to_csv`: the rows of the convertible files in listing
      order (not sorted), or `None` when there are none. */
  function ConvertJsonToCsv(listing: seq<DirEntry>, now: Calendar.Moment): (r: Option<seq<CsvOut>>)
    ensures r.None? <==> forall j :: 0 <= j < |listing| ==> CsvOutRow(listing[j], now).None?
    ensures r.Some? ==> r.value == Seqs.FilterMap(listing, CsvOutConverter(now)) && |r.value| >= 1
    ensures r.Some? ==> forall i :: 0 <= i < |r.value| ==>
              exists j :: 0 <= j < |listing| && CsvOutRow(listing[j], now) == Some(r.value[i])
  {
    var rows := Seqs.FilterMap(listing, CsvOutConverter(now));
    Seqs.FilterMapEmpty(listing, CsvOutConverter(now));
    Seqs.FilterMapFrom(listing, CsvOutConverter(now));
    if |rows| == 0 then None else Some(rows)
  }
}

=== FILE: domain.dfy ===
/** The records shared by the planners, the loaders and the executor: metric
    kinds, analysis plans, the planner's raw JSON answer and call records. */
module Domain {
  import opened Wrappers
  import Text
  import Calendar

  /** `MetricType`; `SentimentTrend` exists only in the LLM query planner. */
  datatype MetricKind = CountByTag | TopNTags | TagTrends | Comparison | SummaryStats | SentimentTrend

  /** A plan's `time_period`: inclusive bounds and a human-readable label. */
  datatype Period = Period(start: Calendar.Moment, end: Calendar.Moment, description: string)

  /** `AnalysisPlan`. An absent `comparison_tags` is the empty list: the
      executor only ever reads it through `comparison_tags or ...`. */
  datatype Plan = Plan(
    period: Period,
    targetTags: seq<string>,
    metrics: seq<MetricKind>,
    grouping: string,
    comparisonTags: seq<string>)

  /** The `time_period` object of the planner's JSON answer; `None` is a
      missing key. */
  datatype RawPeriod = RawPeriod(
    kind: Option<string>,
    description: Option<string>,
    start: Option<string>,
    end: Option<string>)

  /** The planner's JSON answer; `None` is a missing key. */
  datatype RawPlan = RawPlan(
    period: Option<RawPeriod>,
    targetTags: Option<seq<string>>,
    metrics: Option<seq<string>>,
    grouping: Option<string>,
    comparisonTags: Option<seq<string>>)

  /** `dict.get(key, default)` on a string field: an empty string is kept. */
  function StringOr(v: Option<string>, default: string): string {
    v.GetOr(default)
  }

  /** Python truthiness of an optional string: present and non-empty. */
  predicate Truthy(v: Option<string>) {
    v.Some? && |v.value| > 0
  }

  /** One call as the executor sees it. `callDate` is `None` for pandas' NaT
      (an empty date cell in the CSV store). `id` is the `n` of `call_n`. */
  datatype CallRecord = CallRecord(
    id: nat,
    fileName: string,
    callDate: Option<Calendar.Moment>,
    fullText: string,
    summary: string,
    tags: seq<string>,
    sourceFile: string)

  /** The textual id `call_n`. */
  function IdText(c: CallRecord): (r: string)
    ensures Text.StartsWith(r, "call_") && Text.AllDigits(r[5..])
    ensures Text.DigitsValue(r[5..]) == c.id
  {
    var digits := Text.NatToDecimal(c.id);
    Text.DecimalRoundTrip(c.id);
    assert ("call_" + digits)[5..] == digits;
    "call_" + digits
  }

  /** `text_length`. */
  function TextLength(c: CallRecord): nat {
    |c.fullText|
  }

  /** Every tag occurrence of every call, in call order then tag order. */
  function Occurrences(calls: seq<CallRecord>): (r: seq<string>)
    ensures |calls| == 0 ==> r == []
    decreases |calls|
  {
    if |calls| == 0 then [] else calls[0].tags + Occurrences(calls[1..])
  }

  lemma {:induction false} OccurrencesAppend(a: seq<CallRecord>, b: seq<CallRecord>)
    ensures Occurrences(a + b) == Occurrences(a) + Occurrences(b)
    decreases |a|
  {
    if |a| == 0 {
      assert a + b == b;
    } else {
      assert (a + b)[0] == a[0];
      assert (a + b)[1..] == a[1..] + b;
      OccurrencesAppend(a[1..], b);
    }
  }
}

=== FILE: executor.dfy ===
/** `JSONQueryExecutor`: runs an analysis plan over the loaded calls. Both
    orchestrators carry a copy; they differ only in the empty-store
    short-circuit, the `tag_trends` guard and the `data_source` field. */
module Executor {
  import opened Wrappers
  import Seqs
  import Calendar
  import Tally
  import Ranking
  import Matching
  import opened Domain

  // ------------------------------------------------------------ period filter

  /** `start <= call_date <= end`; a missing date (NaT) compares false. */
  predicate InPeriod(c: CallRecord, p: Period) {
    c.callDate.Some? && Calendar.Le(p.start, c.callDate.value) && Calendar.Le(c.callDate.value, p.end)
  }

  /** `_filter_calls_by_period`: the calls inside the period, both ends
      included, in their original order. */
  function FilterByPeriod(calls: seq<CallRecord>, p: Period): (r: seq<CallRecord>)
    ensures Seqs.IsSubsequence(r, calls)
    ensures forall c :: c in r <==>
              c in calls && c.callDate.Some? &&
              Calendar.Le(p.start, c.callDate.value) && Calendar.Le(c.callDate.value, p.end)
    ensures forall c :: c in calls && InPeriod(c, p) ==> multiset(r)[c] == multiset(calls)[c]
    ensures forall c :: c in r ==> c.callDate.Some?
  {
    Seqs.Filter(calls, InPeriodOf(p))
  }

  function InPeriodOf(p: Period): CallRecord -> bool {
    c => InPeriod(c, p)
  }

  /** A call outside the period is dropped wherever it stands. */
  lemma FilterSkipsOutside(a: seq<CallRecord>, c: CallRecord, b: seq<CallRecord>, p: Period)
    requires !InPeriod(c, p)
    ensures FilterByPeriod(a + [c] + b, p) == FilterByPeriod(a + b, p)
  {
    var inP := InPeriodOf(p);
    assert Seqs.Filter([c], inP) == [] by {
      assert [c][1..] == [];
    }
    Seqs.FilterAppend(a, [c], inP);
    assert Seqs.Filter(a + [c], inP) == Seqs.Filter(a, inP);
    Seqs.FilterAppend(a + [c], b, inP);
    Seqs.FilterAppend(a, b, inP);
  }

  /** Filtering a second time changes nothing. */
  lemma FilterByPeriodIdempotent(calls: seq<CallRecord>, p: Period)
    ensures FilterByPeriod(FilterByPeriod(calls, p), p) == FilterByPeriod(calls, p)
  {
    Seqs.FilterIdempotent(calls, InPeriodOf(p));
  }

  // ------------------------------------------------------------ count by tag

  /** The target each tag occurrence is counted towards, in traversal order. */
  function Attributions(calls: seq<CallRecord>, targets: seq<string>): seq<string> {
    Matching.MatchAll(Occurrences(calls), targets)
  }

  /** Reference count: the tag occurrences whose first matching target is `t`. */
  function Attributed(occ: seq<string>, targets: seq<string>, t: string): nat
    decreases |occ|
  {
    if |occ| == 0 then 0
    else (if Matching.FirstMatch(occ[0], targets) == Some(t) then 1 else 0) + Attributed(occ[1..], targets, t)
  }

  lemma {:induction false} AttributionCount(occ: seq<string>, targets: seq<string>, t: string)
    ensures multiset(Matching.MatchAll(occ, targets))[t] == Attributed(occ, targets, t)
    decreases |occ|
  {
    if |occ| > 0 {
      AttributionCount(occ[1..], targets, t);
    }
  }

  /** `_count_by_tag`: per target, the number of tag occurrences it wins;
      targets that win nothing are absent. */
  function CountByTag(calls: seq<CallRecord>, targets: seq<string>): (r: seq<Tally.Entry<string>>)
    ensures Tally.WellFormed(r)
    ensures forall k :: k in Tally.Keys(r) ==> k in targets
    ensures forall t :: Tally.Get(r, t) == Attributed(Occurrences(calls), targets, t)
    ensures Tally.Sum(r) <= |Occurrences(calls)|
  {
    var a := Attributions(calls, targets);
    forall t ensures multiset(a)[t] == Attributed(Occurrences(calls), targets, t) {
      AttributionCount(Occurrences(calls), targets, t);
    }
    Tally.TallyAll(a)
  }

  /** A target counted at all is counted under its own name, and a target is
      absent exactly when no occurrence is attributed to it. */
  lemma CountByTagPresence(calls: seq<CallRecord>, targets: seq<string>, t: string)
    ensures t in Tally.Keys(CountByTag(calls, targets)) <==> Attributed(Occurrences(calls), targets, t) > 0
  {
    var r := CountByTag(calls, targets);
    if t in Tally.Keys(r) {
      var i :| 0 <= i < |r| && Tally.Keys(r)[i] == t;
      Tally.GetPresent(r, i);
    } else {
      Tally.GetAbsent(r, t);
    }
  }

  // ------------------------------------------------------------ trends

  predicate AllDated(calls: seq<CallRecord>) {
    forall i :: 0 <= i < |calls| ==> calls[i].callDate.Some?
  }

  /** The bucket key of a call: `%Y-%m`, the ISO week `YYYY-Www`, or `%Y-%m-%d`
      for any other grouping string. */
  function GroupKey(d: Calendar.Moment, grouping: string): string {
    if grouping == "month" then Calendar.MonthKey(d.date)
    else if grouping == "week" then Calendar.WeekKey(d.date)
    else Calendar.DayKey(d.date)
  }

  /** One `trends[target][period_key] += 1`. */
  datatype Hit = Hit(target: string, period: string)

  function CallHits(c: CallRecord, targets: seq<string>, grouping: string): (r: seq<Hit>)
    requires c.callDate.Some?
  {
    var m := Matching.MatchAll(c.tags, targets);
    seq(|m|, i requires 0 <= i < |m| => Hit(m[i], GroupKey(c.callDate.value, grouping)))
  }

  function Hits(calls: seq<CallRecord>, targets: seq<string>, grouping: string): seq<Hit>
    requires AllDated(calls)
    decreases |calls|
  {
    if |calls| == 0 then [] else CallHits(calls[0], targets, grouping) + Hits(calls[1..], targets, grouping)
  }

  function HitTargets(h: seq<Hit>): (r: seq<string>)
    ensures |r| == |h| && forall i :: 0 <= i < |h| ==> r[i] == h[i].target
  {
    seq(|h|, i requires 0 <= i < |h| => h[i].target)
  }

  /** The period keys of the hits on target `t`, in order. */
  function PeriodsOf(h: seq<Hit>, t: string): seq<string>
    decreases |h|
  {
    if |h| == 0 then []
    else if h[0].target == t then [h[0].period] + PeriodsOf(h[1..], t)
    else PeriodsOf(h[1..], t)
  }

  lemma HitTargetsAppend(a: seq<Hit>, b: seq<Hit>)
    ensures HitTargets(a + b) == HitTargets(a) + HitTargets(b)
  {
    assert forall i :: 0 <= i < |a + b| ==> HitTargets(a + b)[i] == (HitTargets(a) + HitTargets(b))[i];
  }

  lemma CallHitTargets(c: CallRecord, targets: seq<string>, grouping: string)
    requires c.callDate.Some?
    ensures HitTargets(CallHits(c, targets, grouping)) == Matching.MatchAll(c.tags, targets)
  {
  }

  /** The trend hits happen exactly where `_count_by_tag` counts. */
  lemma {:induction false} HitTargetsAreAttributions(calls: seq<CallRecord>, targets: seq<string>, grouping: string)
    requires AllDated(calls)
    ensures HitTargets(Hits(calls, targets, grouping)) == Attributions(calls, targets)
    decreases |calls|
  {
    if |calls| > 0 {
      var c := calls[0];
      HitTargetsAreAttributions(calls[1..], targets, grouping);
      HitTargetsAppend(CallHits(c, targets, grouping), Hits(calls[1..], targets, grouping));
      CallHitTargets(c, targets, grouping);
      Matching.MatchAllAppend(c.tags, Occurrences(calls[1..]), targets);
    }
  }

  lemma {:induction false} PeriodsCount(h: seq<Hit>, t: string)
    ensures |PeriodsOf(h, t)| == multiset(HitTargets(h))[t]
    decreases |h|
  {
    if |h| > 0 {
      assert HitTargets(h) == [h[0].target] + HitTargets(h[1..]);
      PeriodsCount(h[1..], t);
    }
  }

  /** One target's series: `{'period': p, 'count': c}` for each non-empty bucket. */
  datatype Trend = Trend(tag: string, buckets: seq<Tally.Entry<string>>)

  /** The trend table built by `_tag_trends` once its guard has passed. */
  function TrendTable(calls: seq<CallRecord>, targets: seq<string>, grouping: string): (r: seq<Trend>)
    requires AllDated(calls)
    ensures |r| == |CountByTag(calls, targets)|
    ensures forall i :: 0 <= i < |r| ==> r[i].tag == CountByTag(calls, targets)[i].key
    ensures forall i :: 0 <= i < |r| ==> Tally.KeysAscending(r[i].buckets)
    ensures forall i, j :: 0 <= i < |r| && 0 <= j < |r[i].buckets| ==> r[i].buckets[j].count >= 1
    ensures forall i :: 0 <= i < |r| ==> Tally.Sum(r[i].buckets) == CountByTag(calls, targets)[i].count
  {
    var h := Hits(calls, targets, grouping);
    var order := Tally.Keys(Tally.TallyAll(HitTargets(h)));
    var r := seq(|order|, i requires 0 <= i < |order| =>
                Trend(order[i], Tally.SortByKey(Tally.TallyAll(PeriodsOf(h, order[i])))));
    TrendTableFacts(calls, targets, grouping, h, order, r);
    r
  }

  lemma TrendTableFacts(calls: seq<CallRecord>, targets: seq<string>, grouping: string,
                        h: seq<Hit>, order: seq<string>, r: seq<Trend>)
    requires AllDated(calls)
    requires h == Hits(calls, targets, grouping)
    requires order == Tally.Keys(Tally.TallyAll(HitTargets(h)))
    requires |r| == |order|
    requires forall i :: 0 <= i < |order| ==>
               r[i] == Trend(order[i], Tally.SortByKey(Tally.TallyAll(PeriodsOf(h, order[i]))))
    ensures |r| == |CountByTag(calls, targets)|
    ensures forall i :: 0 <= i < |r| ==> r[i].tag == CountByTag(calls, targets)[i].key
    ensures forall i :: 0 <= i < |r| ==> Tally.KeysAscending(r[i].buckets)
    ensures forall i, j :: 0 <= i < |r| && 0 <= j < |r[i].buckets| ==> r[i].buckets[j].count >= 1
    ensures forall i :: 0 <= i < |r| ==> Tally.Sum(r[i].buckets) == CountByTag(calls, targets)[i].count
  {
    HitTargetsAreAttributions(calls, targets, grouping);
    var counts := CountByTag(calls, targets);
    assert Tally.TallyAll(HitTargets(h)) == counts;
    forall i | 0 <= i < |r|
      ensures Tally.Sum(r[i].buckets) == counts[i].count
      ensures forall j :: 0 <= j < |r[i].buckets| ==> r[i].buckets[j].count >= 1
    {
      var periods := Tally.TallyAll(PeriodsOf(h, order[i]));
      PeriodsCount(h, order[i]);
      Tally.GetPresent(counts, i);
      forall j | 0 <= j < |r[i].buckets| ensures r[i].buckets[j].count >= 1 {
        assert r[i].buckets[j] in multiset(periods);
      }
    }
  }

  /** `_tag_trends` in the older orchestrator: only an empty target list
      short-circuits. A call without a date (NaT) makes `strftime` raise. */
  function TrendsLegacy(calls: seq<CallRecord>, targets: seq<string>, grouping: string): (r: Result<seq<Trend>>)
    ensures |targets| == 0 ==> r == Ok([])
    ensures r.Err? <==> |targets| > 0 && !AllDated(calls)
  {
    if |targets| == 0 then Ok([])
    else if !AllDated(calls) then Err("ValueError: NaTType does not support strftime")
    else Ok(TrendTable(calls, targets, grouping))
  }

  /** `_tag_trends` in the Colab orchestrator: empty targets or no calls give `{}`. */
  function TrendsColab(calls: seq<CallRecord>, targets: seq<string>, grouping: string): (r: Result<seq<Trend>>)
    ensures |targets| == 0 || |calls| == 0 ==> r == Ok([])
  {
    if |targets| == 0 || |calls| == 0 then Ok([]) else TrendsLegacy(calls, targets, grouping)
  }

  /** The Colab variant's extra guard changes nothing: on no calls the older
      variant also produces an empty table. */
  lemma TrendGuardsAgree(calls: seq<CallRecord>, targets: seq<string>, grouping: string)
    ensures TrendsColab(calls, targets, grouping) == TrendsLegacy(calls, targets, grouping)
  {
    if |calls| == 0 && |targets| > 0 {
      assert |CountByTag(calls, targets)| == 0 by {
        assert Attributions(calls, targets) == [];
      }
    }
  }

  // ------------------------------------------------------------ top N

  function Min(a: nat, b: nat): nat {
    if a < b then a else b
  }

  /** `_top_n_tags`: `Counter(all tag occurrences).most_common(n)`. */
  function TopNTags(calls: seq<CallRecord>, n: nat): (r: seq<Tally.Entry<string>>)
    ensures |r| == Min(n, |set x | x in Occurrences(calls)|)
    ensures Tally.Distinct(Tally.Keys(r))
    ensures forall i :: 0 <= i < |r| ==>
              r[i].key in Occurrences(calls) && r[i].count == multiset(Occurrences(calls))[r[i].key]
    ensures forall i, j :: 0 <= i < j < |r| ==> r[i].count >= r[j].count
    ensures forall i, j :: 0 <= i < j < |r| && r[i].count == r[j].count ==>
              r[i].key in Occurrences(calls) && r[j].key in Occurrences(calls) &&
              Tally.FirstIndex(Occurrences(calls), r[i].key) < Tally.FirstIndex(Occurrences(calls), r[j].key)
    ensures forall x :: x in Occurrences(calls) && x !in Tally.Keys(r) ==>
              forall i :: 0 <= i < |r| ==> multiset(Occurrences(calls))[x] <= r[i].count
  {
    var occ := Occurrences(calls);
    var t := Tally.TallyAll(occ);
    var r := Ranking.MostCommon(t, n);
    TopNFacts(occ, t, n, r);
    r
  }

  lemma TopNFacts(occ: seq<string>, t: seq<Tally.Entry<string>>, n: nat, r: seq<Tally.Entry<string>>)
    requires t == Tally.TallyAll(occ) && r == Ranking.MostCommon(t, n)
    ensures |r| == Min(n, |set x | x in occ|)
    ensures forall i :: 0 <= i < |r| ==> r[i].key in occ && r[i].count == multiset(occ)[r[i].key]
    ensures forall i, j :: 0 <= i < j < |r| && r[i].count == r[j].count ==>
              r[i].key in occ && r[j].key in occ &&
              Tally.FirstIndex(occ, r[i].key) < Tally.FirstIndex(occ, r[j].key)
    ensures forall x :: x in occ && x !in Tally.Keys(r) ==>
              forall i :: 0 <= i < |r| ==> multiset(occ)[x] <= r[i].count
  {
    TopNLength(occ, t);
    TopNCounts(occ, t, r);
    TopNTies(occ, t, r);
    TopNComplete(occ, t, r);
  }

  lemma TopNLength(occ: seq<string>, t: seq<Tally.Entry<string>>)
    requires t == Tally.TallyAll(occ)
    ensures |t| == |set x | x in occ|
  {
    Tally.DistinctCard(Tally.Keys(t));
    assert (set x | x in occ) == (set k | k in Tally.Keys(t));
  }

  /** An entry of the tally is a tag with its number of occurrences. */
  lemma TallyEntry(occ: seq<string>, t: seq<Tally.Entry<string>>, p: nat)
    requires t == Tally.TallyAll(occ) && p < |t|
    ensures t[p].key in occ && t[p].count == multiset(occ)[t[p].key]
  {
    Tally.GetPresent(t, p);
    assert Tally.Keys(t)[p] == t[p].key;
  }

  lemma TopNCounts(occ: seq<string>, t: seq<Tally.Entry<string>>, r: seq<Tally.Entry<string>>)
    requires t == Tally.TallyAll(occ) && forall i :: 0 <= i < |r| ==> r[i] in t
    ensures forall i :: 0 <= i < |r| ==> r[i].key in occ && r[i].count == multiset(occ)[r[i].key]
  {
    forall i | 0 <= i < |r|
      ensures r[i].key in occ && r[i].count == multiset(occ)[r[i].key]
    {
      assert r[i] in t;
      var p := PositionIn(t, r[i]);
      TallyEntry(occ, t, p);
    }
  }

  lemma PositionIn<T>(s: seq<T>, x: T) returns (p: nat)
    requires x in s
    ensures p < |s| && s[p] == x
  {
    p :| p < |s| && s[p] == x;
  }

  lemma TopNTies(occ: seq<string>, t: seq<Tally.Entry<string>>, r: seq<Tally.Entry<string>>)
    requires t == Tally.TallyAll(occ) && forall i :: 0 <= i < |r| ==> r[i] in t
    requires forall i, j :: 0 <= i < j < |r| && r[i].count == r[j].count ==>
               Tally.FirstIndex(Tally.Keys(t), r[i].key) < Tally.FirstIndex(Tally.Keys(t), r[j].key)
    ensures forall i, j :: 0 <= i < j < |r| && r[i].count == r[j].count ==>
              r[i].key in occ && r[j].key in occ &&
              Tally.FirstIndex(occ, r[i].key) < Tally.FirstIndex(occ, r[j].key)
  {
    Tally.TallyKeyOrder(occ);
    forall i, j | 0 <= i < j < |r| && r[i].count == r[j].count
      ensures r[i].key in occ && r[j].key in occ
      ensures Tally.FirstIndex(occ, r[i].key) < Tally.FirstIndex(occ, r[j].key)
    {
      assert r[i] in t && r[j] in t;
      var p := PositionIn(t, r[i]);
      var q := PositionIn(t, r[j]);
      TallyEntry(occ, t, p);
      TallyEntry(occ, t, q);
      Ranking.KeyPosition(t, p);
      Ranking.KeyPosition(t, q);
    }
  }

  lemma TopNComplete(occ: seq<string>, t: seq<Tally.Entry<string>>, r: seq<Tally.Entry<string>>)
    requires t == Tally.TallyAll(occ)
    requires forall e :: e in t && e !in r ==> forall i :: 0 <= i < |r| ==> e.count <= r[i].count
    ensures forall x :: x in occ && x !in Tally.Keys(r) ==>
              forall i :: 0 <= i < |r| ==> multiset(occ)[x] <= r[i].count
  {
    forall x | x in occ && x !in Tally.Keys(r)
      ensures forall i :: 0 <= i < |r| ==> multiset(occ)[x] <= r[i].count
    {
      var p :| 0 <= p < |t| && Tally.Keys(t)[p] == x;
      TallyEntry(occ, t, p);
      assert t[p] in t;
    }
  }

  // ------------------------------------------------------------ comparison

  const NoneLower := "AttributeError: 'NoneType' object has no attribute 'lower'"

  /** The two counts of `_count_by_tag(calls, [t1, t2])` read back with
      `counts.get`: `.0` for `t1`, `.1` for the occurrences `t2` wins. A `None`
      target (the padding) raises as soon as an occurrence reaches it. */
  function PairCounts(occ: seq<string>, t1: Option<string>, t2: Option<string>): (r: Result<(nat, nat)>)
    ensures |occ| == 0 ==> r == Ok((0, 0))
    decreases |occ|
  {
    if |occ| == 0 then Ok((0, 0))
    else
      var rest :- PairCounts(occ[1..], t1, t2);
      if t1.None? then Err(NoneLower)
      else if Matching.Fuzzy(t1.value, occ[0]) then Ok((rest.0 + 1, rest.1))
      else if t2.None? then Err(NoneLower)
      else if Matching.Fuzzy(t2.value, occ[0]) then Ok((rest.0, rest.1 + 1))
      else Ok(rest)
  }

  /** With two real targets, the pair counts are the general count-by-tag. */
  lemma {:induction false} PairCountsAgree(occ: seq<string>, a: string, b: string)
    ensures PairCounts(occ, Some(a), Some(b)).Ok?
    ensures PairCounts(occ, Some(a), Some(b)).value.0 == multiset(Matching.MatchAll(occ, [a, b]))[a]
    ensures a != b ==> PairCounts(occ, Some(a), Some(b)).value.1 == multiset(Matching.MatchAll(occ, [a, b]))[b]
    ensures a == b ==> PairCounts(occ, Some(a), Some(b)).value.1 == 0
    decreases |occ|
  {
    if |occ| > 0 {
      PairCountsAgree(occ[1..], a, b);
      assert [a, b][1..] == [b];
      assert [a, b][1..][1..] == [];
    }
  }

  /** An occurrence that does not match `t1` moves on to the `None` padding. */
  predicate FallsThrough(x: string, t1: Option<string>) {
    t1.None? || !Matching.Fuzzy(t1.value, x)
  }

  /** With at most one real target, the comparison fails exactly when some
      occurrence falls through to the `None` padding. */
  lemma {:induction false} PairCountsFails(occ: seq<string>, t1: Option<string>)
    ensures PairCounts(occ, t1, None).Err? <==> exists i :: 0 <= i < |occ| && FallsThrough(occ[i], t1)
    decreases |occ|
  {
    if |occ| > 0 {
      PairCountsFails(occ[1..], t1);
      assert PairCounts(occ, t1, None).Err? <==>
             PairCounts(occ[1..], t1, None).Err? || FallsThrough(occ[0], t1);
      if exists i :: 0 <= i < |occ[1..]| && FallsThrough(occ[1..][i], t1) {
        var i :| 0 <= i < |occ[1..]| && FallsThrough(occ[1..][i], t1);
        assert occ[1..][i] == occ[i + 1];
      }
      if exists i :: 0 <= i < |occ| && FallsThrough(occ[i], t1) {
        var i :| 0 <= i < |occ| && FallsThrough(occ[i], t1);
        if i > 0 {
          assert occ[1..][i - 1] == occ[i];
        }
      }
    }
  }

  datatype TagComparison = TagComparison(
    tag1: Option<string>, count1: nat,
    tag2: Option<string>, count2: nat,
    totalCalls: nat, ratio: real)

  /** `tags + [None] * (2 - len(tags))`, element `k` of the padded list. */
  function Padded(tags: seq<string>, k: nat): Option<string> {
    if k < |tags| then Some(tags[k]) else None
  }

  /** `_compare_tags`. */
  function CompareTags(calls: seq<CallRecord>, tags: seq<string>): (r: Result<TagComparison>)
    ensures r.Ok? ==> r.value.totalCalls == |calls|
    ensures r.Ok? ==> r.value.tag1 == Padded(tags, 0) && r.value.tag2 == Padded(tags, 1)
    ensures r.Ok? ==> r.value.ratio == if r.value.count2 > 0 then r.value.count1 as real / r.value.count2 as real else 0.0
    ensures |tags| >= 2 ==>
              r.Ok? &&
              r.value.count1 == Tally.Get(CountByTag(calls, tags[..2]), tags[0]) &&
              r.value.count2 == Tally.Get(CountByTag(calls, tags[..2]), tags[1])
    ensures |tags| < 2 ==>
              (r.Err? <==> exists i :: 0 <= i < |Occurrences(calls)| &&
                             FallsThrough(Occurrences(calls)[i], Padded(tags, 0)))
  {
    var t1 := Padded(tags, 0);
    var t2 := Padded(tags, 1);
    CompareFacts(calls, tags);
    var pair :- PairCounts(Occurrences(calls), t1, t2);
    var c1 := pair.0;
    var c2 := if t2 == t1 then pair.0 else pair.1;
    Ok(TagComparison(t1, c1, t2, c2, |calls|, if c2 > 0 then c1 as real / c2 as real else 0.0))
  }

  lemma CompareFacts(calls: seq<CallRecord>, tags: seq<string>)
    ensures |tags| >= 2 ==>
              var p := PairCounts(Occurrences(calls), Some(tags[0]), Some(tags[1]));
              p.Ok? &&
              p.value.0 == Tally.Get(CountByTag(calls, tags[..2]), tags[0]) &&
              (if tags[1] == tags[0] then p.value.0 else p.value.1) == Tally.Get(CountByTag(calls, tags[..2]), tags[1])
    ensures |tags| < 2 ==>
              (PairCounts(Occurrences(calls), Padded(tags, 0), None).Err? <==>
               exists i :: 0 <= i < |Occurrences(calls)| && FallsThrough(Occurrences(calls)[i], Padded(tags, 0)))
  {
    if |tags| >= 2 {
      assert tags[..2] == [tags[0], tags[1]];
      PairCountsAgree(Occurrences(calls), tags[0], tags[1]);
    } else {
      PairCountsFails(Occurrences(calls), Padded(tags, 0));
    }
  }

  // ------------------------------------------------------------ execute_plan

  /** The metric entries of the results dictionary; `None` is an absent key. */
  datatype Metrics = Metrics(
    countByTag: Option<seq<Tally.Entry<string>>>,
    tagTrends: Option<seq<Trend>>,
    topTags: Option<seq<Tally.Entry<string>>>,
    comparison: Option<TagComparison>)

  const NoMetrics := Metrics(None, None, None, None)

  /** `summary_stats`; `dataSource` exists only in the Colab variant. */
  datatype Summary = Summary(totalCalls: nat, period: string, dateRange: string, dataSource: Option<string>)

  datatype Results = Results(error: Option<string>, metrics: Metrics, summary: Summary)

  /** `_top_n_tags` is always called with `n=5`. */
  const TopN: nat := 5

  const NoData := "Нет данных для анализа"

  /** `f"{start:%Y-%m-%d} - {end:%Y-%m-%d}"`. */
  function DateRange(p: Period): string {
    Calendar.DayKey(p.start.date) + " - " + Calendar.DayKey(p.end.date)
  }

  /** `plan.comparison_tags or plan.target_tags[:2]`. */
  function ComparisonTargets(plan: Plan): (r: seq<string>)
    ensures |plan.comparisonTags| == 0 ==> r == plan.targetTags[..Min(2, |plan.targetTags|)]
    ensures |plan.comparisonTags| > 0 ==> r == plan.comparisonTags
  {
    if |plan.comparisonTags| > 0 then plan.comparisonTags
    else plan.targetTags[..Min(2, |plan.targetTags|)]
  }

  function Trends(colab: bool, calls: seq<CallRecord>, plan: Plan): Result<seq<Trend>> {
    if colab then TrendsColab(calls, plan.targetTags, plan.grouping)
    else TrendsLegacy(calls, plan.targetTags, plan.grouping)
  }

  /** One iteration of `for metric in plan.metrics`. */
  function Step(colab: bool, calls: seq<CallRecord>, plan: Plan, m: MetricKind, acc: Metrics): Result<Metrics> {
    match m
    case CountByTag => Ok(acc.(countByTag := Some(CountByTag(calls, plan.targetTags))))
    case TagTrends =>
      var t :- Trends(colab, calls, plan);
      Ok(acc.(tagTrends := Some(t)))
    case TopNTags => Ok(acc.(topTags := Some(TopNTags(calls, TopN))))
    case Comparison =>
      var c :- CompareTags(calls, ComparisonTargets(plan));
      Ok(acc.(comparison := Some(c)))
    case _ => Ok(acc)
  }

  /** The whole metric loop: it fails only when a requested trend or
      comparison raises. */
  function RunMetrics(colab: bool, calls: seq<CallRecord>, plan: Plan, ms: seq<MetricKind>, acc: Metrics): (r: Result<Metrics>)
    ensures r.Err? <==>
              (MetricKind.TagTrends in ms && Trends(colab, calls, plan).Err?) ||
              (MetricKind.Comparison in ms && CompareTags(calls, ComparisonTargets(plan)).Err?)
    decreases |ms|
  {
    if |ms| == 0 then Ok(acc)
    else
      assert forall m :: m in ms <==> m == ms[0] || m in ms[1..];
      var next :- Step(colab, calls, plan, ms[0], acc);
      RunMetrics(colab, calls, plan, ms[1..], next)
  }

  /** After the loop, each requested counting metric's key holds that
      metric's value and unrequested keys are untouched. */
  lemma {:induction false} RunMetricsCounts(colab: bool, calls: seq<CallRecord>, plan: Plan, ms: seq<MetricKind>,
                                            acc: Metrics)
    requires RunMetrics(colab, calls, plan, ms, acc).Ok?
    ensures var r := RunMetrics(colab, calls, plan, ms, acc).value;
            r.countByTag == (if MetricKind.CountByTag in ms then Some(CountByTag(calls, plan.targetTags)) else acc.countByTag) &&
            r.topTags == (if MetricKind.TopNTags in ms then Some(TopNTags(calls, TopN)) else acc.topTags)
    decreases |ms|
  {
    if |ms| > 0 {
      assert forall m :: m in ms <==> m == ms[0] || m in ms[1..];
      var next := Step(colab, calls, plan, ms[0], acc).value;
      RunMetricsCounts(colab, calls, plan, ms[1..], next);
    }
  }

  /** After the loop, a requested trend or comparison holds its value and an
      unrequested one is untouched. */
  lemma {:induction false} RunMetricsFallible(colab: bool, calls: seq<CallRecord>, plan: Plan, ms: seq<MetricKind>,
                                              acc: Metrics)
    requires RunMetrics(colab, calls, plan, ms, acc).Ok?
    ensures var r := RunMetrics(colab, calls, plan, ms, acc).value;
            (MetricKind.TagTrends in ms ==>
               Trends(colab, calls, plan).Ok? && r.tagTrends == Some(Trends(colab, calls, plan).value)) &&
            (MetricKind.TagTrends !in ms ==> r.tagTrends == acc.tagTrends) &&
            (MetricKind.Comparison in ms ==>
               CompareTags(calls, ComparisonTargets(plan)).Ok? &&
               r.comparison == Some(CompareTags(calls, ComparisonTargets(plan)).value)) &&
            (MetricKind.Comparison !in ms ==> r.comparison == acc.comparison)
    decreases |ms|
  {
    if |ms| > 0 {
      assert forall m :: m in ms <==> m == ms[0] || m in ms[1..];
      var next := Step(colab, calls, plan, ms[0], acc).value;
      RunMetricsFallible(colab, calls, plan, ms[1..], next);
    }
  }

  /** Calls that passed the period filter all have a date, so trends cannot raise. */
  lemma TrendsOnFiltered(colab: bool, calls: seq<CallRecord>, plan: Plan)
    requires forall c :: c in calls ==> c.callDate.Some?
    ensures Trends(colab, calls, plan).Ok?
  {
    assert AllDated(calls) by {
      forall i | 0 <= i < |calls| ensures calls[i].callDate.Some? {
        assert calls[i] in calls;
      }
    }
  }

  /** Each requested metric holds its value computed over `calls`. */
  predicate MetricsOver(colab: bool, calls: seq<CallRecord>, plan: Plan, m: Metrics) {
    (MetricKind.CountByTag in plan.metrics ==> m.countByTag == Some(CountByTag(calls, plan.targetTags))) &&
    (MetricKind.TopNTags in plan.metrics ==> m.topTags == Some(TopNTags(calls, TopN))) &&
    (MetricKind.TagTrends in plan.metrics ==>
       Trends(colab, calls, plan).Ok? && m.tagTrends == Some(Trends(colab, calls, plan).value)) &&
    (MetricKind.Comparison in plan.metrics ==>
       CompareTags(calls, ComparisonTargets(plan)).Ok? &&
       m.comparison == Some(CompareTags(calls, ComparisonTargets(plan)).value))
  }

  /** `execute_plan` of the Colab orchestrator. `driveConfigured` is whether a
      Drive path was given, which only selects the `data_source` label. */
  function ExecuteColab(store: seq<CallRecord>, plan: Plan, driveConfigured: bool): (r: Result<Results>)
    ensures |store| == 0 ==>
              r.Ok? && r.value.error == Some(NoData) && r.value.metrics == NoMetrics &&
              r.value.summary.totalCalls == 0 && r.value.summary.dataSource.None?
    ensures |store| > 0 && r.Ok? ==>
              r.value.error.None? &&
              r.value.summary.totalCalls == |FilterByPeriod(store, plan.period)| &&
              r.value.summary.dataSource.Some?
    ensures r.Ok? ==> r.value.summary.period == plan.period.description &&
                      r.value.summary.dateRange == DateRange(plan.period)
    ensures |store| > 0 && r.Ok? ==>
              (r.value.metrics.countByTag.Some? <==> MetricKind.CountByTag in plan.metrics) &&
              (r.value.metrics.tagTrends.Some? <==> MetricKind.TagTrends in plan.metrics) &&
              (r.value.metrics.topTags.Some? <==> MetricKind.TopNTags in plan.metrics) &&
              (r.value.metrics.comparison.Some? <==> MetricKind.Comparison in plan.metrics)
    ensures r.Err? <==>
              |store| > 0 && MetricKind.Comparison in plan.metrics &&
              CompareTags(FilterByPeriod(store, plan.period), ComparisonTargets(plan)).Err?
    ensures |store| > 0 && r.Ok? ==> MetricsOver(true, FilterByPeriod(store, plan.period), plan, r.value.metrics)
  {
    if |store| == 0 then
      Ok(Results(Some(NoData), NoMetrics, Summary(0, plan.period.description, DateRange(plan.period), None)))
    else
      var filtered := FilterByPeriod(store, plan.period);
      TrendsOnFiltered(true, filtered, plan);
      var m :- RunMetrics(true, filtered, plan, plan.metrics, NoMetrics);
      RunMetricsCounts(true, filtered, plan, plan.metrics, NoMetrics);
      RunMetricsFallible(true, filtered, plan, plan.metrics, NoMetrics);
      var source := if driveConfigured then "Google Drive" else "Local";
      Ok(Results(None, m, Summary(|filtered|, plan.period.description, DateRange(plan.period), Some(source))))
  }

  /** `execute_plan` of the older orchestrator: no empty-store short-circuit
      and no `data_source`. */
  function ExecuteLegacy(store: seq<CallRecord>, plan: Plan): (r: Result<Results>)
    ensures r.Ok? ==>
              r.value.error.None? && r.value.summary.dataSource.None? &&
              r.value.summary.totalCalls == |FilterByPeriod(store, plan.period)| &&
              r.value.summary.period == plan.period.description &&
              r.value.summary.dateRange == DateRange(plan.period)
    ensures r.Ok? ==>
              (r.value.metrics.countByTag.Some? <==> MetricKind.CountByTag in plan.metrics) &&
              (r.value.metrics.tagTrends.Some? <==> MetricKind.TagTrends in plan.metrics) &&
              (r.value.metrics.topTags.Some? <==> MetricKind.TopNTags in plan.metrics) &&
              (r.value.metrics.comparison.Some? <==> MetricKind.Comparison in plan.metrics)
    ensures r.Err? <==>
              MetricKind.Comparison in plan.metrics &&
              CompareTags(FilterByPeriod(store, plan.period), ComparisonTargets(plan)).Err?
    ensures r.Ok? ==> MetricsOver(false, FilterByPeriod(store, plan.period), plan, r.value.metrics)
  {
    var filtered := FilterByPeriod(store, plan.period);
    TrendsOnFiltered(false, filtered, plan);
    var m :- RunMetrics(false, filtered, plan, plan.metrics, NoMetrics);
    RunMetricsCounts(false, filtered, plan, plan.metrics, NoMetrics);
    RunMetricsFallible(false, filtered, plan, plan.metrics, NoMetrics);
    Ok(Results(None, m, Summary(|filtered|, plan.period.description, DateRange(plan.period), None)))
  }

  /** A call outside the plan's period changes nothing in either executor's
      result, wherever it stands in the store. */
  lemma ExecuteIgnoresOutside(a: seq<CallRecord>, c: CallRecord, b: seq<CallRecord>, plan: Plan,
                              driveConfigured: bool)
    requires !InPeriod(c, plan.period)
    ensures ExecuteLegacy(a + [c] + b, plan) == ExecuteLegacy(a + b, plan)
    ensures |a + b| > 0 ==> ExecuteColab(a + [c] + b, plan, driveConfigured) == ExecuteColab(a + b, plan, driveConfigured)
  {
    FilterSkipsOutside(a, c, b, plan.period);
  }

  /** The metric loop depends on the variant only through the trends. */
  lemma {:induction false} RunMetricsSameTrends(calls: seq<CallRecord>, plan: Plan, ms: seq<MetricKind>, acc: Metrics)
    requires Trends(true, calls, plan) == Trends(false, calls, plan)
    ensures RunMetrics(true, calls, plan, ms, acc) == RunMetrics(false, calls, plan, ms, acc)
    decreases |ms|
  {
    if |ms| > 0 {
      assert Step(true, calls, plan, ms[0], acc) == Step(false, calls, plan, ms[0], acc);
      var next := Step(true, calls, plan, ms[0], acc);
      if next.Ok? {
        RunMetricsSameTrends(calls, plan, ms[1..], next.value);
      }
    }
  }

  /** On a non-empty store both executors compute the same metrics and the
      same call total; they differ only in the `data_source` label. */
  lemma ExecutorsAgree(store: seq<CallRecord>, plan: Plan, driveConfigured: bool)
    requires |store| > 0
    ensures ExecuteColab(store, plan, driveConfigured).Ok? == ExecuteLegacy(store, plan).Ok?
    ensures ExecuteColab(store, plan, driveConfigured).Ok? ==>
              ExecuteColab(store, plan, driveConfigured).value.metrics == ExecuteLegacy(store, plan).value.metrics &&
              ExecuteColab(store, plan, driveConfigured).value.summary.totalCalls ==
                ExecuteLegacy(store, plan).value.summary.totalCalls
  {
    var filtered := FilterByPeriod(store, plan.period);
    TrendGuardsAgree(filtered, plan.targetTags, plan.grouping);
    TrendsOnFiltered(true, filtered, plan);
    TrendsOnFiltered(false, filtered, plan);
    RunMetricsSameTrends(filtered, plan, plan.metrics, NoMetrics);
    var m := RunMetrics(true, filtered, plan, plan.metrics, NoMetrics);
    if m.Ok? {
      assert ExecuteColab(store, plan, driveConfigured).value.metrics == m.value;
      assert ExecuteLegacy(store, plan).value.metrics == m.value;
    }
  }
}

=== FILE: file_dates.dfy ===
/** Dates read from file names. Each pattern is a fixed-width run of ASCII
    digits and separators found with `re.search` (the leftmost occurrence);
    the patterns are tried in list order and the FIRST PATTERN that occurs
    anywhere decides, wherever the other patterns occur. Out-of-range
    components make `datetime(...)` raise. */
module FileDates {
  import opened Wrappers
  import Text
  import Calendar

  datatype Pattern =
    | DashedYmd   // (\d{4})-(\d{2})-(\d{2})
    | DottedDmy   // (\d{2})\.(\d{2})\.(\d{4})
    | CompactYmd  // (\d{4})(\d{2})(\d{2})

  /** `n` digits starting at `i`. */
  predicate DigitsAt(s: string, i: nat, n: nat) {
    i + n <= |s| && forall k :: i <= k < i + n ==> Text.IsDigit(s[k])
  }

  predicate MatchesAt(s: string, i: nat, p: Pattern) {
    match p
    case DashedYmd =>
      i + 10 <= |s| && DigitsAt(s, i, 4) && s[i + 4] == '-' && DigitsAt(s, i + 5, 2) &&
      s[i + 7] == '-' && DigitsAt(s, i + 8, 2)
    case DottedDmy =>
      i + 10 <= |s| && DigitsAt(s, i, 2) && s[i + 2] == '.' && DigitsAt(s, i + 3, 2) &&
      s[i + 5] == '.' && DigitsAt(s, i + 6, 4)
    case CompactYmd =>
      DigitsAt(s, i, 8)
  }

  /** `int(group)` of the `n` digits at `i`. */
  function Group(s: string, i: nat, n: nat): nat
    requires DigitsAt(s, i, n)
  {
    var g := s[i..i + n];
    assert forall k :: 0 <= k < |g| ==> g[k] == s[i + k];
    Text.DigitsValue(g)
  }

  /** A group read from a known digit string. */
  lemma GroupOf(s: string, i: nat, g: string)
    requires i + |g| <= |s| && s[i..i + |g|] == g && Text.AllDigits(g)
    ensures DigitsAt(s, i, |g|) && Group(s, i, |g|) == Text.DigitsValue(g)
  {
    forall k | i <= k < i + |g| ensures Text.IsDigit(s[k]) {
      assert s[k] == g[k - i];
    }
  }

  /** The leftmost position at or after `i` where `p` occurs. */
  function SearchFrom(s: string, p: Pattern, i: nat): (r: Option<nat>)
    requires i <= |s|
    ensures r.Some? ==> i <= r.value && MatchesAt(s, r.value, p)
    ensures r.Some? ==> forall j :: i <= j < r.value ==> !MatchesAt(s, j, p)
    ensures r.None? ==> forall j: nat :: i <= j ==> !MatchesAt(s, j, p)
    decreases |s| - i
  {
    if MatchesAt(s, i, p) then Some(i)
    else if i == |s| then None
    else SearchFrom(s, p, i + 1)
  }

  /** `re.search(p, s)`: the leftmost occurrence. */
  function Search(s: string, p: Pattern): (r: Option<nat>)
    ensures r.Some? ==> MatchesAt(s, r.value, p) && forall j :: 0 <= j < r.value ==> !MatchesAt(s, j, p)
    ensures r.None? <==> forall j: nat :: !MatchesAt(s, j, p)
  {
    SearchFrom(s, p, 0)
  }

  /** `(year, month, day)` of the occurrence at `i`; the dotted pattern is
      reordered from day-month-year. */
  function Components(s: string, i: nat, p: Pattern): (int, int, int)
    requires MatchesAt(s, i, p)
  {
    match p
    case DashedYmd => (Group(s, i, 4), Group(s, i + 5, 2), Group(s, i + 8, 2))
    case DottedDmy => (Group(s, i + 6, 4), Group(s, i + 3, 2), Group(s, i, 2))
    case CompactYmd => (Group(s, i, 4), Group(s, i + 4, 2), Group(s, i + 6, 2))
  }

  function DateAt(s: string, i: nat, p: Pattern): Result<Calendar.Moment>
    requires MatchesAt(s, i, p)
  {
    var (y, m, d) := Components(s, i, p);
    Calendar.MakeDate(y, m, d)
  }

  /** The `for pattern in patterns` loop: the index of the first pattern,
      in list order, that occurs somewhere in `name`. */
  function FirstOccurring(name: string, patterns: seq<Pattern>): (r: Option<nat>)
    ensures r.Some? ==> r.value < |patterns| && Search(name, patterns[r.value]).Some?
    ensures r.Some? ==> forall k :: 0 <= k < r.value ==> Search(name, patterns[k]).None?
    ensures r.None? <==> forall k :: 0 <= k < |patterns| ==> Search(name, patterns[k]).None?
    decreases |patterns|
  {
    if |patterns| == 0 then None
    else if Search(name, patterns[0]).Some? then Some(0)
    else
      match FirstOccurring(name, patterns[1..])
      case None => None
      case Some(k) => Some(k + 1)
  }

  /** `None` when no pattern occurs; otherwise the date (or the `ValueError`)
      read from the leftmost occurrence of the first pattern that occurs. */
  function FromPatterns(name: string, patterns: seq<Pattern>): (r: Option<Result<Calendar.Moment>>)
    ensures r.None? <==> forall k :: 0 <= k < |patterns| ==> Search(name, patterns[k]).None?
    ensures r.Some? ==> var k := FirstOccurring(name, patterns).value;
              r.value == DateAt(name, Search(name, patterns[k]).value, patterns[k])
  {
    match FirstOccurring(name, patterns)
    case None => None
    case Some(k) => Some(DateAt(name, Search(name, patterns[k]).value, patterns[k]))
  }

  const AllPatterns: seq<Pattern> := [DashedYmd, DottedDmy, CompactYmd]

  /** jsons2csv `_extract_date_from_filename`: three patterns, else `now`. */
  function DateForCsv(name: string, now: Calendar.Moment): (r: Result<Calendar.Moment>)
    ensures FromPatterns(name, AllPatterns).None? ==> r == Ok(now)
    ensures FromPatterns(name, AllPatterns).Some? ==> r == FromPatterns(name, AllPatterns).value
  {
    FromPatterns(name, AllPatterns).GetOr(Ok(now))
  }

  /** Colab `_extract_date_from_filename`: three patterns, else the file's
      modification time when it can be read (`None` when the file is missing
      or `getmtime` fails), else `now`. */
  function DateForColab(name: string, mtime: Option<Calendar.Moment>, now: Calendar.Moment): (r: Result<Calendar.Moment>)
    ensures FromPatterns(name, AllPatterns).None? ==> r == Ok(mtime.GetOr(now))
    ensures FromPatterns(name, AllPatterns).Some? ==> r == FromPatterns(name, AllPatterns).value
  {
    FromPatterns(name, AllPatterns).GetOr(Ok(mtime.GetOr(now)))
  }

  /** Older orchestrator: only the dashed pattern is active. */
  function DateForJsonStore(name: string, mtime: Option<Calendar.Moment>, now: Calendar.Moment): (r: Result<Calendar.Moment>)
    ensures Search(name, DashedYmd).None? ==> r == Ok(mtime.GetOr(now))
    ensures Search(name, DashedYmd).Some? ==> r == DateAt(name, Search(name, DashedYmd).value, DashedYmd)
  {
    FromPatterns(name, [DashedYmd]).GetOr(Ok(mtime.GetOr(now)))
  }

  /** A name that starts `YYYY-MM-DD` matches the dashed pattern at 0 with
      those groups. */
  lemma DashedPrefix(s: string, y: string, m: string, d: string, suffix: string)
    requires |y| == 4 && |m| == 2 && |d| == 2
    requires Text.AllDigits(y) && Text.AllDigits(m) && Text.AllDigits(d)
    requires s == y + "-" + m + "-" + d + suffix
    ensures MatchesAt(s, 0, DashedYmd)
    ensures Components(s, 0, DashedYmd) == (Text.DigitsValue(y), Text.DigitsValue(m), Text.DigitsValue(d))
  {
    assert s[0..4] == y;
    assert s[5..7] == m;
    assert s[8..10] == d;
    GroupOf(s, 0, y);
    GroupOf(s, 5, m);
    GroupOf(s, 8, d);
  }

  /** `%Y-%m-%d` text of a day matches the dashed pattern at 0 and reads
      back as that day's fields. */
  lemma DayKeyMatch(d: Calendar.Date, suffix: string)
    requires Calendar.ValidDate(d) && Calendar.MinYear <= d.year <= Calendar.MaxYear
    ensures MatchesAt(Calendar.DayKey(d) + suffix, 0, DashedYmd)
    ensures Components(Calendar.DayKey(d) + suffix, 0, DashedYmd) == (d.year, d.month, d.day)
    ensures |Calendar.DayKey(d)| == 10
  {
    var y := Calendar.YearText(d.year);
    var m := Calendar.TwoDigits(d.month);
    var dd := Calendar.TwoDigits(d.day);
    Text.PaddedRoundTrip(d.year, 4);
    Text.PaddedRoundTrip(d.month, 2);
    Text.PaddedRoundTrip(d.day, 2);
    assert |y| == 4 && |m| == 2 && |dd| == 2;
    DashedPrefix(Calendar.DayKey(d) + suffix, y, m, dd, suffix);
  }

  /** A file named after a day in `%Y-%m-%d` form, whatever follows, is
      dated that day at midnight by every variant (each tries the dashed
      pattern first). */
  lemma DayKeyRoundTrip(d: Calendar.Date, suffix: string, patterns: seq<Pattern>)
    requires Calendar.ValidDate(d) && Calendar.MinYear <= d.year <= Calendar.MaxYear
    requires |patterns| > 0 && patterns[0] == DashedYmd
    ensures FromPatterns(Calendar.DayKey(d) + suffix, patterns) == Some(Ok(Calendar.Midnight(d)))
  {
    var s := Calendar.DayKey(d) + suffix;
    DayKeyAtStart(d, suffix);
    assert FirstOccurring(s, patterns) == Some(0);
  }

  lemma DayKeyAtStart(d: Calendar.Date, suffix: string)
    requires Calendar.ValidDate(d) && Calendar.MinYear <= d.year <= Calendar.MaxYear
    ensures Search(Calendar.DayKey(d) + suffix, DashedYmd) == Some(0)
    ensures DateAt(Calendar.DayKey(d) + suffix, 0, DashedYmd) == Ok(Calendar.Midnight(d))
  {
    DayKeyMatch(d, suffix);
    DashedAtStart(Calendar.DayKey(d) + suffix, d);
  }

  lemma DashedAtStart(s: string, d: Calendar.Date)
    requires Calendar.ValidDate(d) && Calendar.MinYear <= d.year <= Calendar.MaxYear
    requires MatchesAt(s, 0, DashedYmd) && Components(s, 0, DashedYmd) == (d.year, d.month, d.day)
    ensures Search(s, DashedYmd) == Some(0)
    ensures DateAt(s, 0, DashedYmd) == Ok(Calendar.Midnight(d))
  {
    assert SearchFrom(s, DashedYmd, 0) == Some(0);
  }

  const Sample := "20240115_2023-03-05"

  lemma SampleNoEarlierDash()
    ensures forall j: nat :: j < 9 ==> !MatchesAt(Sample, j, DashedYmd)
  {
    var s := Sample;
    forall j: nat | j < 9 ensures !MatchesAt(s, j, DashedYmd) {
      if j == 0 { assert s[4] != '-'; }
      else if j == 1 { assert s[5] != '-'; }
      else if j == 2 { assert s[6] != '-'; }
      else if j == 3 { assert s[7] != '-'; }
      else if j == 4 { assert s[8] != '-'; }
      else if j == 5 { assert s[9] != '-'; }
      else if j == 6 { assert s[10] != '-'; }
      else if j == 7 { assert s[11] != '-'; }
      else { assert s[12] != '-'; }
    }
  }

  lemma SampleDashedAt9()
    ensures MatchesAt(Sample, 9, DashedYmd)
    ensures Components(Sample, 9, DashedYmd) == (2023, 3, 5)
  {
    var s := Sample;
    assert s[9..13] == "2023";
    assert s[13] == '-' && s[16] == '-';
    assert s[14..16] == "03";
    assert s[17..19] == "05";
    GroupOf(s, 9, "2023");
    GroupOf(s, 14, "03");
    GroupOf(s, 17, "05");
    assert Text.DigitsValue("2023") == 2023 by {
      assert "2023"[..3] == "202" && "202"[..2] == "20" && "20"[..1] == "2";
    }
    assert Text.DigitsValue("03") == 3 by {
      assert "03"[..1] == "0";
    }
    assert Text.DigitsValue("05") == 5 by {
      assert "05"[..1] == "0";
    }
  }

  /** Pattern order beats position: in `20240115_2023-03-05` the compact date
      comes first, but the dashed pattern is tried first and wins. */
  lemma PatternOrderBeatsPosition(now: Calendar.Moment)
    ensures Search(Sample, CompactYmd) == Some(0)
    ensures DateForCsv(Sample, now) == Ok(Calendar.DateTime(Calendar.Date(2023, 3, 5), 0))
  {
    assert MatchesAt(Sample, 0, CompactYmd);
    SampleDashedAt9();
    SampleNoEarlierDash();
    assert Search(Sample, DashedYmd) == Some(9);
    assert FirstOccurring(Sample, AllPatterns) == Some(0);
  }
}

=== FILE: json_values.dfy ===
/** JSON values as the Python scripts see them after `json.load`: objects
    are ordered field lists, as a Python `dict` keeps insertion order. */
module JsonValues {
  import opened Wrappers

  datatype Json =
    | JNull
    | JBool(b: bool)
    | JNum(n: int)
    | JStr(s: string)
    | JArr(items: seq<Json>)
    | JObj(fields: seq<(string, Json)>)

  type Fields = seq<(string, Json)>

  function Keys(fs: Fields): (r: seq<string>)
    ensures |r| == |fs|
    ensures forall i :: 0 <= i < |fs| ==> r[i] == fs[i].0
  {
    if |fs| == 0 then [] else [fs[0].0] + Keys(fs[1..])
  }

  /** A Python dict never holds a key twice. */
  predicate UniqueKeys(fs: Fields) {
    forall i, j :: 0 <= i < j < |fs| ==> fs[i].0 != fs[j].0
  }

  /** `d.get(k)`: the value of the first field named `k`. */
  function Lookup(fs: Fields, k: string): (r: Option<Json>)
    ensures r.None? <==> k !in Keys(fs)
    ensures r.Some? ==> (k, r.value) in fs
  {
    if |fs| == 0 then None
    else if fs[0].0 == k then Some(fs[0].1)
    else Lookup(fs[1..], k)
  }

  /** `d[k] = v`: the value is replaced where the key stands, or the field
      is appended when the key is new. */
  function Put(fs: Fields, k: string, v: Json): (r: Fields)
    ensures Lookup(r, k) == Some(v)
    ensures forall k' :: k' != k ==> Lookup(r, k') == Lookup(fs, k')
  {
    if |fs| == 0 then [(k, v)]
    else if fs[0].0 == k then
      var r := [(k, v)] + fs[1..];
      assert r[1..] == fs[1..];
      r
    else
      var r := [fs[0]] + Put(fs[1..], k, v);
      assert r[1..] == Put(fs[1..], k, v);
      r
  }

  /** Setting a key keeps the key order and appends a new key at the end. */
  lemma {:induction false} PutKeys(fs: Fields, k: string, v: Json)
    ensures Keys(Put(fs, k, v)) == if k in Keys(fs) then Keys(fs) else Keys(fs) + [k]
    decreases |fs|
  {
    if |fs| > 0 {
      var r := Put(fs, k, v);
      if fs[0].0 != k {
        PutKeys(fs[1..], k, v);
        assert r[1..] == Put(fs[1..], k, v);
        assert Keys(fs) == [fs[0].0] + Keys(fs[1..]);
        assert Keys(r) == [fs[0].0] + Keys(r[1..]);
      }
    }
  }

  /** `d.pop(k, None)`: every field named `k` goes, the rest keep their order. */
  function Remove(fs: Fields, k: string): (r: Fields)
    ensures Lookup(r, k) == None
    ensures forall k' :: k' != k ==> Lookup(r, k') == Lookup(fs, k')
    ensures forall x :: x in Keys(r) <==> x in Keys(fs) && x != k
    ensures |r| <= |fs|
  {
    if |fs| == 0 then []
    else if fs[0].0 == k then Remove(fs[1..], k)
    else [fs[0]] + Remove(fs[1..], k)
  }

  /** Setting a key keeps a dict's keys distinct. */
  lemma PutKeepsUnique(fs: Fields, k: string, v: Json)
    requires UniqueKeys(fs)
    ensures UniqueKeys(Put(fs, k, v))
  {
    var r := Put(fs, k, v);
    PutKeys(fs, k, v);
    forall i, j | 0 <= i < j < |r| ensures r[i].0 != r[j].0 {
      assert Keys(r)[i] == r[i].0 && Keys(r)[j] == r[j].0;
      if k !in Keys(fs) && j == |fs| {
        assert Keys(fs)[i] == fs[i].0;
      } else {
        assert Keys(fs)[i] == fs[i].0 && Keys(fs)[j] == fs[j].0;
      }
    }
  }

  /** Removing a key keeps a dict's keys distinct. */
  lemma {:induction false} RemoveKeepsUnique(fs: Fields, k: string)
    requires UniqueKeys(fs)
    ensures UniqueKeys(Remove(fs, k))
    decreases |fs|
  {
    if |fs| > 0 {
      var tail := fs[1..];
      assert UniqueKeys(tail) by {
        forall i, j | 0 <= i < j < |tail| ensures tail[i].0 != tail[j].0 {
          assert tail[i] == fs[i + 1] && tail[j] == fs[j + 1];
        }
      }
      RemoveKeepsUnique(tail, k);
      if fs[0].0 != k {
        var rest := Remove(tail, k);
        var r := [fs[0]] + rest;
        forall i, j | 0 <= i < j < |r| ensures r[i].0 != r[j].0 {
          if i == 0 {
            assert r[j] == rest[j - 1];
            assert Keys(rest)[j - 1] == rest[j - 1].0;
            assert rest[j - 1].0 in Keys(rest);
            assert rest[j - 1].0 in Keys(tail);
            var m :| 0 <= m < |tail| && Keys(tail)[m] == rest[j - 1].0;
            assert fs[m + 1].0 == rest[j - 1].0;
          } else {
            assert r[i] == rest[i - 1] && r[j] == rest[j - 1];
          }
        }
      }
    }
  }
}

=== FILE: matching.dfy ===
/** The fuzzy tag rule used by every planner and executor: two tags match when
    the lower-cased form of either contains the lower-cased form of the other,
    and a tag goes to the FIRST entry of a list that it matches. */
module Matching {
  import opened Wrappers
  import Text

  /** `a.lower() in b.lower() or b.lower() in a.lower()`. */
  predicate Fuzzy(a: string, b: string) {
    Text.Contains(Text.Lower(b), Text.Lower(a)) || Text.Contains(Text.Lower(a), Text.Lower(b))
  }

  /** Identical strings match; in particular every exact vocabulary entry. */
  lemma FuzzyReflexive(a: string)
    ensures Fuzzy(a, a)
  {
    Text.ContainsSelf(Text.Lower(a));
  }

  /** The empty string matches everything, since `'' in s` always holds. */
  lemma FuzzyEmpty(a: string)
    ensures Fuzzy("", a) && Fuzzy(a, "")
  {
    Text.ContainsSelf(Text.Lower(a));
  }

  /** Index of the first entry of `list` that `x` fuzzily matches: the inner
      `for ... : if ...: ...; break` loop. */
  function FirstMatchIndex(x: string, list: seq<string>): (r: Option<nat>)
    ensures r.Some? ==> r.value < |list| && Fuzzy(list[r.value], x)
    ensures r.Some? ==> forall j :: 0 <= j < r.value ==> !Fuzzy(list[j], x)
    ensures r.None? <==> forall j :: 0 <= j < |list| ==> !Fuzzy(list[j], x)
    decreases |list|
  {
    if |list| == 0 then None
    else if Fuzzy(list[0], x) then Some(0)
    else
      match FirstMatchIndex(x, list[1..])
      case None => None
      case Some(i) => Some(i + 1)
  }

  /** The entry of `list` that `x` is attributed to, if any. */
  function FirstMatch(x: string, list: seq<string>): (r: Option<string>)
    ensures r.Some? ==> r.value in list && Fuzzy(r.value, x)
    ensures r.None? <==> forall y :: y in list ==> !Fuzzy(y, x)
  {
    match FirstMatchIndex(x, list)
    case None => None
    case Some(i) => Some(list[i])
  }

  /** Replace each element of `xs` by the entry of `list` it first matches,
      dropping elements that match nothing (the body of `_validate_tags` and of
      the per-tag loop of `_count_by_tag`). */
  function MatchAll(xs: seq<string>, list: seq<string>): (r: seq<string>)
    ensures |r| <= |xs|
    ensures forall y :: y in r ==> y in list
    decreases |xs|
  {
    if |xs| == 0 then []
    else
      match FirstMatch(xs[0], list)
      case None => MatchAll(xs[1..], list)
      case Some(y) => [y] + MatchAll(xs[1..], list)
  }

  /** Matching distributes over concatenation, so each element contributes
      its own match independently and in order. */
  lemma {:induction false} MatchAllAppend(a: seq<string>, b: seq<string>, list: seq<string>)
    ensures MatchAll(a + b, list) == MatchAll(a, list) + MatchAll(b, list)
    decreases |a|
  {
    if |a| > 0 {
      assert (a + b)[0] == a[0];
      assert (a + b)[1..] == a[1..] + b;
      MatchAllAppend(a[1..], b, list);
    } else {
      assert a + b == b;
    }
  }

  /** One element contributes exactly its first match, or nothing. */
  lemma MatchAllSingle(x: string, list: seq<string>)
    ensures MatchAll([x], list) == match FirstMatch(x, list) case None => [] case Some(y) => [y]
  {
    assert [x][1..] == [];
  }

  /** An element that matches nothing in the list contributes nothing; so
      `MatchAll` is empty exactly when no element matches any entry. */
  lemma {:induction false} MatchAllEmpty(xs: seq<string>, list: seq<string>)
    ensures MatchAll(xs, list) == [] <==>
            forall i, j :: 0 <= i < |xs| && 0 <= j < |list| ==> !Fuzzy(list[j], xs[i])
    decreases |xs|
  {
    if |xs| > 0 {
      MatchAllEmpty(xs[1..], list);
      if MatchAll(xs, list) == [] {
        assert FirstMatch(xs[0], list).None?;
        forall i, j | 0 <= i < |xs| && 0 <= j < |list| ensures !Fuzzy(list[j], xs[i]) {
          if i > 0 {
            assert xs[i] == xs[1..][i - 1];
          } else {
            assert list[j] in list;
          }
        }
      } else if FirstMatch(xs[0], list).Some? {
        var y := FirstMatch(xs[0], list).value;
        var j :| 0 <= j < |list| && list[j] == y;
        assert Fuzzy(list[j], xs[0]);
      } else {
        var i, j :| 0 <= i < |xs[1..]| && 0 <= j < |list| && Fuzzy(list[j], xs[1..][i]);
        assert xs[1..][i] == xs[i + 1];
      }
    }
  }
}

=== FILE: planner_colab.dfy ===
/** `DeepSeekPlanner` of the Colab orchestrator: turns the planner model's JSON
    answer into an `AnalysisPlan`. The model is an oracle (`None` when the
    client call fails), JSON decoding and `datetime.fromisoformat` are
    parameters, and the tag vocabulary (read from a configuration file by the
    source) is a parameter too. */
module PlannerColab {
  import opened Wrappers
  import Text
  import Calendar
  import Matching
  import opened Domain
  import Planning

  const FallbackTag := "низкое_качество_стирки_или_чистки"
  const PriceTag := "неоправданно_высокие_цены"
  const ConsultTag := "консультация_или_уточнение_деталей"

  /** The default window start: 30 days before `now`, same time of day. */
  function DefaultStart(now: Calendar.Moment): (r: Calendar.Moment)
    ensures Calendar.DayNumber(r.date) + 30 == Calendar.DayNumber(now.date) && r.secs == now.secs
  {
    Calendar.MinusDaysAt(now, 30)
  }

  /** One bound: the default unless the value is a non-empty string that
      parses; a parse failure is swallowed. */
  function Bound(v: Option<string>, default: Calendar.Moment, parseIso: string -> Option<Calendar.Moment>): (r: Calendar.Moment)
    ensures r != default ==> Truthy(v) && parseIso(v.value) == Some(r)
    ensures Truthy(v) && parseIso(v.value).Some? ==> r == parseIso(v.value).value
    ensures !Truthy(v) || parseIso(v.value).None? ==> r == default
  {
    if Truthy(v) then parseIso(v.value).GetOr(default) else default
  }

  /** `_parse_time_period`. */
  function ParseTimePeriod(raw: RawPeriod, now: Calendar.Moment, parseIso: string -> Option<Calendar.Moment>): (r: Period)
    ensures r.start == Bound(raw.start, DefaultStart(now), parseIso)
    ensures r.end == Bound(raw.end, now, parseIso)
    ensures Truthy(raw.description) ==> r.description == raw.description.value
    ensures !Truthy(raw.description) ==>
              r.description == "с " + Calendar.DotFormat(r.start.date) + " по " + Calendar.DotFormat(r.end.date)
  {
    var start := Bound(raw.start, DefaultStart(now), parseIso);
    var end := Bound(raw.end, now, parseIso);
    var description := if Truthy(raw.description) then raw.description.value
                       else "с " + Calendar.DotFormat(start.date) + " по " + Calendar.DotFormat(end.date);
    Period(start, end, description)
  }

  /** The two bounds are replaced independently: the `end` field of the
      answer never influences `start`, and vice versa. */
  lemma BoundsIndependent(raw: RawPeriod, e: Option<string>, s: Option<string>, now: Calendar.Moment,
                          parseIso: string -> Option<Calendar.Moment>)
    ensures ParseTimePeriod(raw.(end := e), now, parseIso).start == ParseTimePeriod(raw, now, parseIso).start
    ensures ParseTimePeriod(raw.(start := s), now, parseIso).end == ParseTimePeriod(raw, now, parseIso).end
  {
  }

  /** No `start <= end` check: a parsed start after the default end is kept. */
  lemma InvertedWindowAccepted(raw: RawPeriod, now: Calendar.Moment, parseIso: string -> Option<Calendar.Moment>)
    requires Truthy(raw.start) && !Truthy(raw.end)
    requires parseIso(raw.start.value).Some? && Calendar.Le(now, parseIso(raw.start.value).value)
    requires parseIso(raw.start.value).value != now
    ensures var p := ParseTimePeriod(raw, now, parseIso); !Calendar.Le(p.start, p.end)
  {
  }

  /** `_validate_tags` with this planner's fallback. */
  function ValidateTags(candidates: seq<string>, vocabulary: seq<string>): (r: seq<string>)
    ensures |r| >= 1
    ensures forall y :: y in r ==> y in vocabulary || y == FallbackTag
    ensures r == Matching.MatchAll(candidates, vocabulary) || r == [FallbackTag]
    ensures (exists i, j :: 0 <= i < |candidates| && 0 <= j < |vocabulary| && Matching.Fuzzy(vocabulary[j], candidates[i])) ==>
              r == Matching.MatchAll(candidates, vocabulary)
  {
    Matching.MatchAllEmpty(candidates, vocabulary);
    Planning.ValidateTags(candidates, vocabulary, [FallbackTag])
  }

  /** When the fallback is itself a vocabulary entry (as in the shipped
      configuration), every validated tag is a vocabulary entry. */
  lemma ValidatedInVocabulary(candidates: seq<string>, vocabulary: seq<string>)
    requires FallbackTag in vocabulary
    ensures forall y :: y in ValidateTags(candidates, vocabulary) ==> y in vocabulary
  {
  }

  /** `_parse_metrics`: no `'sentiment'` literal here. */
  function ParseMetrics(ms: seq<string>): (r: seq<MetricKind>)
    ensures |r| >= 1 && SentimentTrend !in r && SummaryStats !in r
    ensures (exists i :: 0 <= i < |ms| && Planning.MetricOf(ms[i], false).Some?) ==> r == Planning.KnownMetrics(ms, false)
    ensures (forall i :: 0 <= i < |ms| ==> Planning.MetricOf(ms[i], false).None?) ==> r == [CountByTag]
  {
    Planning.ParseMetrics(ms, false)
  }

  predicate MentionsQuality(q: string) {
    Text.Contains(Text.Lower(q), "качеств") || Text.Contains(Text.Lower(q), "стирк")
  }

  predicate MentionsPrice(q: string) {
    Text.Contains(Text.Lower(q), "цен") || Text.Contains(Text.Lower(q), "дорог")
  }

  predicate MentionsConsultation(q: string) {
    Text.Contains(Text.Lower(q), "консульт") || Text.Contains(Text.Lower(q), "уточн")
  }

  /** `_create_default_plan`: keyword heuristics on the lower-cased query,
      over the last 180 days grouped by month. */
  function DefaultPlan(query: string, now: Calendar.Moment): (r: Plan)
    ensures |r.targetTags| >= 1
    ensures FallbackTag in r.targetTags <==>
              MentionsQuality(query) || !(MentionsPrice(query) || MentionsConsultation(query))
    ensures PriceTag in r.targetTags <==> MentionsPrice(query)
    ensures ConsultTag in r.targetTags <==> MentionsConsultation(query)
    ensures forall y :: y in r.targetTags ==> y == FallbackTag || y == PriceTag || y == ConsultTag
    ensures forall i, j :: 0 <= i < j < |r.targetTags| ==> r.targetTags[i] != r.targetTags[j]
    ensures MentionsQuality(query) ==> r.targetTags[0] == FallbackTag
    ensures MentionsConsultation(query) ==> r.targetTags[|r.targetTags| - 1] == ConsultTag
    ensures r.metrics == [CountByTag, TagTrends] && r.grouping == "month" && r.comparisonTags == []
    ensures Calendar.DayNumber(r.period.start.date) + 180 == Calendar.DayNumber(now.date)
    ensures r.period.end == now && r.period.description == "последние 6 месяцев"
  {
    var tags := (if MentionsQuality(query) then [FallbackTag] else [])
              + (if MentionsPrice(query) then [PriceTag] else [])
              + (if MentionsConsultation(query) then [ConsultTag] else []);
    var period := Period(Calendar.MinusDaysAt(now, 180), now, "последние 6 месяцев");
    Plan(period, if |tags| == 0 then [FallbackTag] else tags, [CountByTag, TagTrends], "month", [])
  }

  /** `time_period` absent from the answer: `{}`. */
  const EmptyPeriod := RawPeriod(None, None, None, None)

  /** `create_analysis_plan`: no error handling, so a failed model call or an
      undecodable answer is an error; otherwise each field is validated and
      absent fields take their defaults. */
  function CreatePlan(answer: Option<string>, decode: string -> Option<RawPlan>, vocabulary: seq<string>,
                      now: Calendar.Moment, parseIso: string -> Option<Calendar.Moment>): (r: Result<Plan>)
    ensures r.Ok? <==> answer.Some? && decode(answer.value).Some?
    ensures r.Ok? ==> |r.value.targetTags| >= 1 && |r.value.metrics| >= 1
    ensures r.Ok? ==> forall y :: y in r.value.targetTags ==> y in vocabulary || y == FallbackTag
    ensures r.Ok? ==> var raw := decode(answer.value).value;
              r.value.grouping == raw.grouping.GetOr("month") &&
              r.value.comparisonTags == raw.comparisonTags.GetOr([]) &&
              r.value.targetTags == ValidateTags(raw.targetTags.GetOr([]), vocabulary) &&
              r.value.metrics == ParseMetrics(raw.metrics.GetOr([])) &&
              r.value.period == ParseTimePeriod(raw.period.GetOr(EmptyPeriod), now, parseIso)
  {
    if answer.None? then Err("model call failed")
    else
      match decode(answer.value)
      case None => Err("JSONDecodeError")
      case Some(raw) =>
        Ok(Plan(
          ParseTimePeriod(raw.period.GetOr(EmptyPeriod), now, parseIso),
          ValidateTags(raw.targetTags.GetOr([]), vocabulary),
          ParseMetrics(raw.metrics.GetOr([])),
          raw.grouping.GetOr("month"),
          raw.comparisonTags.GetOr([])))
  }
}

=== FILE: planner_legacy.dfy ===
/** `DeepSeekPlanner` of the older orchestrator (`mcp_orchestrator.py`). It
    has a fixed vocabulary, a time-period parser without defaults, and a
    `create_analysis_plan` that turns every failure into the default plan. */
module PlannerLegacy {
  import opened Wrappers
  import Text
  import Calendar
  import Matching
  import opened Domain
  import Planning

  /** `_load_available_tags`. */
  const Vocabulary: seq<string> := [
    "низкое_качество_стирки_или_чистки",
    "не_заменили_ковры_вовремя",
    "клиент_хочет_добавить_ковры",
    "клиент_хочет_меньше_ковров",
    "погашение_долга",
    "расторжение_договора",
    "возобновление_услуг",
    "долго_нет_ответа_на_заявку",
    "лишняя_доставка",
    "доставили_не_те_ковры",
    "не_выставлен_вовремя_счет",
    "неверная_сумма_в_счете",
    "ковер_забрали_без_причины",
    "забрали_не_тот_ковер",
    "менеджер_нагрубил_клиенту",
    "неоправданно_высокие_цены",
    "неоправданный_рост_цен",
    "новый_клиент_заключение_договора",
    "консультация_или_уточнение_деталей",
    "поменять_спецификации",
    "менеджер_обещал_но_не_связался_с_клиентом",
    "клиент_уходит_к_конкурентам",
    "приостановить_услуги",
    "ошибка_в_документах"
  ]

  const FallbackTag := "жалоба_качество_стирки"
  const DeliveryTag := "жалоба_долгая_доставка"

  /** `_parse_time_period`. The default window is commented out in the
      source, so a bound that is absent or empty leaves its variable unbound
      (`UnboundLocalError`), and an unparseable one raises `ValueError`. */
  function ParseTimePeriod(raw: RawPeriod, parseIso: string -> Option<Calendar.Moment>): (r: Result<Period>)
    ensures r.Ok? <==> Truthy(raw.start) && Truthy(raw.end) &&
                       parseIso(raw.start.value).Some? && parseIso(raw.end.value).Some?
    ensures r.Ok? ==> r.value.start == parseIso(raw.start.value).value && r.value.end == parseIso(raw.end.value).value
    ensures r.Ok? && Truthy(raw.description) ==> r.value.description == raw.description.value
    ensures r.Ok? && !Truthy(raw.description) ==>
              r.value.description == "с " + Calendar.DotFormat(r.value.start.date) + " по " + Calendar.DotFormat(r.value.end.date)
  {
    if Truthy(raw.start) && parseIso(raw.start.value).None? then Err("ValueError: Invalid isoformat string")
    else if Truthy(raw.end) && parseIso(raw.end.value).None? then Err("ValueError: Invalid isoformat string")
    else if !Truthy(raw.start) || !Truthy(raw.end) then Err("UnboundLocalError")
    else
      var start := parseIso(raw.start.value).value;
      var end := parseIso(raw.end.value).value;
      var description := if Truthy(raw.description) then raw.description.value
                         else "с " + Calendar.DotFormat(start.date) + " по " + Calendar.DotFormat(end.date);
      Ok(Period(start, end, description))
  }

  /** `_validate_tags` over the fixed vocabulary. */
  function ValidateTags(candidates: seq<string>): (r: seq<string>)
    ensures |r| >= 1
    ensures forall y :: y in r ==> y in Vocabulary || y == FallbackTag
    ensures r == Matching.MatchAll(candidates, Vocabulary) || r == [FallbackTag]
    ensures (exists i, j :: 0 <= i < |candidates| && 0 <= j < |Vocabulary| && Matching.Fuzzy(Vocabulary[j], candidates[i])) ==>
              r == Matching.MatchAll(candidates, Vocabulary)
  {
    Matching.MatchAllEmpty(candidates, Vocabulary);
    Planning.ValidateTags(candidates, Vocabulary, [FallbackTag])
  }

  /** The fallback tag is not a vocabulary entry, so "every validated tag is
      in the vocabulary" fails here: an empty candidate list already yields
      a tag from outside it. */
  lemma FallbackOutsideVocabulary()
    ensures FallbackTag !in Vocabulary
    ensures ValidateTags([]) == [FallbackTag]
  {
    NoComplaintInVocabulary();
    assert FallbackTag[0] == 'ж';
  }

  /** No vocabulary entry starts with 'ж', the first letter of both complaint tags. */
  lemma NoComplaintInVocabulary()
    ensures forall j :: 0 <= j < |Vocabulary| ==> |Vocabulary[j]| > 0 && Vocabulary[j][0] != 'ж'
  {
  }

  predicate MentionsQuality(q: string) {
    Text.Contains(Text.Lower(q), "качеств")
  }

  predicate MentionsDelivery(q: string) {
    Text.Contains(Text.Lower(q), "доставк")
  }

  /** `_create_default_plan`. */
  function DefaultPlan(query: string, now: Calendar.Moment): (r: Plan)
    ensures |r.targetTags| >= 1
    ensures FallbackTag in r.targetTags <==> MentionsQuality(query) || !MentionsDelivery(query)
    ensures DeliveryTag in r.targetTags <==> MentionsDelivery(query)
    ensures MentionsQuality(query) && MentionsDelivery(query) ==> r.targetTags == [FallbackTag, DeliveryTag]
    ensures !MentionsDelivery(query) ==> r.targetTags == [FallbackTag]
    ensures !MentionsQuality(query) && MentionsDelivery(query) ==> r.targetTags == [DeliveryTag]
    ensures r.metrics == [CountByTag, TagTrends] && r.grouping == "month" && r.comparisonTags == []
    ensures Calendar.DayNumber(r.period.start.date) + 180 == Calendar.DayNumber(now.date)
    ensures r.period.end == now && r.period.description == "последние 6 месяцев"
  {
    var tags := (if MentionsQuality(query) then [FallbackTag] else [])
              + (if MentionsDelivery(query) then [DeliveryTag] else []);
    var period := Period(Calendar.MinusDaysAt(now, 180), now, "последние 6 месяцев");
    Plan(period, if |tags| == 0 then [FallbackTag] else tags, [CountByTag, TagTrends], "month", [])
  }

  /** Neither default tag is in the vocabulary. */
  lemma DefaultTagsOutsideVocabulary(query: string, now: Calendar.Moment)
    ensures forall y :: y in DefaultPlan(query, now).targetTags ==> y !in Vocabulary
  {
    NoComplaintInVocabulary();
    forall y | y in DefaultPlan(query, now).targetTags ensures y !in Vocabulary {
      assert y == FallbackTag || y == DeliveryTag;
      assert |y| > 0 && y[0] == 'ж';
    }
  }

  const EmptyPeriod := RawPeriod(None, None, None, None)

  /** The plan built from a decoded answer, or the exception it raises. */
  function PlanFromAnswer(raw: RawPlan, parseIso: string -> Option<Calendar.Moment>): (r: Result<Plan>)
    ensures r.Ok? <==> ParseTimePeriod(raw.period.GetOr(EmptyPeriod), parseIso).Ok?
  {
    var period :- ParseTimePeriod(raw.period.GetOr(EmptyPeriod), parseIso);
    Ok(Plan(
      period,
      ValidateTags(raw.targetTags.GetOr([])),
      Planning.ParseMetrics(raw.metrics.GetOr([]), false),
      raw.grouping.GetOr("month"),
      raw.comparisonTags.GetOr([])))
  }

  /** `create_analysis_plan`: any failure (model call, JSON decoding, period
      parsing) is caught and answered with the default plan. */
  function CreatePlan(query: string, answer: Option<string>, decode: string -> Option<RawPlan>,
                      now: Calendar.Moment, parseIso: string -> Option<Calendar.Moment>): (r: Plan)
    ensures |r.targetTags| >= 1 && |r.metrics| >= 1
    ensures answer.None? || decode(answer.value).None? ==> r == DefaultPlan(query, now)
    ensures answer.Some? && decode(answer.value).Some? ==>
              var raw := decode(answer.value).value;
              var p := raw.period.GetOr(EmptyPeriod);
              (ParseTimePeriod(p, parseIso).Err? ==> r == DefaultPlan(query, now)) &&
              (ParseTimePeriod(p, parseIso).Ok? ==>
                 r.period == ParseTimePeriod(p, parseIso).value &&
                 r.targetTags == ValidateTags(raw.targetTags.GetOr([])) &&
                 r.metrics == Planning.ParseMetrics(raw.metrics.GetOr([]), false) &&
                 r.grouping == raw.grouping.GetOr("month") &&
                 r.comparisonTags == raw.comparisonTags.GetOr([]))
  {
    if answer.None? then DefaultPlan(query, now)
    else
      match decode(answer.value)
      case None => DefaultPlan(query, now)
      case Some(raw) =>
        match PlanFromAnswer(raw, parseIso)
        case Err(_) => DefaultPlan(query, now)
        case Ok(plan) => plan
  }

  /** A decoded answer without a `time_period` always falls back to the
      default plan, whatever else it says. */
  lemma MissingPeriodMeansDefault(query: string, answer: string, decode: string -> Option<RawPlan>,
                                  now: Calendar.Moment, parseIso: string -> Option<Calendar.Moment>)
    requires decode(answer).Some? && decode(answer).value.period.None?
    ensures CreatePlan(query, Some(answer), decode, now, parseIso) == DefaultPlan(query, now)
  {
  }
}

=== FILE: planner_llm.dfy ===
/** `DeepSeekPlanner` of `llm_query_planner.py`: a fixed eleven-tag
    vocabulary, a time-period parser that recognises three relative phrases,
    the extra `'sentiment'` metric, and no error handling at all. `dateutil`
    parsing is a parameter. */
module PlannerLlm {
  import opened Wrappers
  import Text
  import Calendar
  import Matching
  import opened Domain
  import Planning

  const Vocabulary: seq<string> := [
    "жалоба_качество_стирки",
    "жалоба_долгая_доставка",
    "жалоба_повреждение_изделия",
    "благодарность",
    "вопрос_оплата",
    "расторжение_договора",
    "консультация",
    "жалоба_менеджер",
    "срочный_вопрос",
    "перенос_доставки",
    "отмена_заказа"
  ]

  /** This planner's `time_period`: bounds only, no description. */
  datatype Window = Window(start: Calendar.Moment, end: Calendar.Moment)

  const SixMonths := "последние 6 месяцев"
  const ThisMonth := "этот месяц"
  const ThisYear := "этот год"

  /** The relative window named by a description; the phrases are tested
      case-sensitively in this order, and anything else means 30 days. */
  function RelativeWindow(description: string, now: Calendar.Moment): (r: Window)
    ensures r.end == now
    ensures Text.Contains(description, SixMonths) ==>
              Calendar.DayNumber(r.start.date) + 180 == Calendar.DayNumber(now.date) && r.start.secs == now.secs
    ensures !Text.Contains(description, SixMonths) && Text.Contains(description, ThisMonth) ==>
              r.start == Calendar.DateTime(Calendar.Date(now.date.year, now.date.month, 1), 0)
    ensures !Text.Contains(description, SixMonths) && !Text.Contains(description, ThisMonth) &&
            Text.Contains(description, ThisYear) ==>
              r.start == Calendar.DateTime(Calendar.Date(now.date.year, 1, 1), 0)
    ensures !Text.Contains(description, SixMonths) && !Text.Contains(description, ThisMonth) &&
            !Text.Contains(description, ThisYear) ==>
              Calendar.DayNumber(r.start.date) + 30 == Calendar.DayNumber(now.date) && r.start.secs == now.secs
  {
    if Text.Contains(description, SixMonths) then Window(Calendar.MinusDaysAt(now, 180), now)
    else if Text.Contains(description, ThisMonth) then Window(Calendar.Midnight(Calendar.FirstOfMonth(now.date)), now)
    else if Text.Contains(description, ThisYear) then Window(Calendar.Midnight(Calendar.Date(now.date.year, 1, 1)), now)
    else Window(Calendar.MinusDaysAt(now, 30), now)
  }

  /** A relative window never starts after it ends. */
  lemma RelativeWindowOrdered(description: string, now: Calendar.Moment)
    ensures Calendar.Le(RelativeWindow(description, now).start, RelativeWindow(description, now).end)
  {
    var w := RelativeWindow(description, now);
    Calendar.YearRange(now.date);
    Calendar.YearRange(Calendar.Date(now.date.year, 1, 1));
    assert Calendar.DayNumber(w.start.date) <= Calendar.DayNumber(now.date);
    Calendar.DayNumberOrder(w.start.date, now.date);
    if Calendar.DayNumber(w.start.date) == Calendar.DayNumber(now.date) {
      Calendar.DayNumberInjective(w.start.date, now.date);
    }
  }

  /** `_parse_time_period`. Relative periods are decided by the description
      (`''` when absent); otherwise each non-empty bound goes through the date
      parser, whose failure raises, and an absent one takes its default. */
  function ParseTimePeriod(raw: RawPeriod, now: Calendar.Moment, parseDate: string -> Option<Calendar.Moment>): (r: Result<Window>)
    ensures raw.kind == Some("relative") ==> r == Ok(RelativeWindow(raw.description.GetOr(""), now))
    ensures raw.kind != Some("relative") ==>
              (r.Err? <==> (Truthy(raw.start) && parseDate(raw.start.value).None?) ||
                           (Truthy(raw.end) && parseDate(raw.end.value).None?))
    ensures raw.kind != Some("relative") && r.Ok? ==>
              (Truthy(raw.start) ==> r.value.start == parseDate(raw.start.value).value) &&
              (!Truthy(raw.start) ==> Calendar.DayNumber(r.value.start.date) + 30 == Calendar.DayNumber(now.date)) &&
              (Truthy(raw.end) ==> r.value.end == parseDate(raw.end.value).value) &&
              (!Truthy(raw.end) ==> r.value.end == now)
  {
    if raw.kind == Some("relative") then Ok(RelativeWindow(raw.description.GetOr(""), now))
    else
      var start :- if Truthy(raw.start) then
                     (match parseDate(raw.start.value)
                      case None => Err("ParserError: unknown string format")
                      case Some(t) => Ok(t))
                   else Ok(Calendar.MinusDaysAt(now, 30));
      var end :- if Truthy(raw.end) then
                   (match parseDate(raw.end.value)
                    case None => Err("ParserError: unknown string format")
                    case Some(t) => Ok(t))
                 else Ok(now);
      Ok(Window(start, end))
  }

  /** `_validate_tags`: the fallback is the first vocabulary entry, so every
      validated tag is a vocabulary entry. */
  function ValidateTags(candidates: seq<string>): (r: seq<string>)
    ensures |r| >= 1
    ensures forall y :: y in r ==> y in Vocabulary
    ensures r == Matching.MatchAll(candidates, Vocabulary) || r == Vocabulary[..1]
    ensures (exists i, j :: 0 <= i < |candidates| && 0 <= j < |Vocabulary| && Matching.Fuzzy(Vocabulary[j], candidates[i])) ==>
              r == Matching.MatchAll(candidates, Vocabulary)
  {
    Matching.MatchAllEmpty(candidates, Vocabulary);
    Planning.ValidateTags(candidates, Vocabulary, Vocabulary[..1])
  }

  /** `_parse_metrics`, which also knows `'sentiment'`. */
  function ParseMetrics(ms: seq<string>): (r: seq<MetricKind>)
    ensures |r| >= 1 && SummaryStats !in r
    ensures (exists i :: 0 <= i < |ms| && Planning.MetricOf(ms[i], true).Some?) ==> r == Planning.KnownMetrics(ms, true)
    ensures (forall i :: 0 <= i < |ms| ==> Planning.MetricOf(ms[i], true).None?) ==> r == [CountByTag]
  {
    Planning.ParseMetrics(ms, true)
  }

  /** `'sentiment'` is the one literal only this planner accepts. */
  lemma SentimentOnlyHere()
    ensures ParseMetrics(["sentiment"]) == [SentimentTrend]
    ensures Planning.ParseMetrics(["sentiment"], false) == [CountByTag]
  {
    assert Planning.MetricOf(["sentiment"][0], true).Some?;
  }

  /** This planner's plan: the window has no description. */
  datatype LlmPlan = LlmPlan(
    window: Window,
    targetTags: seq<string>,
    metrics: seq<MetricKind>,
    grouping: string,
    comparisonTags: seq<string>)

  const EmptyPeriod := RawPeriod(None, None, None, None)

  /** `create_analysis_plan`: a failed model call, an undecodable answer and
      an unparseable date all propagate as errors. */
  function CreatePlan(answer: Option<string>, decode: string -> Option<RawPlan>, now: Calendar.Moment,
                      parseDate: string -> Option<Calendar.Moment>): (r: Result<LlmPlan>)
    ensures r.Ok? <==> answer.Some? && decode(answer.value).Some? &&
                       ParseTimePeriod(decode(answer.value).value.period.GetOr(EmptyPeriod), now, parseDate).Ok?
    ensures r.Ok? ==> |r.value.targetTags| >= 1 && |r.value.metrics| >= 1 &&
                      forall y :: y in r.value.targetTags ==> y in Vocabulary
    ensures r.Ok? ==> var raw := decode(answer.value).value;
              r.value.window == ParseTimePeriod(raw.period.GetOr(EmptyPeriod), now, parseDate).value &&
              r.value.targetTags == ValidateTags(raw.targetTags.GetOr([])) &&
              r.value.metrics == ParseMetrics(raw.metrics.GetOr([])) &&
              r.value.grouping == raw.grouping.GetOr("month") &&
              r.value.comparisonTags == raw.comparisonTags.GetOr([])
  {
    var text :- if answer.None? then Err("model call failed") else Ok(answer.value);
    var raw :- if decode(text).None? then Err("JSONDecodeError") else Ok(decode(text).value);
    var window :- ParseTimePeriod(raw.period.GetOr(EmptyPeriod), now, parseDate);
    Ok(LlmPlan(
      window,
      ValidateTags(raw.targetTags.GetOr([])),
      ParseMetrics(raw.metrics.GetOr([])),
      raw.grouping.GetOr("month"),
      raw.comparisonTags.GetOr([])))
  }
}

=== FILE: planning.dfy ===
/** Plan validation shared by the three planners: metric-string parsing with a
    default, and fuzzy tag validation against a vocabulary with a fallback. */
module Planning {
  import opened Wrappers
  import Matching
  import opened Domain

  /** `metric_map`; `withSentiment` adds the LLM query planner's extra
      `'sentiment'` literal. */
  function MetricOf(s: string, withSentiment: bool): (r: Option<MetricKind>)
    ensures r.Some? ==> r.value != SummaryStats
    ensures r.Some? && r.value == SentimentTrend ==> withSentiment
  {
    if s == "count_by_tag" then Some(CountByTag)
    else if s == "top_n_tags" then Some(TopNTags)
    else if s == "tag_trends" then Some(TagTrends)
    else if s == "comparison" then Some(Comparison)
    else if withSentiment && s == "sentiment" then Some(SentimentTrend)
    else None
  }

  /** The known metric literals of `ms`, translated, in order, duplicates kept. */
  function KnownMetrics(ms: seq<string>, withSentiment: bool): (r: seq<MetricKind>)
    ensures |r| <= |ms|
    decreases |ms|
  {
    if |ms| == 0 then []
    else
      match MetricOf(ms[0], withSentiment)
      case None => KnownMetrics(ms[1..], withSentiment)
      case Some(m) => [m] + KnownMetrics(ms[1..], withSentiment)
  }

  /** Translation works string by string: it distributes over concatenation. */
  lemma {:induction false} KnownMetricsAppend(a: seq<string>, b: seq<string>, withSentiment: bool)
    ensures KnownMetrics(a + b, withSentiment) == KnownMetrics(a, withSentiment) + KnownMetrics(b, withSentiment)
    decreases |a|
  {
    if |a| == 0 {
      assert a + b == b;
    } else {
      assert (a + b)[0] == a[0];
      assert (a + b)[1..] == a[1..] + b;
      KnownMetricsAppend(a[1..], b, withSentiment);
    }
  }

  /** Nothing is known exactly when no string is a metric literal. */
  lemma {:induction false} KnownMetricsEmpty(ms: seq<string>, withSentiment: bool)
    ensures KnownMetrics(ms, withSentiment) == [] <==>
            forall i :: 0 <= i < |ms| ==> MetricOf(ms[i], withSentiment).None?
    decreases |ms|
  {
    if |ms| > 0 {
      KnownMetricsEmpty(ms[1..], withSentiment);
      if forall i :: 0 <= i < |ms[1..]| ==> MetricOf(ms[1..][i], withSentiment).None? {
        forall i | 1 <= i < |ms| ensures MetricOf(ms[i], withSentiment).None? {
          assert ms[i] == ms[1..][i - 1];
        }
      } else {
        var i :| 0 <= i < |ms[1..]| && MetricOf(ms[1..][i], withSentiment).Some?;
        assert ms[1..][i] == ms[i + 1];
      }
    }
  }

  /** `_parse_metrics`: the known metrics, or `[COUNT_BY_TAG]` when there are none. */
  function ParseMetrics(ms: seq<string>, withSentiment: bool): (r: seq<MetricKind>)
    ensures |r| >= 1
    ensures SummaryStats !in r
    ensures !withSentiment ==> SentimentTrend !in r
    ensures (exists i :: 0 <= i < |ms| && MetricOf(ms[i], withSentiment).Some?) ==>
              r == KnownMetrics(ms, withSentiment)
    ensures (forall i :: 0 <= i < |ms| ==> MetricOf(ms[i], withSentiment).None?) ==> r == [CountByTag]
  {
    KnownMetricsEmpty(ms, withSentiment);
    KnownMetricsMembers(ms, withSentiment);
    var known := KnownMetrics(ms, withSentiment);
    if |known| == 0 then [CountByTag] else known
  }

  lemma {:induction false} KnownMetricsMembers(ms: seq<string>, withSentiment: bool)
    ensures SummaryStats !in KnownMetrics(ms, withSentiment)
    ensures !withSentiment ==> SentimentTrend !in KnownMetrics(ms, withSentiment)
    decreases |ms|
  {
    if |ms| > 0 {
      KnownMetricsMembers(ms[1..], withSentiment);
    }
  }

  /** `_validate_tags`: each candidate is replaced by the first vocabulary
      entry it fuzzily matches (candidates matching nothing are dropped), and
      an empty outcome is replaced by `fallback`. */
  function ValidateTags(candidates: seq<string>, vocabulary: seq<string>, fallback: seq<string>): (r: seq<string>)
    ensures Matching.MatchAll(candidates, vocabulary) != [] ==> r == Matching.MatchAll(candidates, vocabulary)
    ensures Matching.MatchAll(candidates, vocabulary) == [] ==> r == fallback
    ensures forall y :: y in r ==> y in vocabulary || y in fallback
    ensures (forall i, j :: 0 <= i < |candidates| && 0 <= j < |vocabulary| ==>
               !Matching.Fuzzy(vocabulary[j], candidates[i])) ==> r == fallback
  {
    Matching.MatchAllEmpty(candidates, vocabulary);
    var valid := Matching.MatchAll(candidates, vocabulary);
    if |valid| == 0 then fallback else valid
  }
}

=== FILE: preprocess.dfy ===
/** The bookkeeping of `preprocess_calls_full.py` around its audio steps:
    the date read from a file name, the quality-score arithmetic, the
    decision to transcribe, and merging one run's rows into the existing
    table. The audio measurements and the transcript are inputs. */
module Preprocess {
  import opened Wrappers
  import Text
  import Calendar
  import FileDates
  import Seqs
  import Sorting

  // ------------------------------------------------------ date from the name

  /** Ten characters with dashes at offsets 4 and 7. */
  predicate DateShaped(part: string) {
    |part| == 10 && part[4] == '-' && part[7] == '-'
  }

  /** `datetime.strptime(part, '%Y-%m-%d')`. */
  function ParsePart(part: string): Result<Calendar.Moment> {
    if FileDates.MatchesAt(part, 0, FileDates.DashedYmd) then FileDates.DateAt(part, 0, FileDates.DashedYmd)
    else Err("ValueError: time data does not match format '%Y-%m-%d'")
  }

  /** A part the loop accepts: date-shaped and parsed without raising. */
  predicate Readable(part: string) {
    DateShaped(part) && ParsePart(part).Ok?
  }

  function Parts(filename: string): seq<string> {
    Text.Split(filename, '_')
  }

  /** `extract_date_from_filename` before formatting: the day of the first
      readable `_`-separated part, or today (not the file's modification
      time, whatever its comment says). */
  function ExtractDay(filename: string, today: Calendar.Date): (r: Calendar.Date)
    requires Calendar.ValidDate(today)
    ensures Calendar.ValidDate(r)
    ensures (forall k :: 0 <= k < |Parts(filename)| ==> !Readable(Parts(filename)[k])) ==> r == today
    ensures (exists k :: 0 <= k < |Parts(filename)| && Readable(Parts(filename)[k])) ==>
              exists k :: 0 <= k < |Parts(filename)| && Readable(Parts(filename)[k]) &&
                          (forall j :: 0 <= j < k ==> !Readable(Parts(filename)[j])) &&
                          r == ParsePart(Parts(filename)[k]).value.date
  {
    match Seqs.FirstIndex(Parts(filename), Readable)
    case None => today
    case Some(k) => ParsePart(Parts(filename)[k]).value.date
  }

  /** `extract_date_from_filename`: the day as `YYYY-MM-DD`. */
  function ExtractDate(filename: string, today: Calendar.Date): string
    requires Calendar.ValidDate(today)
  {
    Calendar.DayKey(ExtractDay(filename, today))
  }

  /** `DayKey` is ten digits and dashes, so it holds no underscore. */
  lemma DayKeyHasNoUnderscore(d: Calendar.Date)
    requires Calendar.ValidDate(d) && Calendar.MinYear <= d.year <= Calendar.MaxYear
    ensures '_' !in Calendar.DayKey(d)
    ensures |Calendar.DayKey(d)| == 10
  {
    FileDates.DayKeyMatch(d, "");
    var key := Calendar.DayKey(d);
    assert key + "" == key;
    assert FileDates.MatchesAt(key, 0, FileDates.DashedYmd);
    forall i | 0 <= i < |key| ensures key[i] != '_' {
      if i != 4 && i != 7 {
        assert Text.IsDigit(key[i]);
      }
    }
  }

  /** The first `_`-separated part of such a name is the formatted day. */
  lemma DayKeyFirstPart(d: Calendar.Date, rest: string)
    requires Calendar.ValidDate(d) && Calendar.MinYear <= d.year <= Calendar.MaxYear
    ensures |Parts(Calendar.DayKey(d) + "_" + rest)| > 0
    ensures Parts(Calendar.DayKey(d) + "_" + rest)[0] == Calendar.DayKey(d)
  {
    var key := Calendar.DayKey(d);
    DayKeyHasNoUnderscore(d);
    Text.SplitHead(key, rest, '_');
    assert key + "_" + rest == key + ['_'] + rest;
  }

  /** A formatted day is a part the loop accepts. */
  lemma DayKeyReadable(d: Calendar.Date)
    requires Calendar.ValidDate(d) && Calendar.MinYear <= d.year <= Calendar.MaxYear
    ensures Readable(Calendar.DayKey(d))
    ensures ParsePart(Calendar.DayKey(d)).value.date == d
  {
    var key := Calendar.DayKey(d);
    DayKeyHasNoUnderscore(d);
    FileDates.DayKeyMatch(d, "");
    assert key + "" == key;
  }

  /** A name that starts with a formatted day and an underscore reads back
      as that day. */
  lemma ExtractDateRoundTrip(d: Calendar.Date, rest: string, today: Calendar.Date)
    requires Calendar.ValidDate(d) && Calendar.MinYear <= d.year <= Calendar.MaxYear
    requires Calendar.ValidDate(today)
    ensures ExtractDate(Calendar.DayKey(d) + "_" + rest, today) == Calendar.DayKey(d)
  {
    var parts := Parts(Calendar.DayKey(d) + "_" + rest);
    DayKeyFirstPart(d, rest);
    DayKeyReadable(d);
    Seqs.FirstIndexAt(parts, Readable, 0);
  }

  // ---------------------------------------------------------- quality score

  /** The three measurements `assess_quality` takes from the audio: mean
      RMS loudness, mean zero-crossing rate, and the share of silent frames. */
  datatype Measures = Measures(rmsMean: real, zcrMean: real, silentRatio: real)

  function LoudnessStep(rms: real): int {
    if rms > 0.05 then 2 else if rms > 0.02 then 1 else if rms < 0.005 then -2 else 0
  }

  function NoiseStep(zcr: real): int {
    if zcr < 0.1 then 1 else if zcr > 0.3 then -1 else 0
  }

  function PauseStep(ratio: real): int {
    if 0.1 < ratio < 0.4 then 1 else if ratio > 0.7 then -2 else 0
  }

  /** The score before the clamp: 5 plus the three adjustments. */
  function RawScore(m: Measures): (r: int)
    ensures 0 <= r <= 9
  {
    5 + LoudnessStep(m.rmsMean) + NoiseStep(m.zcrMean) + PauseStep(m.silentRatio)
  }

  /** `max(1, min(10, score))`. */
  function Clamp(score: int): (r: int)
    ensures 1 <= r <= 10
    ensures 1 <= score <= 10 ==> r == score
    ensures score < 1 ==> r == 1
    ensures score > 10 ==> r == 10
  {
    if score < 1 then 1 else if score > 10 then 10 else score
  }

  /** `assess_quality`: `None` stands for any exception, which scores 5. */
  function AssessQuality(m: Option<Measures>): (r: int)
    ensures 1 <= r <= 10
    ensures m.None? ==> r == 5
    ensures m.Some? ==> r <= 9 && r >= RawScore(m.value)
    ensures m.Some? && RawScore(m.value) >= 1 ==> r == RawScore(m.value)
    ensures m.Some? && RawScore(m.value) < 1 ==> r == 1
  {
    match m
    case None => 5
    case Some(x) => Clamp(RawScore(x))
  }

  /** More loudness never lowers the score. */
  lemma LouderNeverScoresLower(m: Measures, rms: real)
    requires rms >= m.rmsMean
    ensures AssessQuality(Some(m.(rmsMean := rms))) >= AssessQuality(Some(m))
  {
  }

  /** More zero crossings (more noise) never raise the score. */
  lemma NoisierNeverScoresHigher(m: Measures, zcr: real)
    requires zcr >= m.zcrMean
    ensures AssessQuality(Some(m.(zcrMean := zcr))) <= AssessQuality(Some(m))
  {
  }

  // ----------------------------------------------------------- process_file

  /** One row of the output table. */
  datatype Row = Row(date: string, text: string, sourceFile: string, qualityScore: int, tags: string)

  /** What the audio steps of one file yield: the measurements (or `None`
      when measuring raises) and the stripped transcript (`""` when the
      transcriber raises). */
  datatype Probe = Probe(measures: Option<Measures>, transcript: string)

  /** `process_file` for `file` in the input directory: a row for every
      file, transcribed only when asked to transcribe everything or when the
      score reaches the threshold, with empty tags. */
  function ProcessFile(file: string, today: Calendar.Date, probe: Probe, threshold: int, transcribeAll: bool): (r: Row)
    requires Calendar.ValidDate(today)
    ensures r.sourceFile == file && r.tags == "" && r.date == ExtractDate(file, today)
    ensures 1 <= r.qualityScore <= 10 && r.qualityScore == AssessQuality(probe.measures)
    ensures r.text == probe.transcript || r.text == ""
    ensures transcribeAll || threshold <= 1 ==> r.text == probe.transcript
    ensures !transcribeAll && threshold > 10 ==> r.text == ""
    ensures r.text == (if transcribeAll || r.qualityScore >= threshold then probe.transcript else "")
  {
    var score := AssessQuality(probe.measures);
    var text := if transcribeAll || score >= threshold then probe.transcript else "";
    Row(ExtractDate(file, today), text, file, score, "")
  }

  // ------------------------------------------------------ process_directory

  const AudioExtensions: seq<string> := [".mp3", ".wav", ".m4a", ".flac", ".ogg", ".aac"]

  predicate IsAudio(name: string) {
    exists k :: 0 <= k < |AudioExtensions| && Text.EndsWith(Text.Lower(name), AudioExtensions[k])
  }

  /** The files of the listing still to process: audio files whose name is
      not already a `source_file` of the table. */
  function NewFiles(listing: seq<string>, known: set<string>): (r: seq<string>)
    ensures Seqs.IsSubsequence(r, listing)
    ensures forall f :: f in r <==> f in listing && IsAudio(f) && f !in known
  {
    Seqs.Filter(listing, f => IsAudio(f) && f !in known)
  }

  /** `x` is the first row of `rows` with its `source_file`. */
  predicate FirstOfSource(rows: seq<Row>, x: Row) {
    exists i :: 0 <= i < |rows| && rows[i] == x && forall j :: 0 <= j < i ==> rows[j].sourceFile != x.sourceFile
  }

  /** `drop_duplicates(subset=['source_file'], keep='first')` over the rows
      whose source is not in `seen`. */
  function DedupeFrom(rows: seq<Row>, seen: set<string>): (r: seq<Row>)
    ensures |r| <= |rows|
    ensures forall k :: 0 <= k < |r| ==> r[k].sourceFile !in seen
    decreases |rows|
  {
    if |rows| == 0 then []
    else if rows[0].sourceFile in seen then DedupeFrom(rows[1..], seen)
    else [rows[0]] + DedupeFrom(rows[1..], seen + {rows[0].sourceFile})
  }

  /** Every kept row is the first of its source. */
  lemma {:induction false} DedupeKeepsFirst(rows: seq<Row>, seen: set<string>)
    ensures forall k :: 0 <= k < |DedupeFrom(rows, seen)| ==> FirstOfSource(rows, DedupeFrom(rows, seen)[k])
    decreases |rows|
  {
    if |rows| > 0 {
      var head := rows[0];
      var seen' := if head.sourceFile in seen then seen else seen + {head.sourceFile};
      var rest := DedupeFrom(rows[1..], seen');
      DedupeKeepsFirst(rows[1..], seen');
      forall k | 0 <= k < |rest| ensures FirstOfSource(rows, rest[k]) {
        var i :| 0 <= i < |rows[1..]| && rows[1..][i] == rest[k] &&
                 forall j :: 0 <= j < i ==> rows[1..][j].sourceFile != rest[k].sourceFile;
        assert rest[k].sourceFile !in seen' && head.sourceFile in seen';
        assert rows[i + 1] == rest[k];
        forall j | 0 <= j < i + 1 ensures rows[j].sourceFile != rest[k].sourceFile {
          if j > 0 {
            assert rows[j] == rows[1..][j - 1];
          }
        }
      }
      if head.sourceFile !in seen {
        assert FirstOfSource(rows, head) by {
          assert rows[0] == head;
        }
        assert DedupeFrom(rows, seen) == [head] + rest;
      } else {
        assert DedupeFrom(rows, seen) == rest;
      }
    }
  }

  /** Every source outside `seen` keeps a row. */
  lemma {:induction false} DedupeCovers(rows: seq<Row>, seen: set<string>)
    ensures forall i :: 0 <= i < |rows| && rows[i].sourceFile !in seen ==>
              exists k :: 0 <= k < |DedupeFrom(rows, seen)| && DedupeFrom(rows, seen)[k].sourceFile == rows[i].sourceFile
    decreases |rows|
  {
    if |rows| > 0 {
      var head := rows[0];
      var seen' := if head.sourceFile in seen then seen else seen + {head.sourceFile};
      var rest := DedupeFrom(rows[1..], seen');
      DedupeCovers(rows[1..], seen');
      var r := DedupeFrom(rows, seen);
      assert head.sourceFile in seen ==> r == rest;
      assert head.sourceFile !in seen ==> r == [head] + rest;
      forall i | 0 <= i < |rows| && rows[i].sourceFile !in seen
        ensures exists k :: 0 <= k < |r| && r[k].sourceFile == rows[i].sourceFile
      {
        if rows[i].sourceFile == head.sourceFile {
          assert r[0] == head;
        } else {
          assert rows[i] == rows[1..][i - 1];
          var k :| 0 <= k < |rest| && rest[k].sourceFile == rows[i].sourceFile;
          if head.sourceFile in seen {
            assert r[k] == rest[k];
          } else {
            assert r[k + 1] == rest[k];
          }
        }
      }
      assert DedupeFrom(rows, seen) == r;
    }
  }

  /** No two kept rows share a source. */
  lemma {:induction false} DedupeDistinct(rows: seq<Row>, seen: set<string>)
    ensures forall k, l :: 0 <= k < l < |DedupeFrom(rows, seen)| ==>
              DedupeFrom(rows, seen)[k].sourceFile != DedupeFrom(rows, seen)[l].sourceFile
    decreases |rows|
  {
    if |rows| > 0 {
      var head := rows[0];
      var seen' := if head.sourceFile in seen then seen else seen + {head.sourceFile};
      DedupeDistinct(rows[1..], seen');
      var rest := DedupeFrom(rows[1..], seen');
      var r := DedupeFrom(rows, seen);
      if head.sourceFile !in seen {
        forall k, l | 0 <= k < l < |r| ensures r[k].sourceFile != r[l].sourceFile {
          assert r[l] == rest[l - 1];
          if k == 0 {
            assert rest[l - 1].sourceFile !in seen';
          } else {
            assert r[k] == rest[k - 1];
          }
        }
      }
    }
  }

  /** The first row of every source, in order of first appearance. */
  function DedupeBySource(rows: seq<Row>): (r: seq<Row>)
    ensures forall k :: 0 <= k < |r| ==> FirstOfSource(rows, r[k])
    ensures forall i :: 0 <= i < |rows| ==> exists k :: 0 <= k < |r| && r[k].sourceFile == rows[i].sourceFile
    ensures forall k, l :: 0 <= k < l < |r| ==> r[k].sourceFile != r[l].sourceFile
  {
    DedupeKeepsFirst(rows, {});
    DedupeCovers(rows, {});
    DedupeDistinct(rows, {});
    DedupeFrom(rows, {})
  }

  function RowDate(x: Row): string {
    x.date
  }

  /** The `source_file` column of the existing table. */
  function Known(existing: Option<seq<Row>>): set<string> {
    if existing.None? then {} else set x | x in existing.value :: x.sourceFile
  }

  /** One file through `process_file`, or `None` when its audio steps raised. */
  function Step(probe: string -> Option<Probe>, today: Calendar.Date, threshold: int, transcribeAll: bool): string -> Option<Row>
    requires Calendar.ValidDate(today)
  {
    (f: string) =>
      match probe(f)
      case None => None
      case Some(p) => Some(ProcessFile(f, today, p, threshold, transcribeAll))
  }

  /** The rows one run adds: `process_file` on each new file whose audio
      steps did not raise. */
  function NewRows(files: seq<string>, probe: string -> Option<Probe>, today: Calendar.Date, threshold: int,
                   transcribeAll: bool): seq<Row>
    requires Calendar.ValidDate(today)
  {
    Seqs.FilterMap(files, Step(probe, today, threshold, transcribeAll))
  }

  /** Every new file the audio steps could process has its row. */
  lemma {:induction false} NewRowsCover(files: seq<string>, probe: string -> Option<Probe>, today: Calendar.Date,
                                        threshold: int, transcribeAll: bool)
    requires Calendar.ValidDate(today)
    ensures forall f :: f in files && probe(f).Some? ==>
              exists x :: x in NewRows(files, probe, today, threshold, transcribeAll) && x.sourceFile == f
    decreases |files|
  {
    if |files| > 0 {
      var rest := files[1..];
      var step := Step(probe, today, threshold, transcribeAll);
      NewRowsCover(rest, probe, today, threshold, transcribeAll);
      assert files == [files[0]] + rest;
      Seqs.FilterMapAppend([files[0]], rest, step);
      var head, tail := Seqs.FilterMap([files[0]], step), Seqs.FilterMap(rest, step);
      var all := NewRows(files, probe, today, threshold, transcribeAll);
      assert all == head + tail;
      forall f | f in files && probe(f).Some?
        ensures exists x :: x in all && x.sourceFile == f
      {
        if f == files[0] {
          var x := ProcessFile(files[0], today, probe(files[0]).value, threshold, transcribeAll);
          assert head == [x] by {
            assert [files[0]][1..] == [];
          }
          assert all[0] == x;
        } else {
          assert f in rest;
          var x :| x in tail && x.sourceFile == f;
          assert x in all;
        }
      }
    }
  }

  /** The table `process_directory` returns before it is written out. */
  function Merge(existing: Option<seq<Row>>, rows: seq<Row>): (r: seq<Row>)
    ensures Sorting.SortedBy(r, RowDate)
    ensures existing.None? ==> multiset(r) == multiset(rows)
    ensures existing.Some? ==> multiset(r) == multiset(DedupeBySource(existing.value + rows))
  {
    var merged := if existing.Some? then DedupeBySource(existing.value + rows) else rows;
    Sorting.SortBy(merged, RowDate)
  }

  /** `process_directory`, with the existing CSV (or `None` when there is
      none) and the directory listing as inputs. With nothing new, or
      nothing processed, the existing rows come back as they are; otherwise
      the existing and new rows, first row per source file kept, sorted by
      date. */
  function ProcessDirectory(existing: Option<seq<Row>>, listing: seq<string>, probe: string -> Option<Probe>,
                            today: Calendar.Date, threshold: int, transcribeAll: bool): (r: seq<Row>)
    requires Calendar.ValidDate(today)
    ensures var rows := NewRows(NewFiles(listing, Known(existing)), probe, today, threshold, transcribeAll);
            if |rows| == 0 then r == existing.GetOr([]) else r == Merge(existing, rows)
  {
    var files := NewFiles(listing, Known(existing));
    var rows := NewRows(files, probe, today, threshold, transcribeAll);
    if |files| == 0 then
      assert rows == [];
      existing.GetOr([])
    else if |rows| == 0 then existing.GetOr([])
    else Merge(existing, rows)
  }

  /** Reordering keeps every row. */
  lemma SameMembers(a: seq<Row>, b: seq<Row>, x: Row)
    requires multiset(a) == multiset(b) && x in a
    ensures x in b
  {
    assert x in multiset(a);
  }

  /** Merging keeps a row for every source of the existing table and of
      the new rows. */
  lemma MergeCovers(existing: Option<seq<Row>>, rows: seq<Row>, x: Row)
    requires x in rows || (existing.Some? && x in existing.value)
    ensures exists z :: z in Merge(existing, rows) && z.sourceFile == x.sourceFile
  {
    var r := Merge(existing, rows);
    if existing.Some? {
      var all := existing.value + rows;
      assert x in all;
      var i :| 0 <= i < |all| && all[i] == x;
      var d := DedupeBySource(all);
      var k :| 0 <= k < |d| && d[k].sourceFile == all[i].sourceFile;
      SameMembers(d, r, d[k]);
    } else {
      SameMembers(rows, r, x);
    }
  }

  /** A run leaves a row for every new audio file it could process, and
      keeps every source the existing table had. */
  lemma ProcessDirectoryCovers(existing: Option<seq<Row>>, listing: seq<string>, probe: string -> Option<Probe>,
                               today: Calendar.Date, threshold: int, transcribeAll: bool, f: string)
    requires Calendar.ValidDate(today)
    requires (f in listing && IsAudio(f) && f !in Known(existing) && probe(f).Some?) || f in Known(existing)
    ensures exists x :: x in ProcessDirectory(existing, listing, probe, today, threshold, transcribeAll) && x.sourceFile == f
  {
    var files := NewFiles(listing, Known(existing));
    var rows := NewRows(files, probe, today, threshold, transcribeAll);
    if f in Known(existing) {
      var y :| y in existing.value && y.sourceFile == f;
      if |rows| > 0 {
        MergeCovers(existing, rows, y);
      }
    } else {
      NewRowsCover(files, probe, today, threshold, transcribeAll);
      assert f in files;
      var x :| x in rows && x.sourceFile == f;
      MergeCovers(existing, rows, x);
    }
  }
}

=== FILE: ranking.dfy ===
/** `Counter.most_common(n)`: the entries of a tally by descending count, ties
    kept in insertion order (Python's sort and `heapq.nlargest` are stable),
    cut to the first `n`. */
module Ranking {
  import Tally

  /** A tally entry with its position in the tally, the stable-sort tie-break. */
  datatype Ranked<K> = Ranked(entry: Tally.Entry<K>, pos: nat)

  /** `a` is listed before `b`: a higher count, or an equal count inserted earlier. */
  predicate Before<K>(a: Ranked<K>, b: Ranked<K>) {
    a.entry.count > b.entry.count || (a.entry.count == b.entry.count && a.pos < b.pos)
  }

  predicate SortedByRank<K>(s: seq<Ranked<K>>) {
    forall i, j :: 0 <= i < j < |s| ==> Before(s[i], s[j])
  }

  predicate DistinctPositions<K>(s: seq<Ranked<K>>) {
    forall i, j :: 0 <= i < j < |s| ==> s[i].pos != s[j].pos
  }

  function InsertRanked<K>(x: Ranked<K>, s: seq<Ranked<K>>): (r: seq<Ranked<K>>)
    ensures multiset(r) == multiset(s) + multiset{x}
    decreases |s|
  {
    if |s| == 0 then [x]
    else if Before(x, s[0]) then
      assert s == [s[0]] + s[1..];
      [x] + s
    else
      assert s == [s[0]] + s[1..];
      [s[0]] + InsertRanked(x, s[1..])
  }

  lemma {:induction false} InsertRankedSorted<K>(x: Ranked<K>, s: seq<Ranked<K>>)
    requires SortedByRank(s)
    requires forall j :: 0 <= j < |s| ==> s[j].pos != x.pos
    ensures SortedByRank(InsertRanked(x, s))
    decreases |s|
  {
    if |s| > 0 && !Before(x, s[0]) {
      InsertRankedSorted(x, s[1..]);
      var rest := InsertRanked(x, s[1..]);
      forall j | 0 <= j < |rest| ensures Before(s[0], rest[j]) {
        assert rest[j] in multiset(rest);
        if rest[j] != x {
          assert rest[j] in multiset(s[1..]);
          var k :| 0 <= k < |s[1..]| && s[1..][k] == rest[j];
          assert s[k + 1] == rest[j];
        }
      }
    }
  }

  /** A permutation of the tail holds no other entry at the head's position. */
  lemma HeadPositionFresh<K>(s: seq<Ranked<K>>, rest: seq<Ranked<K>>)
    requires DistinctPositions(s) && |s| > 0
    requires multiset(rest) == multiset(s[1..])
    ensures forall j :: 0 <= j < |rest| ==> rest[j].pos != s[0].pos
  {
    forall j | 0 <= j < |rest| ensures rest[j].pos != s[0].pos {
      assert rest[j] in multiset(s[1..]);
      var k :| 0 <= k < |s[1..]| && s[1..][k] == rest[j];
      assert s[k + 1] == rest[j];
    }
  }

  lemma TailDistinct<K>(s: seq<Ranked<K>>)
    requires DistinctPositions(s) && |s| > 0
    ensures DistinctPositions(s[1..])
  {
    forall i, j | 0 <= i < j < |s[1..]| ensures s[1..][i].pos != s[1..][j].pos {
      assert s[1..][i] == s[i + 1] && s[1..][j] == s[j + 1];
    }
  }

  /** Stable sort by rank: insertion sort. */
  function SortRanked<K>(s: seq<Ranked<K>>): (r: seq<Ranked<K>>)
    requires DistinctPositions(s)
    ensures multiset(r) == multiset(s)
    ensures SortedByRank(r)
    decreases |s|
  {
    if |s| == 0 then []
    else
      TailDistinct(s);
      var rest := SortRanked(s[1..]);
      HeadPositionFresh(s, rest);
      InsertRankedSorted(s[0], rest);
      assert s == [s[0]] + s[1..];
      InsertRanked(s[0], rest)
  }

  /** Each entry paired with its index in the tally. */
  function Decorate<K>(t: seq<Tally.Entry<K>>): (r: seq<Ranked<K>>)
    ensures |r| == |t|
    ensures forall i :: 0 <= i < |t| ==> r[i] == Ranked(t[i], i)
  {
    seq(|t|, i requires 0 <= i < |t| => Ranked(t[i], i))
  }

  function Min(a: nat, b: nat): nat {
    if a < b then a else b
  }

  /** An element of the sorted decoration is the tally entry at its position. */
  lemma SortedElement<K>(t: seq<Tally.Entry<K>>, s: seq<Ranked<K>>, q: nat)
    requires multiset(s) == multiset(Decorate(t)) && q < |s|
    ensures s[q].pos < |t| && s[q].entry == t[s[q].pos]
  {
    assert s[q] in multiset(Decorate(t));
    var p :| 0 <= p < |t| && Decorate(t)[p] == s[q];
  }

  /** Where the entry at position `p` of the tally lands in the sorted order. */
  lemma SortedPlace<K>(t: seq<Tally.Entry<K>>, s: seq<Ranked<K>>, p: nat) returns (q: nat)
    requires multiset(s) == multiset(Decorate(t)) && p < |t|
    ensures q < |s| && s[q] == Ranked(t[p], p)
  {
    assert Decorate(t)[p] in multiset(s);
    var k :| 0 <= k < |s| && s[k] == Decorate(t)[p];
    q := k;
  }

  /** `most_common(n)` over a tally with distinct keys. */
  function MostCommon<K(==)>(t: seq<Tally.Entry<K>>, n: nat): (r: seq<Tally.Entry<K>>)
    requires Tally.Distinct(Tally.Keys(t))
    ensures |r| == Min(n, |t|)
    ensures forall i :: 0 <= i < |r| ==> r[i] in t
    ensures Tally.Distinct(Tally.Keys(r))
    ensures forall i, j :: 0 <= i < j < |r| ==> r[i].count >= r[j].count
    ensures forall i, j :: 0 <= i < j < |r| && r[i].count == r[j].count ==>
              Tally.FirstIndex(Tally.Keys(t), r[i].key) < Tally.FirstIndex(Tally.Keys(t), r[j].key)
    ensures forall e :: e in t && e !in r ==> forall i :: 0 <= i < |r| ==> e.count <= r[i].count
  {
    var d := Decorate(t);
    var s := SortRanked(d);
    assert |s| == |multiset(s)| == |multiset(d)| == |t|;
    var m := Min(n, |t|);
    var r := seq(m, i requires 0 <= i < m => s[i].entry);
    MostCommonFacts(t, s, m, r);
    r
  }

  lemma MostCommonFacts<K>(t: seq<Tally.Entry<K>>, s: seq<Ranked<K>>, m: nat, r: seq<Tally.Entry<K>>)
    requires Tally.Distinct(Tally.Keys(t))
    requires multiset(s) == multiset(Decorate(t)) && SortedByRank(s)
    requires m <= |s| && |r| == m && forall i :: 0 <= i < m ==> r[i] == s[i].entry
    ensures forall i :: 0 <= i < |r| ==> r[i] in t
    ensures Tally.Distinct(Tally.Keys(r))
    ensures forall i, j :: 0 <= i < j < |r| ==> r[i].count >= r[j].count
    ensures forall i, j :: 0 <= i < j < |r| && r[i].count == r[j].count ==>
              Tally.FirstIndex(Tally.Keys(t), r[i].key) < Tally.FirstIndex(Tally.Keys(t), r[j].key)
    ensures forall e :: e in t && e !in r ==> forall i :: 0 <= i < |r| ==> e.count <= r[i].count
  {
    forall i | 0 <= i < |r| ensures r[i] in t && Tally.FirstIndex(Tally.Keys(t), r[i].key) == s[i].pos {
      SortedElement(t, s, i);
      KeyPosition(t, s[i].pos);
    }
    forall i, j | 0 <= i < j < |r| ensures Tally.Keys(r)[i] != Tally.Keys(r)[j] {
      SortedElement(t, s, i);
      SortedElement(t, s, j);
      assert Before(s[i], s[j]);
      assert Tally.Keys(t)[s[i].pos] != Tally.Keys(t)[s[j].pos];
    }
    forall e | e in t && e !in r ensures forall i :: 0 <= i < |r| ==> e.count <= r[i].count {
      var p :| 0 <= p < |t| && t[p] == e;
      var q := SortedPlace(t, s, p);
      forall i | 0 <= i < |r| ensures e.count <= r[i].count {
        assert Before(s[i], s[q]);
      }
    }
  }

  /** With distinct keys, the first occurrence of a key is its own position. */
  lemma KeyPosition<K>(t: seq<Tally.Entry<K>>, p: nat)
    requires Tally.Distinct(Tally.Keys(t)) && p < |t|
    ensures t[p].key in Tally.Keys(t) && Tally.FirstIndex(Tally.Keys(t), t[p].key) == p
  {
    assert Tally.Keys(t)[p] == t[p].key;
  }
}

=== FILE: russian_dates.dfy ===
/** `RussianDateParser`: turning a Russian time expression into a period.
    The parser's regular expressions are not modelled: `scan` reports, for a
    text, the groups of the first match of each pattern. What is modelled is
    the order in which the pattern families are tried, the date arithmetic
    each family does, the exceptions `datetime` raises on it, and the
    descriptions. A bare `date` of the source is its midnight; confidences
    are in hundredths. */
module RussianDates {
  import opened Wrappers
  import Text
  import Calendar
  import Seqs

  /** The year word of the "last/first N months of … year" patterns:
      'прошлого', 'текущего', 'этого'. */
  datatype YearWord = Previous | Current | ThisOne

  /** The units of "last N units", in the order they are tried. */
  datatype Unit = Days | Weeks | Months | Years

  const UnitOrder: seq<Unit> := [Days, Weeks, Months, Years]

  /** The special periods, in the order of the `special_cases` dictionary. */
  datatype Special = Today | Yesterday | ThisWeek | LastWeek | ThisMonth | LastMonth | ThisYear | LastYear

  const SpecialOrder: seq<Special> := [Today, Yesterday, ThisWeek, LastWeek, ThisMonth, LastMonth, ThisYear, LastYear]

  /** What the patterns find in one text: the groups of the first match of
      `last_n_of_year`, `first_n_of_year`, `from_to`, each `last_n_<unit>`
      (keyed by unit), the special periods that match, `date_dmy` as
      (day, month, year) and `date_words` as (day, month word, year). */
  datatype Matches = Matches(
    lastNOfYear: Option<(nat, YearWord)>,
    firstNOfYear: Option<(nat, YearWord)>,
    fromTo: Option<(string, string)>,
    lastN: map<Unit, nat>,
    special: set<Special>,
    dmy: Option<(nat, nat, nat)>,
    words: Option<(nat, string, nat)>)

  /** The dictionary `parse_query` returns; `originalQuery` is present only
      on the 'unclear' answer. */
  datatype Period = Period(
    kind: string,
    start: Option<Calendar.Moment>,
    end: Option<Calendar.Moment>,
    description: string,
    confidence: nat,
    originalQuery: Option<string>)

  /** A recognised period: both bounds present and in order. */
  predicate Ordered(p: Period) {
    p.start.Some? && p.end.Some? && Calendar.Le(p.start.value, p.end.value)
  }

  // ------------------------------------------------------------ plural forms

  /** Russian plural categories of a count. */
  datatype PluralForm = One | Few | Many

  /** The rule `_get_unit_name` applies. */
  function Plural(n: nat): PluralForm {
    if n % 10 == 1 && n % 100 != 11 then One
    else if 2 <= n % 10 <= 4 && (n % 100 < 10 || n % 100 >= 20) then Few
    else Many
  }

  /** The usual statement of the Russian plural rule for whole numbers:
      "one" ends in 1 but not 11, "few" ends in 2–4 but not 12–14. */
  function CommonPlural(n: nat): PluralForm {
    var last := n % 10;
    var lastTwo := n % 100;
    if last == 1 && lastTwo != 11 then One
    else if last in {2, 3, 4} && !(lastTwo in {12, 13, 14}) then Few
    else Many
  }

  /** The source's rule is the usual Russian plural rule. */
  lemma PluralIsCommonRule(n: nat)
    ensures Plural(n) == CommonPlural(n)
  {
    var q := n / 100;
    assert n == 100 * q + n % 100;
    assert n % 10 == (n % 100) % 10;
  }

  /** The unit key the source echoes for units it has no Russian word for. */
  function UnitKey(u: Unit): string {
    match u
    case Days => "days"
    case Weeks => "weeks"
    case Months => "months"
    case Years => "years"
  }

  /** `_get_unit_name`: the declined word for days and months, the unit key
      unchanged for weeks and years. */
  function UnitName(n: nat, u: Unit): (r: string)
    ensures u == Days ==> r == (match Plural(n) case One => "день" case Few => "дня" case Many => "дней")
    ensures u == Months ==> r == (match Plural(n) case One => "месяц" case Few => "месяца" case Many => "месяцев")
    ensures u == Weeks || u == Years ==> r == UnitKey(u)
  {
    if u == Days then
      if n % 10 == 1 && n % 100 != 11 then "день"
      else if 2 <= n % 10 <= 4 && (n % 100 < 10 || n % 100 >= 20) then "дня"
      else "дней"
    else if u == Months then
      if n % 10 == 1 && n % 100 != 11 then "месяц"
      else if 2 <= n % 10 <= 4 && (n % 100 < 10 || n % 100 >= 20) then "месяца"
      else "месяцев"
    else UnitKey(u)
  }

  /** The declined word depends only on the last two digits. */
  lemma UnitNamePeriodic(n: nat, u: Unit)
    ensures UnitName(n + 100, u) == UnitName(n, u)
  {
    assert Plural(n + 100) == Plural(n) by {
      assert (n + 100) % 100 == n % 100;
      assert (n + 100) % 10 == n % 10;
    }
  }

  // ------------------------------------------------------------- month words

  /** The `months` table: a month word's number is that of the first prefix
      it starts with. */
  const MonthPrefixes: seq<(string, nat)> := [
    ("январ", 1), ("феврал", 2), ("март", 3), ("апрел", 4), ("май", 5), ("мая", 5),
    ("июн", 6), ("июл", 7), ("август", 8), ("сентябр", 9), ("октябр", 10),
    ("ноябр", 11), ("декабр", 12)
  ]

  /** Whether `word` starts with a table entry's prefix. */
  function StemOf(word: string): ((string, nat)) -> bool {
    (e: (string, nat)) => Text.StartsWith(word, e.0)
  }

  /** The month number of a month word, when the table knows it. */
  function MonthOfWord(word: string): (r: Option<nat>)
    ensures r.Some? <==> exists k :: 0 <= k < |MonthPrefixes| && Text.StartsWith(word, MonthPrefixes[k].0)
  {
    match Seqs.FirstIndex(MonthPrefixes, StemOf(word))
    case None => None
    case Some(k) => Some(MonthPrefixes[k].1)
  }

  /** The genitive month names of "1 января 2024". */
  const Genitive: seq<string> := [
    "января", "февраля", "марта", "апреля", "мая", "июня",
    "июля", "августа", "сентября", "октября", "ноября", "декабря"
  ]

  /** Every genitive month name reads back as its own month. */
  lemma GenitiveRoundTrip(m: nat)
    requires 1 <= m <= 12
    ensures MonthOfWord(Genitive[m - 1]) == Some(m)
  {
    var w := Genitive[m - 1];
    var k := if m <= 4 then m - 1 else m;
    assert MonthPrefixes[k].1 == m;
    forall j | 0 <= j < k ensures !Text.StartsWith(w, MonthPrefixes[j].0) {
      var p := MonthPrefixes[j].0;
      if |p| <= |w| {
        assert w[..|p|] != p by {
          if m == 5 && j == 4 {
            assert w[2] != p[2];
          } else if m == 7 && j == 6 {
            assert w[2] != p[2];
          } else {
            assert w[0] != p[0] || w[1] != p[1];
          }
        }
      }
    }
    Seqs.FirstIndexAt(MonthPrefixes, StemOf(w), k);
  }

  // --------------------------------------------------------- complex periods

  /** "Last N months of the previous year": from the 1st of month 13 − N to
      December 31st. `datetime` raises unless 1 <= N <= 12 and the previous
      year exists. */
  function LastMonthsOfPreviousYear(n: nat, now: Calendar.Moment): (r: Result<Period>)
    ensures r.Ok? <==> 1 <= n <= 12 && Calendar.MinYear <= now.date.year - 1 <= Calendar.MaxYear
    ensures r.Ok? ==> Ordered(r.value) && r.value.confidence > 0
    ensures r.Ok? ==> var s := r.value.start.value.date; var e := r.value.end.value.date;
                      s.year == e.year == now.date.year - 1 && s.day == 1 && s.month + n == 13 &&
                      e.month == 12 && e.day == 31
  {
    var year := now.date.year - 1;
    var end :- Calendar.MakeDate(year, 12, 31);
    var start :- Calendar.MakeDate(year, 13 - n, 1);
    Ok(Period("last_n_months_of_year", Some(start), Some(end),
              "Последние " + Text.NatToDecimal(n) + " месяцев " + Text.IntToDecimal(year) + " года", 95, None))
  }

  /** The source's way to the last day of a month: from its first day, 32
      days on, back to the first of that month, one day back. */
  lemma MonthEndViaNextMonth(d: Calendar.Date)
    requires Calendar.ValidDate(d) && d.day == 1
    ensures Calendar.MinusDays(Calendar.FirstOfMonth(Calendar.PlusDays(d, 32)), 1) ==
            Calendar.Date(d.year, d.month, Calendar.DaysInMonth(d.year, d.month))
  {
    var dim := Calendar.DaysInMonth(d.year, d.month);
    var next := Calendar.NextMonthStart(d);
    var c := Calendar.Date(next.year, next.month, 33 - dim);
    assert Calendar.DayNumber(c) == Calendar.DayNumber(next) + 32 - dim;
    var p := Calendar.PlusDays(d, 32);
    Calendar.DayNumberInjective(p, c);
    assert Calendar.FirstOfMonth(p) == next;
    var e := Calendar.MinusDays(next, 1);
    var target := Calendar.Date(d.year, d.month, dim);
    assert Calendar.DayNumber(target) == Calendar.DayNumber(d) + dim - 1;
    Calendar.DayNumberInjective(e, target);
  }

  /** "First N months of the previous year": January 1st to the last day of
      month N. */
  function FirstMonthsOfPreviousYear(n: nat, now: Calendar.Moment): (r: Result<Period>)
    ensures r.Ok? <==> 1 <= n <= 12 && Calendar.MinYear <= now.date.year - 1 <= Calendar.MaxYear
    ensures r.Ok? ==> Ordered(r.value) && r.value.confidence > 0
    ensures r.Ok? ==> var s := r.value.start.value; var e := r.value.end.value;
                      s == Calendar.Midnight(Calendar.Date(now.date.year - 1, 1, 1)) &&
                      e == Calendar.Midnight(Calendar.Date(now.date.year - 1, n, Calendar.DaysInMonth(now.date.year - 1, n)))
  {
    var year := now.date.year - 1;
    var start :- Calendar.MakeDate(year, 1, 1);
    var first :- Calendar.MakeDate(year, n, 1);
    MonthEndViaNextMonth(first.date);
    var end := Calendar.Midnight(Calendar.MinusDays(Calendar.FirstOfMonth(Calendar.PlusDays(first.date, 32)), 1));
    Ok(Period("first_n_months_of_year", Some(start), Some(end),
              "Первые " + Text.NatToDecimal(n) + " месяцев " + Text.IntToDecimal(year) + " года", 95, None))
  }

  /** `_parse_single_date` on what the patterns find in one side of
      "с … по …": a numeric date first, then a worded one. */
  function SingleDate(m: Matches): (r: Option<Result<Calendar.Moment>>)
    ensures m.dmy.Some? ==> r == Some(Calendar.MakeDate(m.dmy.value.2, m.dmy.value.1, m.dmy.value.0))
    ensures m.dmy.None? ==> (r.Some? <==> m.words.Some? && MonthOfWord(m.words.value.1).Some?)
    ensures m.dmy.None? && r.Some? ==>
              r.value == Calendar.MakeDate(m.words.value.2, MonthOfWord(m.words.value.1).value, m.words.value.0)
  {
    if m.dmy.Some? then
      var (day, month, year) := m.dmy.value;
      Some(Calendar.MakeDate(year, month, day))
    else if m.words.Some? then
      var (day, word, year) := m.words.value;
      match MonthOfWord(word)
      case None => None
      case Some(num) => Some(Calendar.MakeDate(year, num, day))
    else None
  }

  /** An optional computation that may raise, as a raising computation of an
      optional value. */
  function Lift<T>(o: Option<Result<T>>): (r: Result<Option<T>>)
    ensures r.Err? <==> o.Some? && o.value.Err?
    ensures r.Ok? ==> (r.value.Some? <==> o.Some?) && (o.Some? ==> r.value.value == o.value.value)
  {
    match o
    case None => Ok(None)
    case Some(Err(e)) => Err(e)
    case Some(Ok(v)) => Ok(Some(v))
  }

  /** The "с … по …" period: the two dates sorted, described in the order
      the query gives them. */
  function FromToPeriod(d1: Calendar.Moment, d2: Calendar.Moment): (r: Period)
    ensures Ordered(r) && r.confidence > 0
    ensures (r.start.value == d1 && r.end.value == d2) || (r.start.value == d2 && r.end.value == d1)
    ensures r.description == "С " + Calendar.DotFormat(d1.date) + " по " + Calendar.DotFormat(d2.date)
  {
    Calendar.LeTotal(d1, d2);
    var (start, end) := if Calendar.Le(d1, d2) then (d1, d2) else (d2, d1);
    Period("from_to", Some(start), Some(end),
           "С " + Calendar.DotFormat(d1.date) + " по " + Calendar.DotFormat(d2.date), 90, None)
  }

  /** `_parse_complex_combinations`: last N months of the previous year,
      then first N months of it (other year words fall through), then
      "с … по …", which yields nothing unless both sides are dates. */
  function Complex(m: Matches, scan: string -> Matches, now: Calendar.Moment): (r: Result<Option<Period>>)
    ensures r.Ok? && r.value.Some? ==> Ordered(r.value.value) && r.value.value.confidence > 0
    ensures m.lastNOfYear.Some? && m.lastNOfYear.value.1 == Previous ==>
              r == (var p :- LastMonthsOfPreviousYear(m.lastNOfYear.value.0, now); Ok(Some(p)))
    ensures !(m.lastNOfYear.Some? && m.lastNOfYear.value.1 == Previous) &&
            m.firstNOfYear.Some? && m.firstNOfYear.value.1 == Previous ==>
              r == (var p :- FirstMonthsOfPreviousYear(m.firstNOfYear.value.0, now); Ok(Some(p)))
    ensures (m.fromTo.None? && !(m.lastNOfYear.Some? && m.lastNOfYear.value.1 == Previous) &&
             !(m.firstNOfYear.Some? && m.firstNOfYear.value.1 == Previous)) ==> r == Ok(None)
    ensures m.fromTo.Some? && !(m.lastNOfYear.Some? && m.lastNOfYear.value.1 == Previous) &&
            !(m.firstNOfYear.Some? && m.firstNOfYear.value.1 == Previous) ==>
              var d1 := SingleDate(scan(Text.Strip(m.fromTo.value.0)));
              var d2 := SingleDate(scan(Text.Strip(m.fromTo.value.1)));
              (r.Err? <==> (d1.Some? && d1.value.Err?) || (d2.Some? && d2.value.Err?)) &&
              (d1.Some? && d1.value.Ok? && d2.Some? && d2.value.Ok? ==>
                 r == Ok(Some(FromToPeriod(d1.value.value, d2.value.value)))) &&
              ((d1.None? || d2.None?) && !(d1.Some? && d1.value.Err?) && !(d2.Some? && d2.value.Err?) ==>
                 r == Ok(None))
  {
    if m.lastNOfYear.Some? && m.lastNOfYear.value.1 == Previous then
      var p :- LastMonthsOfPreviousYear(m.lastNOfYear.value.0, now);
      Ok(Some(p))
    else if m.firstNOfYear.Some? && m.firstNOfYear.value.1 == Previous then
      var p :- FirstMonthsOfPreviousYear(m.firstNOfYear.value.0, now);
      Ok(Some(p))
    else if m.fromTo.Some? then
      var (a, b) := m.fromTo.value;
      var d1 :- Lift(SingleDate(scan(Text.Strip(a))));
      var d2 :- Lift(SingleDate(scan(Text.Strip(b))));
      if d1.Some? && d2.Some? then Ok(Some(FromToPeriod(d1.value, d2.value))) else Ok(None)
    else Ok(None)
  }

  // -------------------------------------------------------- standard periods

  function UnitDays(u: Unit): nat {
    match u
    case Days => 1
    case Weeks => 7
    case Months => 30
    case Years => 365
  }

  /** "Last N units": now minus N days, weeks, 30-day months or 365-day
      years, up to now. */
  function LastUnits(n: nat, u: Unit, now: Calendar.Moment): (r: Period)
    ensures Ordered(r) && r.confidence > 0
    ensures r.end == Some(now) && r.start.value.secs == now.secs
    ensures Calendar.DayNumber(r.start.value.date) + n * UnitDays(u) == Calendar.DayNumber(now.date)
    ensures r.description == "Последние " + Text.NatToDecimal(n) + " " + UnitName(n, u)
  {
    var start := Calendar.MinusDaysAt(now, n * UnitDays(u));
    Calendar.LeByDayNumber(start, now);
    Period("last_" + Text.NatToDecimal(n) + "_" + UnitKey(u), Some(start), Some(now),
           "Последние " + Text.NatToDecimal(n) + " " + UnitName(n, u), 90, None)
  }

  /** `'last_month'` as written: the month holding the day 31 days before
      today, first to last day. It ends before today. */
  function LastMonthAsWritten(today: Calendar.Date): (r: (Calendar.Date, Calendar.Date))
    requires Calendar.ValidDate(today)
    ensures Calendar.ValidDate(r.0) && Calendar.ValidDate(r.1)
    ensures r.0.day == 1 && r.1 == Calendar.Date(r.0.year, r.0.month, Calendar.DaysInMonth(r.0.year, r.0.month))
    ensures Calendar.DayNumber(r.0) <= Calendar.DayNumber(today) - 31 <= Calendar.DayNumber(r.1)
    ensures Calendar.DayNumber(r.1) < Calendar.DayNumber(today)
  {
    var back := Calendar.MinusDays(today, 31);
    Calendar.LastOfMonthIsLastDay(back);
    (Calendar.FirstOfMonth(back), Calendar.LastOfMonth(back))
  }

  /** The calendar month before today's month, first to last day. */
  function LastMonthWindow(today: Calendar.Date): (r: (Calendar.Date, Calendar.Date))
    requires Calendar.ValidDate(today)
    ensures Calendar.ValidDate(r.0) && Calendar.ValidDate(r.1)
    ensures r.0.day == 1 && r.1 == Calendar.Date(r.0.year, r.0.month, Calendar.DaysInMonth(r.0.year, r.0.month))
    ensures r.0.year * 12 + r.0.month + 1 == today.year * 12 + today.month
  {
    var end := Calendar.PrevMonthEnd(today);
    (Calendar.FirstOfMonth(end), end)
  }

  /** The month 31 days back is the previous month exactly when today's day
      and the previous month's length add up to more than 31. */
  lemma LastMonthAsWrittenAgrees(today: Calendar.Date)
    requires Calendar.ValidDate(today)
    ensures var prev := Calendar.PrevMonthEnd(today);
            LastMonthAsWritten(today) == LastMonthWindow(today) <==>
            today.day + Calendar.DaysInMonth(prev.year, prev.month) > 31
  {
    var prev := Calendar.PrevMonthEnd(today);
    var dim := Calendar.DaysInMonth(prev.year, prev.month);
    assert prev.day == dim;
    assert Calendar.MinusDays(today, 31) == Calendar.MinusDays(prev, 31 - today.day);
    var back := Calendar.MinusDays(today, 31);
    if today.day + dim > 31 {
      assert back == Calendar.Date(prev.year, prev.month, dim - (31 - today.day));
      Calendar.LastOfMonthIsLastDay(back);
    } else {
      var before := Calendar.PrevMonthEnd(prev);
      assert back == Calendar.MinusDays(before, 31 - today.day - dim);
      assert back.month == before.month && back.year == before.year;
      assert before.year * 12 + before.month + 1 == prev.year * 12 + prev.month;
    }
  }

  /** 2024-03-01: 31 days back is January 30th, so "last month" is January,
      not February. */
  lemma LastMonthAsWrittenSkipsFebruary()
    ensures LastMonthAsWritten(Calendar.Date(2024, 3, 1)).0 == Calendar.Date(2024, 1, 1)
    ensures LastMonthWindow(Calendar.Date(2024, 3, 1)).0 == Calendar.Date(2024, 2, 1)
  {
    var today := Calendar.Date(2024, 3, 1);
    assert Calendar.PrevMonthEnd(today) == Calendar.Date(2024, 2, 29);
    assert Calendar.PrevMonthEnd(Calendar.Date(2024, 2, 29)) == Calendar.Date(2024, 1, 31);
    assert Calendar.MinusDays(Calendar.Date(2024, 1, 31), 1) == Calendar.Date(2024, 1, 30);
    assert Calendar.MinusDays(Calendar.Date(2024, 2, 29), 30) == Calendar.Date(2024, 1, 30);
    assert Calendar.MinusDays(today, 31) == Calendar.Date(2024, 1, 30);
  }

  /** `today - timedelta(days=today.weekday())`: this week's Monday. */
  function MondayOf(today: Calendar.Date): (r: Calendar.Date)
    requires Calendar.ValidDate(today)
    ensures Calendar.ValidDate(r) && Calendar.Weekday(r) == 0
    ensures Calendar.DayNumber(r) + Calendar.Weekday(today) == Calendar.DayNumber(today)
  {
    var n := Calendar.DayNumber(today);
    assert n == 7 * (n / 7) + n % 7;
    var r := Calendar.MinusDays(today, Calendar.Weekday(today));
    assert Calendar.DayNumber(r) == 7 * (n / 7);
    r
  }

  /** Last week: `weekday() + 7` days back to `weekday() + 1` days back,
      Monday to Sunday of the week before this one. */
  function LastWeekWindow(today: Calendar.Date): (r: (Calendar.Date, Calendar.Date))
    requires Calendar.ValidDate(today)
    ensures Calendar.ValidDate(r.0) && Calendar.ValidDate(r.1)
    ensures Calendar.Weekday(r.0) == 0
    ensures Calendar.DayNumber(r.1) == Calendar.DayNumber(r.0) + 6
    ensures Calendar.DayNumber(r.1) + 1 == Calendar.DayNumber(MondayOf(today))
  {
    var wd := Calendar.Weekday(today);
    var n := Calendar.DayNumber(today);
    assert n == 7 * (n / 7) + wd;
    var start := Calendar.MinusDays(today, wd + 7);
    assert Calendar.DayNumber(start) == 7 * (n / 7 - 1);
    (start, Calendar.MinusDays(today, wd + 1))
  }

  /** January 1st of today's year, up to today. */
  function ThisYearWindow(today: Calendar.Date): (r: (Calendar.Date, Calendar.Date))
    requires Calendar.ValidDate(today)
    ensures Calendar.ValidDate(r.0) && r.1 == today
    ensures r.0 == Calendar.Date(today.year, 1, 1)
    ensures Calendar.DayNumber(r.0) <= Calendar.DayNumber(today)
  {
    Calendar.YearRange(today);
    (Calendar.Date(today.year, 1, 1), today)
  }

  /** January 1st to December 31st of the year before today's. */
  function LastYearWindow(today: Calendar.Date): (r: (Calendar.Date, Calendar.Date))
    requires Calendar.ValidDate(today)
    ensures Calendar.ValidDate(r.0) && Calendar.ValidDate(r.1)
    ensures r == (Calendar.Date(today.year - 1, 1, 1), Calendar.Date(today.year - 1, 12, 31))
    ensures Calendar.DayNumber(r.0) <= Calendar.DayNumber(r.1) < Calendar.DayNumber(today)
  {
    var first := Calendar.Date(today.year - 1, 1, 1);
    var last := Calendar.Date(today.year - 1, 12, 31);
    Calendar.YearRange(today);
    Calendar.DaysBeforeYearStep(today.year - 1);
    (first, last)
  }

  /** The days a special period spans; 'last_month' is the month holding
      the day 31 days back, as the source computes it. */
  function SpecialWindow(s: Special, today: Calendar.Date): (r: (Calendar.Date, Calendar.Date))
    requires Calendar.ValidDate(today)
    ensures Calendar.ValidDate(r.0) && Calendar.ValidDate(r.1)
    ensures Calendar.DayNumber(r.0) <= Calendar.DayNumber(r.1) <= Calendar.DayNumber(today)
    ensures s == Today ==> r == (today, today)
    ensures s == Yesterday ==> r.0 == r.1 && Calendar.DayNumber(r.0) + 1 == Calendar.DayNumber(today)
    ensures s == ThisWeek ==> r == (MondayOf(today), today)
    ensures s == LastWeek ==> r == LastWeekWindow(today)
    ensures s == ThisMonth ==> r == (Calendar.Date(today.year, today.month, 1), today)
    ensures s == LastMonth ==> r == LastMonthAsWritten(today)
    ensures s == ThisYear ==> r == ThisYearWindow(today)
    ensures s == LastYear ==> r == LastYearWindow(today)
  {
    match s
    case Today => (today, today)
    case Yesterday => var y := Calendar.MinusDays(today, 1); (y, y)
    case ThisWeek => (MondayOf(today), today)
    case LastWeek => LastWeekWindow(today)
    case ThisMonth => (Calendar.FirstOfMonth(today), today)
    case LastMonth => LastMonthAsWritten(today)
    case ThisYear => ThisYearWindow(today)
    case LastYear => LastYearWindow(today)
  }

  function SpecialKey(s: Special): string {
    match s
    case Today => "today"
    case Yesterday => "yesterday"
    case ThisWeek => "this_week"
    case LastWeek => "last_week"
    case ThisMonth => "this_month"
    case LastMonth => "last_month"
    case ThisYear => "this_year"
    case LastYear => "last_year"
  }

  function SpecialText(s: Special): string {
    match s
    case Today => "Сегодня"
    case Yesterday => "Вчера"
    case ThisWeek => "На этой неделе"
    case LastWeek => "На прошлой неделе"
    case ThisMonth => "В этом месяце"
    case LastMonth => "В прошлом месяце"
    case ThisYear => "В этом году"
    case LastYear => "В прошлом году"
  }

  function SpecialPeriod(s: Special, today: Calendar.Date): (r: Period)
    requires Calendar.ValidDate(today)
    ensures Ordered(r) && r.confidence > 0
    ensures r.start == Some(Calendar.Midnight(SpecialWindow(s, today).0))
    ensures r.end == Some(Calendar.Midnight(SpecialWindow(s, today).1))
  {
    var w := SpecialWindow(s, today);
    Calendar.LeByDayNumber(Calendar.Midnight(w.0), Calendar.Midnight(w.1));
    Period(SpecialKey(s), Some(Calendar.Midnight(w.0)), Some(Calendar.Midnight(w.1)), SpecialText(s), 95, None)
  }

  /** Unit `UnitOrder[k]` is the first unit whose pattern matched. */
  predicate FirstUnit(m: Matches, k: int) {
    0 <= k < |UnitOrder| && UnitOrder[k] in m.lastN && forall j :: 0 <= j < k ==> UnitOrder[j] !in m.lastN
  }

  predicate NoUnit(m: Matches) {
    forall k :: 0 <= k < |UnitOrder| ==> UnitOrder[k] !in m.lastN
  }

  /** Special `SpecialOrder[k]` is the first special period that matched. */
  predicate FirstSpecial(m: Matches, k: int) {
    0 <= k < |SpecialOrder| && SpecialOrder[k] in m.special && forall j :: 0 <= j < k ==> SpecialOrder[j] !in m.special
  }

  predicate NoSpecial(m: Matches) {
    forall k :: 0 <= k < |SpecialOrder| ==> SpecialOrder[k] !in m.special
  }

  /** The "last N units" loop: the first unit that matched answers. */
  function UnitAnswer(m: Matches, now: Calendar.Moment): (r: Option<Period>)
    ensures r.None? <==> NoUnit(m)
    ensures forall k :: FirstUnit(m, k) ==> r == Some(LastUnits(m.lastN[UnitOrder[k]], UnitOrder[k], now))
  {
    var hit := u => u in m.lastN;
    Seqs.FirstIndexOnly(UnitOrder, hit);
    match Seqs.FirstIndex(UnitOrder, hit)
    case Some(k) => Some(LastUnits(m.lastN[UnitOrder[k]], UnitOrder[k], now))
    case None => None
  }

  /** The special-period loop: the first special that matched answers. */
  function SpecialAnswer(m: Matches, today: Calendar.Date): (r: Option<Period>)
    requires Calendar.ValidDate(today)
    ensures r.None? <==> NoSpecial(m)
    ensures forall k :: FirstSpecial(m, k) ==> r == Some(SpecialPeriod(SpecialOrder[k], today))
  {
    var hit := x => x in m.special;
    Seqs.FirstIndexOnly(SpecialOrder, hit);
    match Seqs.FirstIndex(SpecialOrder, hit)
    case Some(k) => Some(SpecialPeriod(SpecialOrder[k], today))
    case None => None
  }

  /** `_parse_standard_periods`: "last N units" in unit order; then the
      special periods in dictionary order. The dictionary is built before it
      is searched, so a date `datetime` cannot represent raises even when no
      special period is asked for. */
  function Standard(m: Matches, now: Calendar.Moment): (r: Result<Option<Period>>)
    ensures r.Ok? && r.value.Some? ==> Ordered(r.value.value) && r.value.value.confidence > 0
    ensures !NoUnit(m) ==> r.Ok? && r.value.Some?
    ensures r.Err? <==> NoUnit(m) && !(Calendar.MinYear <= now.date.year - 1 <= Calendar.MaxYear)
    ensures r.Ok? && r.value.None? <==> NoUnit(m) && Calendar.MinYear <= now.date.year - 1 <= Calendar.MaxYear &&
                                        NoSpecial(m)
    ensures forall k :: FirstUnit(m, k) ==> r == Ok(Some(LastUnits(m.lastN[UnitOrder[k]], UnitOrder[k], now)))
    ensures forall k :: FirstSpecial(m, k) && NoUnit(m) && Calendar.MinYear <= now.date.year - 1 <= Calendar.MaxYear ==>
              r == Ok(Some(SpecialPeriod(SpecialOrder[k], now.date)))
  {
    match UnitAnswer(m, now)
    case Some(p) => Ok(Some(p))
    case None =>
      // `datetime(year - 1, 1, 1)` for 'last_year' raises first
      var _ :- Calendar.MakeDate(now.date.year - 1, 1, 1);
      Ok(SpecialAnswer(m, now.date))
  }

  // -------------------------------------------------------- absolute dates

  /** A whole day: from 00:00:00 to 23:59:59. */
  function SingleDay(kind: string, d: Calendar.Date, description: string, confidence: nat): (r: Period)
    requires Calendar.ValidDate(d)
    ensures Ordered(r)
    ensures r.start.value.date == d && r.end.value.date == d
    ensures r.start.value.secs == 0 && r.end.value.secs == Calendar.SecondsPerDay - 1
  {
    Period(kind, Some(Calendar.Midnight(d)), Some(Calendar.LastSecond(d)), description, confidence, None)
  }

  /** `_parse_absolute_dates`: a numeric day-month-year date, otherwise a
      worded one whose month word the table knows; each spans one day. */
  function Absolute(m: Matches): (r: Result<Option<Period>>)
    ensures r.Ok? && r.value.Some? ==> Ordered(r.value.value) && r.value.value.confidence > 0
    ensures r.Ok? && r.value.Some? ==> r.value.value.start.value.date == r.value.value.end.value.date
    ensures m.dmy.Some? ==> (r.Ok? <==> Calendar.MakeDate(m.dmy.value.2, m.dmy.value.1, m.dmy.value.0).Ok?)
    ensures m.dmy.Some? && r.Ok? ==>
              (r.value.Some? &&
               r.value.value.start.value.date == Calendar.Date(m.dmy.value.2, m.dmy.value.1, m.dmy.value.0))
    ensures m.dmy.None? ==> (r.Ok? && r.value.None? <==> m.words.None? || MonthOfWord(m.words.value.1).None?)
  {
    if m.dmy.Some? then
      var (day, month, year) := m.dmy.value;
      var date :- Calendar.MakeDate(year, month, day);
      Ok(Some(SingleDay("single_date", date.date,
                        "За " + Calendar.TwoDigits(day) + "." + Calendar.TwoDigits(month) + "." + Text.NatToDecimal(year), 99)))
    else if m.words.Some? then
      var (day, word, year) := m.words.value;
      match MonthOfWord(word)
      case None => Ok(None)
      case Some(num) =>
        var date :- Calendar.MakeDate(year, num, day);
        Ok(Some(SingleDay("single_date_words", date.date,
                          "За " + Text.NatToDecimal(day) + " " + word + " " + Text.NatToDecimal(year) + " года", 98)))
    else Ok(None)
  }

  /** `_try_dateutil`: skipped when the query holds 'по' or 'с'; otherwise
      the day the date parser finds, if any. */
  function Dateutil(query: string, parse: string -> Option<Calendar.Moment>): (r: Option<Period>)
    ensures r.Some? <==> !Text.Contains(query, "по") && !Text.Contains(query, "с") && parse(query).Some?
    ensures r.Some? ==> Ordered(r.value) && r.value.confidence > 0 &&
                        r.value.start.value.date == parse(query).value.date
  {
    if Text.Contains(query, "по") || Text.Contains(query, "с") then None
    else match parse(query)
      case None => None
      case Some(t) => Some(SingleDay("dateutil", t.date, "За " + Calendar.DotFormat(t.date), 70))
  }

  // ------------------------------------------------------------ parse_query

  /** The answer when nothing is recognised. */
  function Unclear(query: string): Period {
    Period("unclear", None, None, "Не удалось распознать период", 0, Some(query))
  }

  /** The patterns found in the lower-cased, stripped query. */
  function Scanned(query: string, scan: string -> Matches): Matches {
    scan(Text.Strip(Text.Lower(query)))
  }

  /** `parse_query`: complex combinations, then standard periods, then
      absolute dates, then the date parser on the original query; the
      first that recognises the query answers, and an exception raised on
      the way propagates. */
  function ParseQuery(query: string, scan: string -> Matches, parse: string -> Option<Calendar.Moment>,
                      now: Calendar.Moment): (r: Result<Period>)
    ensures r.Ok? ==> (Ordered(r.value) && r.value.confidence > 0) || r.value == Unclear(query)
    ensures r == Ok(Unclear(query)) <==>
              Complex(Scanned(query, scan), scan, now) == Ok(None) &&
              Standard(Scanned(query, scan), now) == Ok(None) &&
              Absolute(Scanned(query, scan)) == Ok(None) &&
              Dateutil(query, parse).None?
    ensures Complex(Scanned(query, scan), scan, now).Ok? && Complex(Scanned(query, scan), scan, now).value.Some? ==>
              r == Ok(Complex(Scanned(query, scan), scan, now).value.value)
    ensures Complex(Scanned(query, scan), scan, now) == Ok(None) &&
            Standard(Scanned(query, scan), now).Ok? && Standard(Scanned(query, scan), now).value.Some? ==>
              r == Ok(Standard(Scanned(query, scan), now).value.value)
    ensures Complex(Scanned(query, scan), scan, now) == Ok(None) && Standard(Scanned(query, scan), now) == Ok(None) &&
            Absolute(Scanned(query, scan)).Ok? && Absolute(Scanned(query, scan)).value.Some? ==>
              r == Ok(Absolute(Scanned(query, scan)).value.value)
    ensures Complex(Scanned(query, scan), scan, now).Err? ==> r.Err?
    ensures Complex(Scanned(query, scan), scan, now) == Ok(None) && Standard(Scanned(query, scan), now).Err? ==> r.Err?
    ensures Complex(Scanned(query, scan), scan, now) == Ok(None) && Standard(Scanned(query, scan), now) == Ok(None) &&
            Absolute(Scanned(query, scan)).Err? ==>
              r.Err?
    ensures Complex(Scanned(query, scan), scan, now) == Ok(None) && Standard(Scanned(query, scan), now) == Ok(None) &&
            Absolute(Scanned(query, scan)) == Ok(None) && Dateutil(query, parse).Some? ==>
              r == Ok(Dateutil(query, parse).value)
  {
    var m := Scanned(query, scan);
    var complex :- Complex(m, scan, now);
    if complex.Some? then Ok(complex.value)
    else
      var standard :- Standard(m, now);
      if standard.Some? then Ok(standard.value)
      else
        var absolute :- Absolute(m);
        if absolute.Some? then Ok(absolute.value)
        else
          match Dateutil(query, parse)
          case Some(p) => Ok(p)
          case None => Ok(Unclear(query))
  }
}

=== FILE: seqs.dfy ===
/** Order-preserving filtering, the shape of Python's
    `[x for x in xs if p(x)]`, with its characterisation. */
module Seqs {
  import opened Wrappers

  /** `sub` can be obtained from `s` by deleting elements. */
  predicate IsSubsequence<T(==)>(sub: seq<T>, s: seq<T>)
    decreases |s|
  {
    if |sub| == 0 then true
    else if |s| == 0 then false
    else if sub[0] == s[0] then IsSubsequence(sub[1..], s[1..])
    else IsSubsequence(sub, s[1..])
  }

  lemma {:induction false} SubsequenceSelf<T>(s: seq<T>)
    ensures IsSubsequence(s, s)
    decreases |s|
  {
    if |s| > 0 {
      SubsequenceSelf(s[1..]);
    }
  }

  /** Elements of a subsequence are elements of the sequence. */
  lemma {:induction false} SubsequenceMembers<T>(sub: seq<T>, s: seq<T>)
    requires IsSubsequence(sub, s)
    ensures forall x :: x in sub ==> x in s
    ensures |sub| <= |s|
    decreases |s|
  {
    if |sub| > 0 && |s| > 0 {
      if sub[0] == s[0] {
        SubsequenceMembers(sub[1..], s[1..]);
        assert forall x :: x in sub ==> x == sub[0] || x in sub[1..];
      } else {
        SubsequenceMembers(sub, s[1..]);
      }
    }
  }

  /** Keep the elements that satisfy `p`, in their original order. */
  function Filter<T(==,!new)>(s: seq<T>, p: T -> bool): (r: seq<T>)
    ensures IsSubsequence(r, s)
    ensures forall x :: x in r ==> p(x)
    ensures forall x :: x in s && p(x) ==> x in r
    ensures forall x :: multiset(r)[x] == if p(x) then multiset(s)[x] else 0
    decreases |s|
  {
    if |s| == 0 then []
    else
      var rest := Filter(s[1..], p);
      assert s == [s[0]] + s[1..];
      if p(s[0]) then [s[0]] + rest else rest
  }

  /** Filtering twice with the same predicate is filtering once. */
  lemma {:induction false} FilterIdempotent<T(!new)>(s: seq<T>, p: T -> bool)
    ensures Filter(Filter(s, p), p) == Filter(s, p)
    decreases |s|
  {
    if |s| > 0 {
      FilterIdempotent(s[1..], p);
      var rest := Filter(s[1..], p);
      if p(s[0]) {
        assert ([s[0]] + rest)[1..] == rest;
      }
    }
  }

  /** Filtering distributes over concatenation. */
  lemma {:induction false} FilterAppend<T(!new)>(a: seq<T>, b: seq<T>, p: T -> bool)
    ensures Filter(a + b, p) == Filter(a, p) + Filter(b, p)
    decreases |a|
  {
    if |a| > 0 {
      assert (a + b)[0] == a[0];
      assert (a + b)[1..] == a[1..] + b;
      FilterAppend(a[1..], b, p);
    } else {
      assert a + b == b;
    }
  }

  /** `[g(x) for x in xs if g(x) is not None]`: the successful results of `f`,
      in input order. */
  function FilterMap<T, U>(xs: seq<T>, f: T -> Option<U>): (r: seq<U>)
    ensures |r| <= |xs|
    decreases |xs|
  {
    if |xs| == 0 then []
    else
      var rest := FilterMap(xs[1..], f);
      assert forall j :: 0 <= j < |xs[1..]| ==> xs[1..][j] == xs[j + 1];
      match f(xs[0])
      case None => rest
      case Some(y) => [y] + rest
  }

  /** The head contributes its result, if any, before the rest. */
  lemma FilterMapCons<T, U>(x: T, xs: seq<T>, f: T -> Option<U>)
    ensures FilterMap([x] + xs, f) == (if f(x).Some? then [f(x).value] else []) + FilterMap(xs, f)
  {
    assert ([x] + xs)[0] == x;
    assert ([x] + xs)[1..] == xs;
  }

  /** Every result comes from some input. */
  lemma {:induction false} FilterMapFrom<T, U>(xs: seq<T>, f: T -> Option<U>)
    ensures forall i :: 0 <= i < |FilterMap(xs, f)| ==> exists j :: 0 <= j < |xs| && f(xs[j]) == Some(FilterMap(xs, f)[i])
    decreases |xs|
  {
    if |xs| > 0 {
      var rest := xs[1..];
      var r, r' := FilterMap(xs, f), FilterMap(rest, f);
      FilterMapFrom(rest, f);
      assert xs == [xs[0]] + rest;
      FilterMapCons(xs[0], rest, f);
      forall i | 0 <= i < |r|
        ensures exists j :: 0 <= j < |xs| && f(xs[j]) == Some(r[i])
      {
        if f(xs[0]).Some? && i == 0 {
          assert f(xs[0]) == Some(r[i]);
        } else {
          var i' := if f(xs[0]).Some? then i - 1 else i;
          assert r[i] == r'[i'];
          var k :| 0 <= k < |rest| && f(rest[k]) == Some(r'[i']);
          assert rest[k] == xs[k + 1];
          assert f(xs[k + 1]) == Some(r[i]);
        }
      }
    } else {
      assert |FilterMap(xs, f)| == 0;
    }
  }

  /** When every input succeeds, the results line up with the inputs. */
  lemma {:induction false} FilterMapTotal<T, U>(xs: seq<T>, f: T -> Option<U>)
    requires forall j :: 0 <= j < |xs| ==> f(xs[j]).Some?
    ensures |FilterMap(xs, f)| == |xs|
    ensures forall j :: 0 <= j < |xs| ==> FilterMap(xs, f)[j] == f(xs[j]).value
    decreases |xs|
  {
    if |xs| > 0 {
      var rest, y := xs[1..], f(xs[0]).value;
      assert f(xs[0]) == Some(y);
      var r, r' := FilterMap(xs, f), FilterMap(rest, f);
      assert forall j :: 0 <= j < |rest| ==> f(rest[j]).Some? by {
        assert forall j :: 0 <= j < |rest| ==> rest[j] == xs[j + 1];
      }
      FilterMapTotal(rest, f);
      assert xs == [xs[0]] + rest;
      FilterMapCons(xs[0], rest, f);
      forall j | 1 <= j < |xs|
        ensures r[j] == f(xs[j]).value
      {
        assert r[j] == r'[j - 1] && rest[j - 1] == xs[j];
      }
    }
  }

  /** Each input contributes on its own, in order. */
  lemma {:induction false} FilterMapAppend<T, U>(a: seq<T>, b: seq<T>, f: T -> Option<U>)
    ensures FilterMap(a + b, f) == FilterMap(a, f) + FilterMap(b, f)
    decreases |a|
  {
    if |a| == 0 {
      assert a + b == b;
    } else {
      assert (a + b)[0] == a[0];
      assert (a + b)[1..] == a[1..] + b;
      FilterMapAppend(a[1..], b, f);
    }
  }

  /** Nothing survives exactly when every input fails. */
  lemma {:induction false} FilterMapEmpty<T, U>(xs: seq<T>, f: T -> Option<U>)
    ensures FilterMap(xs, f) == [] <==> forall j :: 0 <= j < |xs| ==> f(xs[j]).None?
    decreases |xs|
  {
    if |xs| > 0 {
      FilterMapEmpty(xs[1..], f);
      assert forall j :: 0 <= j < |xs[1..]| ==> xs[1..][j] == xs[j + 1];
      if f(xs[0]).None? {
        assert forall j :: 1 <= j < |xs| ==> xs[j] == xs[1..][j - 1];
      }
    }
  }

  /** The index of the first element that satisfies `p`: the shape of a
      `for` loop that returns on its first hit. */
  function FirstIndex<T>(s: seq<T>, p: T -> bool): (r: Option<nat>)
    ensures r.Some? ==> r.value < |s| && p(s[r.value])
    ensures r.Some? ==> forall j :: 0 <= j < r.value ==> !p(s[j])
    ensures r.None? <==> forall j :: 0 <= j < |s| ==> !p(s[j])
    decreases |s|
  {
    if |s| == 0 then None
    else if p(s[0]) then Some(0)
    else match FirstIndex(s[1..], p)
      case None => None
      case Some(k) => Some(k + 1)
  }

  /** Every element that satisfies `p` with none before it is the first hit. */
  lemma FirstIndexOnly<T>(s: seq<T>, p: T -> bool)
    ensures forall k :: 0 <= k < |s| && p(s[k]) && (forall j :: 0 <= j < k ==> !p(s[j])) ==> FirstIndex(s, p) == Some(k)
  {
    forall k | 0 <= k < |s| && p(s[k]) && (forall j :: 0 <= j < k ==> !p(s[j])) ensures FirstIndex(s, p) == Some(k) {
      FirstIndexAt(s, p, k);
    }
  }

  /** An element that satisfies `p` with none before it is the first hit. */
  lemma FirstIndexAt<T>(s: seq<T>, p: T -> bool, k: nat)
    requires k < |s| && p(s[k])
    requires forall j :: 0 <= j < k ==> !p(s[j])
    ensures FirstIndex(s, p) == Some(k)
  {
  }
}

=== FILE: sorting.dfy ===
/** Sorting by a string key in code-point order: Python's `sorted` on a list
    of strings, and sorting rows by a text column. */
module Sorting {
  import Text

  predicate SortedBy<T>(s: seq<T>, key: T -> string) {
    forall i, j :: 0 <= i < j < |s| ==> Text.LexLessEq(key(s[i]), key(s[j]))
  }

  lemma SortedTail<T>(s: seq<T>, key: T -> string)
    requires |s| > 0 && SortedBy(s, key)
    ensures SortedBy(s[1..], key)
  {
    forall i, j | 0 <= i < j < |s[1..]| ensures Text.LexLessEq(key(s[1..][i]), key(s[1..][j])) {
      assert s[1..][i] == s[i + 1] && s[1..][j] == s[j + 1];
    }
  }

  /** Insert `x` before the first element whose key is not smaller. */
  function InsertBy<T>(x: T, s: seq<T>, key: T -> string): (r: seq<T>)
    ensures multiset(r) == multiset(s) + multiset{x}
    ensures |r| == |s| + 1
    decreases |s|
  {
    if |s| == 0 then [x]
    else if Text.LexLessEq(key(x), key(s[0])) then
      assert s == [s[0]] + s[1..];
      [x] + s
    else
      assert s == [s[0]] + s[1..];
      [s[0]] + InsertBy(x, s[1..], key)
  }

  lemma {:induction false} InsertBySorted<T>(x: T, s: seq<T>, key: T -> string)
    requires SortedBy(s, key)
    ensures SortedBy(InsertBy(x, s, key), key)
    decreases |s|
  {
    if |s| == 0 {
    } else if Text.LexLessEq(key(x), key(s[0])) {
      forall j | 0 < j < |s| ensures Text.LexLessEq(key(x), key(s[j])) {
        LexLessEqTransitive(key(x), key(s[0]), key(s[j]));
      }
    } else {
      Text.LexLessTotal(key(x), key(s[0]));
      InsertBySorted(x, s[1..], key);
      var rest := InsertBy(x, s[1..], key);
      forall j | 0 <= j < |rest| ensures Text.LexLessEq(key(s[0]), key(rest[j])) {
        assert rest[j] in multiset(rest);
        if rest[j] != x {
          assert rest[j] in multiset(s[1..]);
          var k :| 0 <= k < |s[1..]| && s[1..][k] == rest[j];
          assert s[k + 1] == rest[j];
        }
      }
    }
  }

  lemma LexLessEqTransitive(a: string, b: string, c: string)
    requires Text.LexLessEq(a, b) && Text.LexLessEq(b, c)
    ensures Text.LexLessEq(a, c)
  {
    if a != b && b != c {
      Text.LexLessTransitive(a, b, c);
    }
  }

  /** An insertion sort: ascending by key, a permutation of the input. */
  function SortBy<T>(s: seq<T>, key: T -> string): (r: seq<T>)
    ensures SortedBy(r, key)
    ensures multiset(r) == multiset(s)
    ensures |r| == |s|
    decreases |s|
  {
    if |s| == 0 then []
    else
      var rest := SortBy(s[1..], key);
      InsertBySorted(s[0], rest, key);
      assert s == [s[0]] + s[1..];
      InsertBy(s[0], rest, key)
  }

  function Identity(s: string): string { s }

  /** `sorted(names)`. */
  function SortStrings(names: seq<string>): (r: seq<string>)
    ensures forall i, j :: 0 <= i < j < |r| ==> Text.LexLessEq(r[i], r[j])
    ensures multiset(r) == multiset(names)
  {
    var r := SortBy(names, Identity);
    assert SortedBy(r, Identity);
    r
  }
}

=== FILE: tagging.dfy ===
/** `JsonFileTaggingAgent` of `assign_tags_from_fixed_list.py`, around its
    LLM call: the text sent, the clean-up of the reply down to tags of the
    fixed vocabulary, and the rewrite of one call's JSON document. The LLM
    is a function of the (truncated) call text that may fail, and
    `json.loads` is a function that may reject its input. */
module Tagging {
  import opened Wrappers
  import opened JsonValues
  import Text
  import Seqs

  /** Characters of call text the prompt carries before it is cut. */
  const MaxText: nat := 3000

  /** `text[:3000] + "..."` when longer than 3000 characters. */
  function Truncate(text: string): (r: string)
    ensures |text| <= MaxText ==> r == text
    ensures |text| > MaxText ==> |r| == MaxText + 3 && r[..MaxText] == text[..MaxText] && r[MaxText..] == "..."
  {
    if |text| > MaxText then text[..MaxText] + "..." else text
  }

  /** Cutting twice cuts no further: a cut text is 3003 characters and its
      own first 3000 are the original's. */
  lemma TruncateIdempotent(text: string)
    ensures Truncate(Truncate(text)) == Truncate(text)
  {
    if |text| > MaxText {
      var t := Truncate(text);
      assert t[..MaxText] == text[..MaxText];
      assert t[..MaxText] + "..." == t;
    }
  }

  // -------------------------------------------------- the JSON in the reply

  /** Index of the last `c` in `s`. */
  function LastIndexOf(s: string, c: char): (r: Option<nat>)
    ensures r.Some? ==> r.value < |s| && s[r.value] == c && c !in s[r.value + 1..]
    ensures r.None? <==> c !in s
  {
    if |s| == 0 then None
    else if s[|s| - 1] == c then Some(|s| - 1)
    else
      var r := LastIndexOf(s[..|s| - 1], c);
      assert s == s[..|s| - 1] + [s[|s| - 1]];
      if r.None? then None
      else
        assert s[r.value + 1..] == s[..|s| - 1][r.value + 1..] + [s[|s| - 1]];
        r
  }

  /** `span` runs from the first `{` of `text`, at `i`, to its last `}`, at `j`. */
  predicate OutermostBraces(text: string, span: string, i: int, j: int) {
    0 <= i < j < |text| && span == text[i..j + 1] && text[i] == '{' && text[j] == '}' &&
    '{' !in text[..i] && '}' !in text[j + 1..]
  }

  /** `re.search(r'\{.*\}', text, re.DOTALL)`: from the first `{` to the
      last `}` after it, the longest span the greedy pattern can take. */
  function BraceSpan(text: string): (r: Option<string>)
    ensures r.Some? <==> exists i, j :: 0 <= i < j < |text| && text[i] == '{' && text[j] == '}'
    ensures r.Some? ==> exists i, j :: OutermostBraces(text, r.value, i, j)
  {
    match Seqs.FirstIndex(text, c => c == '{')
    case None => None
    case Some(i) =>
      match LastIndexOf(text, '}')
      case None => None
      case Some(j) =>
        if j <= i then
          forall a, b | 0 <= a < b < |text| && text[a] == '{' ensures text[b] != '}' {
            assert text[b] in text[j + 1..] by { assert text[b] == text[j + 1..][b - j - 1]; }
          }
          None
        else
          assert '{' !in text[..i];
          assert OutermostBraces(text, text[i..j + 1], i, j);
          Some(text[i..j + 1])
  }

  /** The object the reply carries: its brace span, decoded, must be a
      JSON object (`.get` on anything else raises). */
  function Parsed(reply: string, parse: string -> Option<Json>): (r: Result<Fields>)
    ensures r.Ok? <==> BraceSpan(reply).Some? && parse(BraceSpan(reply).value).Some? &&
                       parse(BraceSpan(reply).value).value.JObj?
    ensures r.Ok? ==> JObj(r.value) == parse(BraceSpan(reply).value).value
  {
    match BraceSpan(reply)
    case None => Err("ValueError: no JSON in the reply")
    case Some(span) =>
      match parse(span)
      case None => Err("JSONDecodeError")
      case Some(JObj(fs)) => Ok(fs)
      case Some(_) => Err("AttributeError: no get on a non-object")
  }

  // ------------------------------------------------------- the tags chosen

  /** What `for tag in value` walks over: a list's items, a string's
      characters, an object's keys; anything else is not iterable. */
  function Candidates(v: Json): (r: Option<seq<Json>>)
    ensures r.None? <==> !(v.JArr? || v.JStr? || v.JObj?)
    ensures v.JArr? ==> r == Some(v.items)
  {
    match v
    case JArr(xs) => Some(xs)
    case JStr(s) => Some(seq(|s|, k requires 0 <= k < |s| => JStr([s[k]])))
    case JObj(fs) => Some(seq(|fs|, k requires 0 <= k < |fs| => JStr(fs[k].0)))
    case _ => None
  }

  function StringOf(x: Json): Option<string> {
    if x.JStr? then Some(x.s) else None
  }

  /** The strings among `xs`, in order; nothing else can equal a tag. */
  function StringsOf(xs: seq<Json>): seq<string> {
    Seqs.FilterMap(xs, StringOf)
  }

  lemma {:induction false} StringsOfMembers(xs: seq<Json>)
    ensures forall t :: t in StringsOf(xs) <==> JStr(t) in xs
    decreases |xs|
  {
    if |xs| > 0 {
      StringsOfMembers(xs[1..]);
      assert xs == [xs[0]] + xs[1..];
      Seqs.FilterMapCons(xs[0], xs[1..], StringOf);
    }
  }

  /** The validation loop: the candidates that are exact members of the
      vocabulary, in the LLM's order, repeats included. */
  function ValidTags(cands: seq<Json>, vocabulary: seq<string>): (r: seq<string>)
    ensures Seqs.IsSubsequence(r, StringsOf(cands))
    ensures forall t :: t in r <==> t in vocabulary && JStr(t) in cands
  {
    StringsOfMembers(cands);
    Seqs.Filter(StringsOf(cands), t => t in vocabulary)
  }

  /** Validating twice changes nothing. */
  lemma ValidTagsIdempotent(cands: seq<Json>, vocabulary: seq<string>)
    ensures ValidTags(Wrap(ValidTags(cands, vocabulary)), vocabulary) == ValidTags(cands, vocabulary)
  {
    var ts := ValidTags(cands, vocabulary);
    WrapStrings(ts);
    Seqs.FilterIdempotent(StringsOf(cands), t => t in vocabulary);
  }

  function Wrap(ts: seq<string>): (r: seq<Json>)
    ensures |r| == |ts| && forall k :: 0 <= k < |ts| ==> r[k] == JStr(ts[k])
  {
    seq(|ts|, k requires 0 <= k < |ts| => JStr(ts[k]))
  }

  /** Wrapping strings and taking the strings back is the identity. */
  lemma WrapStrings(ts: seq<string>)
    ensures StringsOf(Wrap(ts)) == ts
  {
    Seqs.FilterMapTotal(Wrap(ts), StringOf);
  }

  /** The `try` block of `get_tags_from_llm`: the reply's object with its
      `result` replaced by the validated tags. `None` from the LLM is a
      failed request. */
  function TryTags(text: string, vocabulary: seq<string>, llm: string -> Option<string>,
                   parse: string -> Option<Json>): (r: Result<Fields>)
    ensures r.Ok? ==> llm(Truncate(text)).Some? && Parsed(llm(Truncate(text)).value, parse).Ok?
    ensures r.Ok? ==>
              var fields := Parsed(llm(Truncate(text)).value, parse).value;
              var cands := Candidates(Lookup(fields, "result").GetOr(JArr([])));
              cands.Some? &&
              Lookup(r.value, "result") == Some(JArr(Wrap(ValidTags(cands.value, vocabulary)))) &&
              forall k :: k != "result" ==> Lookup(r.value, k) == Lookup(fields, k)
    ensures r.Err? <==>
              llm(Truncate(text)).None? ||
              Parsed(llm(Truncate(text)).value, parse).Err? ||
              Candidates(Lookup(Parsed(llm(Truncate(text)).value, parse).value, "result").GetOr(JArr([]))).None?
  {
    match llm(Truncate(text))
    case None => Err("LLM request failed")
    case Some(reply) =>
      var fields :- Parsed(reply, parse);
      match Candidates(Lookup(fields, "result").GetOr(JArr([])))
      case None => Err("TypeError: result is not iterable")
      case Some(cands) => Ok(Put(fields, "result", JArr(Wrap(ValidTags(cands, vocabulary)))))
  }

  /** The stand-in returned on any exception. */
  function ErrorStub(message: string): Fields {
    [("result", JArr([])), ("additional_tags", JArr([])), ("reasoning", JStr("Ошибка: " + message))]
  }

  /** `get_tags_from_llm`: never raises; on any failure `result` is empty. */
  function TagsFromLlm(text: string, vocabulary: seq<string>, llm: string -> Option<string>,
                       parse: string -> Option<Json>): (r: Fields)
    ensures TryTags(text, vocabulary, llm, parse).Err? ==> Lookup(r, "result") == Some(JArr([]))
    ensures TryTags(text, vocabulary, llm, parse).Ok? ==> r == TryTags(text, vocabulary, llm, parse).value
  {
    match TryTags(text, vocabulary, llm, parse)
    case Ok(fs) => fs
    case Err(e) => ErrorStub(e)
  }

  /** Whatever the LLM answers, `result` is a list of vocabulary tags. */
  lemma ResultWithinVocabulary(text: string, vocabulary: seq<string>, llm: string -> Option<string>,
                               parse: string -> Option<Json>)
    ensures var res := Lookup(TagsFromLlm(text, vocabulary, llm, parse), "result");
            res.Some? && res.value.JArr? &&
            forall x :: x in res.value.items ==> x.JStr? && x.s in vocabulary
  {
    var t := TryTags(text, vocabulary, llm, parse);
    if t.Ok? {
      var fields := Parsed(llm(Truncate(text)).value, parse).value;
      var cands := Candidates(Lookup(fields, "result").GetOr(JArr([]))).value;
      var ts := ValidTags(cands, vocabulary);
      forall x | x in Wrap(ts) ensures x.JStr? && x.s in vocabulary {
        var k :| 0 <= k < |Wrap(ts)| && Wrap(ts)[k] == x;
        assert ts[k] in ts;
      }
    }
  }

  // ---------------------------------------------------------- one file

  /** `'text' in v`: key, item or substring membership; other values are
      not iterable. */
  function HasText(v: Json): (r: Result<bool>)
    ensures r.Err? <==> !(v.JObj? || v.JArr? || v.JStr?)
    ensures v.JObj? ==> r == Ok("text" in Keys(v.fields))
  {
    match v
    case JObj(fs) => Ok("text" in Keys(fs))
    case JArr(xs) => Ok(JStr("text") in xs)
    case JStr(s) => Ok(Text.Contains(s, "text"))
    case _ => Err("TypeError: argument is not iterable")
  }

  function AsText(v: Json): Result<string> {
    if v.JStr? then Ok(v.s) else Err("TypeError: the call text is not a string")
  }

  /** The top-level `text`, or `ValueError` when there is none. */
  function TopText(data: Fields): Result<string> {
    match Lookup(data, "text")
    case Some(v) => AsText(v)
    case None => Err("ValueError: no call text in the file")
  }

  /** `data['transcription']['text']` when the transcription is an object
      holding `text`. */
  function NestedText(data: Fields): Option<Json> {
    match Lookup(data, "transcription")
    case Some(JObj(t)) => Lookup(t, "text")
    case _ => None
  }

  /** The text step of `tag_single_file`: `transcription.text` when the
      transcription holds one, else the top-level `text`. */
  function ExtractText(data: Fields): (r: Result<string>)
    ensures NestedText(data).Some? ==> r == AsText(NestedText(data).value)
    ensures Lookup(data, "transcription").None? || HasText(Lookup(data, "transcription").value) == Ok(false) ==>
              r == TopText(data)
    ensures r.Ok? ==> NestedText(data) == Some(JStr(r.value)) || Lookup(data, "text") == Some(JStr(r.value))
    ensures Lookup(data, "transcription").None? && Lookup(data, "text").None? ==> r.Err?
    ensures Lookup(data, "transcription").Some? && !Lookup(data, "transcription").value.JObj? && HasText(Lookup(data, "transcription").value) != Ok(false) ==> r.Err?
  {
    match Lookup(data, "transcription")
    case None => TopText(data)
    case Some(t) => TextVia(t, data)
  }

  /** The text step once a `transcription` value `t` is present. */
  function TextVia(t: Json, data: Fields): (r: Result<string>)
    ensures t.JObj? && "text" in Keys(t.fields) ==> r == AsText(Lookup(t.fields, "text").value)
    ensures HasText(t) == Ok(false) ==> r == TopText(data)
    ensures !t.JObj? && HasText(t) != Ok(false) ==> r.Err?
    ensures r.Ok? ==> (t.JObj? && Lookup(t.fields, "text") == Some(JStr(r.value))) || Lookup(data, "text") == Some(JStr(r.value))
  {
    match HasText(t)
    case Err(e) => Err(e)
    case Ok(has) =>
      if !has then TopText(data)
      else if t.JObj? then AsText(Lookup(t.fields, "text").value)
      else Err("TypeError: indices must be integers")
  }

  /** The document written back and the `tags_result` returned. */
  datatype Tagged = Tagged(data: Fields, tagsResult: Fields)

  /** `tag_single_file` on the decoded document: the text, the LLM's
      validated tags under `tags.fixed_tags` (creating `tags` when absent),
      and `segments` removed. */
  function TagSingleFile(data: Fields, vocabulary: seq<string>, llm: string -> Option<string>,
                         parse: string -> Option<Json>): (r: Result<Tagged>)
    ensures r.Ok? <==> ExtractText(data).Ok? && (Lookup(data, "tags").None? || Lookup(data, "tags").value.JObj?)
    ensures r.Ok? ==>
              r.value.tagsResult == TagsFromLlm(ExtractText(data).value, vocabulary, llm, parse) &&
              Lookup(r.value.data, "segments").None? &&
              (exists t :: Lookup(r.value.data, "tags") == Some(JObj(t)) &&
                           Lookup(t, "fixed_tags") == Lookup(r.value.tagsResult, "result")) &&
              forall k :: k != "tags" && k != "segments" ==> Lookup(r.value.data, k) == Lookup(data, k)
    ensures r.Ok? ==>
              exists t :: Lookup(r.value.data, "tags") == Some(JObj(t)) &&
                          forall k :: k != "fixed_tags" ==>
                            Lookup(t, k) == (if Lookup(data, "tags").Some? then Lookup(Lookup(data, "tags").value.fields, k) else None)
  {
    var text :- ExtractText(data);
    var tagsResult := TagsFromLlm(text, vocabulary, llm, parse);
    ResultWithinVocabulary(text, vocabulary, llm, parse);
    var fixed := Lookup(tagsResult, "result").GetOr(JArr([]));
    var tags := Lookup(data, "tags").GetOr(JObj([]));
    if !tags.JObj? then Err("TypeError: tags does not support item assignment")
    else Ok(Tagged(Remove(Put(data, "tags", JObj(Put(tags.fields, "fixed_tags", fixed))), "segments"), tagsResult))
  }

  /** A tagged document's `fixed_tags` is a list of vocabulary tags. */
  lemma FixedTagsWithinVocabulary(data: Fields, vocabulary: seq<string>, llm: string -> Option<string>,
                                  parse: string -> Option<Json>)
    requires TagSingleFile(data, vocabulary, llm, parse).Ok?
    ensures var d := TagSingleFile(data, vocabulary, llm, parse).value.data;
            exists t: Fields, xs: seq<Json> :: Lookup(d, "tags") == Some(JObj(t)) && Lookup(t, "fixed_tags") == Some(JArr(xs)) &&
                            forall x :: x in xs ==> x.JStr? && x.s in vocabulary
  {
    var text := ExtractText(data).value;
    ResultWithinVocabulary(text, vocabulary, llm, parse);
  }
}

=== FILE: tally.dfy ===
/** Counting dictionaries. A Python `defaultdict(int)` or `Counter` keeps its
    keys in insertion order, and the pipeline's output depends on that order,
    so a tally is an association list of entries with distinct keys, in the
    order each key was first incremented. */
module Tally {
  import Text

  datatype Entry<K> = Entry(key: K, count: nat)

  function Keys<K>(t: seq<Entry<K>>): (r: seq<K>)
    ensures |r| == |t| && forall i :: 0 <= i < |t| ==> r[i] == t[i].key
  {
    seq(|t|, i requires 0 <= i < |t| => t[i].key)
  }

  predicate Distinct<K(==)>(s: seq<K>) {
    forall i, j :: 0 <= i < j < |s| ==> s[i] != s[j]
  }

  /** Distinct keys, and only keys that were counted at least once. */
  predicate WellFormed<K(==)>(t: seq<Entry<K>>) {
    Distinct(Keys(t)) && forall i :: 0 <= i < |t| ==> t[i].count >= 1
  }

  /** `counts.get(k, 0)`. */
  function Get<K(==)>(t: seq<Entry<K>>, k: K): nat
    decreases |t|
  {
    if |t| == 0 then 0 else if t[0].key == k then t[0].count else Get(t[1..], k)
  }

  /** Total of all counts. */
  function Sum<K>(t: seq<Entry<K>>): nat
    decreases |t|
  {
    if |t| == 0 then 0 else t[0].count + Sum(t[1..])
  }

  /** `counts[k] += 1`: an existing key keeps its place, a new key goes last. */
  function Inc<K(==)>(t: seq<Entry<K>>, k: K): seq<Entry<K>>
    decreases |t|
  {
    if |t| == 0 then [Entry(k, 1)]
    else if t[0].key == k then [Entry(k, t[0].count + 1)] + t[1..]
    else [t[0]] + Inc(t[1..], k)
  }

  lemma {:induction false} GetInc<K>(t: seq<Entry<K>>, k: K, j: K)
    ensures Get(Inc(t, k), j) == Get(t, j) + (if j == k then 1 else 0)
    decreases |t|
  {
    if |t| > 0 && t[0].key != k {
      GetInc(t[1..], k, j);
    }
  }

  lemma {:induction false} SumInc<K>(t: seq<Entry<K>>, k: K)
    ensures Sum(Inc(t, k)) == Sum(t) + 1
    decreases |t|
  {
    if |t| > 0 && t[0].key != k {
      SumInc(t[1..], k);
    }
  }

  lemma {:induction false} KeysInc<K>(t: seq<Entry<K>>, k: K)
    ensures Keys(Inc(t, k)) == if k in Keys(t) then Keys(t) else Keys(t) + [k]
    decreases |t|
  {
    if |t| > 0 {
      assert Keys(t) == [t[0].key] + Keys(t[1..]);
      if t[0].key != k {
        KeysInc(t[1..], k);
        assert Keys(Inc(t, k)) == [t[0].key] + Keys(Inc(t[1..], k));
      } else {
        assert Keys(Inc(t, k)) == [k] + Keys(t[1..]);
      }
    }
  }

  lemma {:induction false} WellFormedInc<K>(t: seq<Entry<K>>, k: K)
    requires WellFormed(t)
    ensures WellFormed(Inc(t, k))
  {
    KeysInc(t, k);
    IncCounts(t, k);
  }

  lemma {:induction false} IncCounts<K>(t: seq<Entry<K>>, k: K)
    requires forall i :: 0 <= i < |t| ==> t[i].count >= 1
    ensures forall i :: 0 <= i < |Inc(t, k)| ==> Inc(t, k)[i].count >= 1
    decreases |t|
  {
    if |t| > 0 && t[0].key != k {
      IncCounts(t[1..], k);
    }
  }

  lemma {:induction false} GetAbsent<K>(t: seq<Entry<K>>, k: K)
    requires k !in Keys(t)
    ensures Get(t, k) == 0
    decreases |t|
  {
    if |t| > 0 {
      assert Keys(t)[1..] == Keys(t[1..]);
      GetAbsent(t[1..], k);
    }
  }

  lemma {:induction false} GetPresent<K>(t: seq<Entry<K>>, i: nat)
    requires i < |t| && Distinct(Keys(t))
    ensures Get(t, t[i].key) == t[i].count
    decreases |t|
  {
    if i > 0 {
      assert Keys(t)[1..] == Keys(t[1..]);
      assert t[0].key != t[i].key by {
        assert Keys(t)[0] != Keys(t)[i];
      }
      GetPresent(t[1..], i - 1);
    }
  }

  /** Count every element of `ks`, in order, into an empty tally. */
  function TallyAll<K(==,!new)>(ks: seq<K>): (r: seq<Entry<K>>)
    ensures WellFormed(r)
    ensures forall k :: Get(r, k) == multiset(ks)[k]
    ensures forall k :: k in Keys(r) <==> k in ks
    ensures Sum(r) == |ks|
    decreases |ks|
  {
    if |ks| == 0 then []
    else
      var init := ks[..|ks| - 1];
      var last := ks[|ks| - 1];
      var prev := TallyAll(init);
      assert ks == init + [last];
      WellFormedInc(prev, last);
      KeysInc(prev, last);
      SumInc(prev, last);
      forall k ensures Get(Inc(prev, last), k) == multiset(ks)[k] {
        GetInc(prev, last, k);
      }
      Inc(prev, last)
  }

  /** Index of the first occurrence of `k` in `s`. */
  function FirstIndex<K(==)>(s: seq<K>, k: K): (r: nat)
    requires k in s
    ensures r < |s| && s[r] == k && forall j :: 0 <= j < r ==> s[j] != k
    decreases |s|
  {
    if s[0] == k then 0 else 1 + FirstIndex(s[1..], k)
  }

  lemma {:induction false} FirstIndexAppend<K>(s: seq<K>, x: K, k: K)
    requires k in s + [x]
    ensures k in s ==> FirstIndex(s + [x], k) == FirstIndex(s, k)
    ensures k !in s ==> FirstIndex(s + [x], k) == |s|
  {
    var r := FirstIndex(s + [x], k);
    if k in s {
      var q := FirstIndex(s, k);
      assert (s + [x])[q] == k;
      assert r <= q;
      assert s[r] == k;
    } else {
      assert forall j :: 0 <= j < |s| ==> (s + [x])[j] != k;
    }
  }

  /** The keys of `TallyAll(ks)` appear in the order of their first
      occurrence in `ks`. */
  lemma {:induction false} TallyKeyOrder<K(!new)>(ks: seq<K>)
    ensures forall i, j :: 0 <= i < j < |TallyAll(ks)| ==>
              FirstIndex(ks, TallyAll(ks)[i].key) < FirstIndex(ks, TallyAll(ks)[j].key)
    decreases |ks|
  {
    if |ks| > 0 {
      var init := ks[..|ks| - 1];
      var last := ks[|ks| - 1];
      assert ks == init + [last];
      var prev := TallyAll(init);
      var t := TallyAll(ks);
      TallyKeyOrder(init);
      KeysInc(prev, last);
      assert Keys(t) == Keys(Inc(prev, last));
      forall i, j | 0 <= i < j < |t|
        ensures FirstIndex(ks, t[i].key) < FirstIndex(ks, t[j].key)
      {
        assert t[i].key == Keys(t)[i] && t[j].key == Keys(t)[j];
        assert t[i].key in init by {
          if last in Keys(prev) {
            assert Keys(prev)[i] in Keys(prev);
          } else {
            assert i < |prev|;
            assert Keys(t)[i] == Keys(prev)[i];
          }
        }
        FirstIndexAppend(init, last, t[i].key);
        FirstIndexAppend(init, last, t[j].key);
        if j < |prev| {
          assert Keys(t)[i] == Keys(prev)[i] && Keys(t)[j] == Keys(prev)[j];
        }
      }
    }
  }

  // ------------------------------------------------------- sorting by string key

  /** Strictly ascending keys: what `sorted(d.items())` gives for distinct keys. */
  predicate KeysAscending(t: seq<Entry<string>>) {
    forall i, j :: 0 <= i < j < |t| ==> Text.LexLess(t[i].key, t[j].key)
  }

  /** Insert `e` before the first entry whose key is larger. */
  function InsertByKey(e: Entry<string>, t: seq<Entry<string>>): (r: seq<Entry<string>>)
    ensures multiset(r) == multiset(t) + multiset{e}
    ensures Sum(r) == Sum(t) + e.count
    decreases |t|
  {
    if |t| == 0 then [e]
    else if Text.LexLess(e.key, t[0].key) then
      assert t == [t[0]] + t[1..];
      [e] + t
    else
      assert t == [t[0]] + t[1..];
      [t[0]] + InsertByKey(e, t[1..])
  }

  /** Entries with the same multiset have the same keys. */
  lemma KeysOfSameMultiset<K>(a: seq<Entry<K>>, b: seq<Entry<K>>)
    requires multiset(a) == multiset(b)
    ensures forall k :: k in Keys(a) <==> k in Keys(b)
  {
    forall k | k in Keys(a) ensures k in Keys(b) {
      var i :| 0 <= i < |a| && Keys(a)[i] == k;
      assert a[i] in multiset(b);
      var j :| 0 <= j < |b| && b[j] == a[i];
      assert Keys(b)[j] == k;
    }
    forall k | k in Keys(b) ensures k in Keys(a) {
      var i :| 0 <= i < |b| && Keys(b)[i] == k;
      assert b[i] in multiset(a);
      var j :| 0 <= j < |a| && a[j] == b[i];
      assert Keys(a)[j] == k;
    }
  }

  lemma {:induction false} InsertByKeyAscending(e: Entry<string>, t: seq<Entry<string>>)
    requires KeysAscending(t) && e.key !in Keys(t)
    ensures KeysAscending(InsertByKey(e, t))
    decreases |t|
  {
    if |t| == 0 {
    } else if Text.LexLess(e.key, t[0].key) {
      forall j | 0 < j < |t| ensures Text.LexLess(e.key, t[j].key) {
        Text.LexLessTransitive(e.key, t[0].key, t[j].key);
      }
    } else {
      assert Keys(t)[1..] == Keys(t[1..]);
      assert e.key != t[0].key by {
        assert Keys(t)[0] == t[0].key;
      }
      Text.LexLessTotal(e.key, t[0].key);
      InsertByKeyAscending(e, t[1..]);
      var rest := InsertByKey(e, t[1..]);
      forall j | 0 <= j < |rest| ensures Text.LexLess(t[0].key, rest[j].key) {
        assert rest[j] in multiset(rest);
        if rest[j] != e {
          assert rest[j] in multiset(t[1..]);
          var k :| 0 <= k < |t[1..]| && t[1..][k] == rest[j];
          assert t[k + 1] == rest[j];
        }
      }
    }
  }

  /** `sorted(d.items())` for a tally: entries by ascending key. */
  function SortByKey(t: seq<Entry<string>>): (r: seq<Entry<string>>)
    requires Distinct(Keys(t))
    ensures KeysAscending(r)
    ensures multiset(r) == multiset(t)
    ensures forall k :: k in Keys(r) <==> k in Keys(t)
    ensures Sum(r) == Sum(t)
    decreases |t|
  {
    if |t| == 0 then []
    else
      assert Keys(t)[1..] == Keys(t[1..]);
      var rest := SortByKey(t[1..]);
      assert t[0].key !in Keys(t[1..]) by {
        forall i | 0 <= i < |t[1..]| ensures t[1..][i].key != t[0].key {
          assert Keys(t)[i + 1] != Keys(t)[0];
        }
      }
      assert t == [t[0]] + t[1..];
      KeysOfSameMultiset(rest, t[1..]);
      InsertByKeyAscending(t[0], rest);
      var r := InsertByKey(t[0], rest);
      KeysOfSameMultiset(r, t);
      r
  }

  /** Ascending keys are distinct. */
  lemma AscendingDistinct(t: seq<Entry<string>>)
    requires KeysAscending(t)
    ensures Distinct(Keys(t))
  {
    forall i, j | 0 <= i < j < |t| ensures Keys(t)[i] != Keys(t)[j] {
      Text.LexLessIrreflexive(t[i].key);
    }
  }

  /** A sequence without repetitions has as many distinct elements as entries. */
  lemma {:induction false} DistinctCard<K>(s: seq<K>)
    requires Distinct(s)
    ensures |set x | x in s| == |s|
    decreases |s|
  {
    if |s| > 0 {
      var init := s[..|s| - 1];
      DistinctCard(init);
      assert (set x | x in s) == (set x | x in init) + {s[|s| - 1]};
      assert s[|s| - 1] !in (set x | x in init);
    }
  }
}

=== FILE: text.dfy ===
/** String helpers with Python's semantics: lower-casing, the `in` substring
    test, `startswith`/`endswith`, code-point ordering of `str`, `split` on one
    character, and decimal rendering of integers. */
module Text {

  /** Lower-case one character. Covers ASCII letters and the basic Cyrillic
      alphabet (А–Я and Ё), which is every letter the tag vocabularies and the
      keyword heuristics use. */
  function LowerChar(c: char): (r: char)
    ensures 'a' <= r <= 'z' ==> 'a' <= c <= 'z' || 'A' <= c <= 'Z'
    ensures !('A' <= c <= 'Z' || 'А' <= c <= 'Я' || c == 'Ё') ==> r == c
  {
    if 'A' <= c <= 'Z' then (c as int + 32) as char
    else if 'А' <= c <= 'Я' then (c as int + 32) as char
    else if c == 'Ё' then 'ё'
    else c
  }

  /** Python's `str.lower()` restricted to the letters `LowerChar` knows. */
  function Lower(s: string): (r: string)
    ensures |r| == |s|
    ensures forall i :: 0 <= i < |s| ==> r[i] == LowerChar(s[i])
  {
    seq(|s|, i requires 0 <= i < |s| => LowerChar(s[i]))
  }

  predicate StartsWith(s: string, prefix: string) {
    |prefix| <= |s| && s[..|prefix|] == prefix
  }

  predicate EndsWith(s: string, suffix: string) {
    |suffix| <= |s| && s[|s| - |suffix|..] == suffix
  }

  /** Python's `needle in hay` for strings: `needle` occurs at some offset. */
  predicate Contains(hay: string, needle: string)
    decreases |hay|
  {
    StartsWith(hay, needle) || (|hay| > 0 && Contains(hay[1..], needle))
  }

  /** `needle` occurs in `hay` starting at offset `i`. */
  predicate OccursAt(hay: string, needle: string, i: int) {
    0 <= i <= |hay| - |needle| && hay[i..i + |needle|] == needle
  }

  /** `Contains` agrees with the positional definition of a substring. */
  lemma {:induction false} ContainsAt(hay: string, needle: string)
    ensures Contains(hay, needle) <==> exists i :: OccursAt(hay, needle, i)
    decreases |hay|
  {
    if StartsWith(hay, needle) {
      assert OccursAt(hay, needle, 0);
    } else if |hay| == 0 {
      assert |needle| > 0;
    } else {
      ContainsAt(hay[1..], needle);
      if exists i :: OccursAt(hay, needle, i) {
        var i :| OccursAt(hay, needle, i);
        assert hay[..|needle|] != needle;
        assert i != 0;
        assert OccursAt(hay[1..], needle, i - 1);
      }
      if Contains(hay[1..], needle) {
        var j :| OccursAt(hay[1..], needle, j);
        assert OccursAt(hay, needle, j + 1);
      }
    }
  }

  /** A string contains itself and every string contains the empty string. */
  lemma ContainsSelf(s: string)
    ensures Contains(s, s) && Contains(s, "")
  {
    assert StartsWith(s, s);
    assert StartsWith(s, "");
  }

  /** Python's `<` on `str`: code-point lexicographic order, a proper prefix
      coming first. */
  predicate LexLess(a: string, b: string)
    decreases |a|
  {
    if |a| == 0 then |b| > 0
    else if |b| == 0 then false
    else if a[0] != b[0] then a[0] < b[0]
    else LexLess(a[1..], b[1..])
  }

  predicate LexLessEq(a: string, b: string) {
    a == b || LexLess(a, b)
  }

  lemma {:induction false} LexLessIrreflexive(a: string)
    ensures !LexLess(a, a)
    decreases |a|
  {
    if |a| > 0 {
      LexLessIrreflexive(a[1..]);
    }
  }

  lemma {:induction false} LexLessTransitive(a: string, b: string, c: string)
    requires LexLess(a, b) && LexLess(b, c)
    ensures LexLess(a, c)
    decreases |a|
  {
    if |a| > 0 && |b| > 0 && |c| > 0 && a[0] == b[0] && b[0] == c[0] {
      LexLessTransitive(a[1..], b[1..], c[1..]);
    }
  }

  /** Any two distinct strings are ordered one way or the other. */
  lemma {:induction false} LexLessTotal(a: string, b: string)
    requires a != b
    ensures LexLess(a, b) || LexLess(b, a)
    decreases |a|
  {
    if |a| > 0 && |b| > 0 && a[0] == b[0] {
      assert a == [a[0]] + a[1..] && b == [b[0]] + b[1..];
      LexLessTotal(a[1..], b[1..]);
    }
  }

  lemma {:induction false} LexLessAsymmetric(a: string, b: string)
    requires LexLess(a, b)
    ensures !LexLess(b, a)
    decreases |a|
  {
    if |a| > 0 && |b| > 0 && a[0] == b[0] {
      LexLessAsymmetric(a[1..], b[1..]);
    }
  }

  predicate IsDigit(c: char) {
    '0' <= c <= '9'
  }

  function DigitValue(c: char): (r: int)
    requires IsDigit(c)
    ensures 0 <= r <= 9
  {
    c as int - '0' as int
  }

  function DigitChar(d: int): (c: char)
    requires 0 <= d <= 9
    ensures IsDigit(c) && DigitValue(c) == d
  {
    ('0' as int + d) as char
  }

  predicate AllDigits(s: string) {
    forall i :: 0 <= i < |s| ==> IsDigit(s[i])
  }

  /** Python's `int(s)` on a string of ASCII digits. */
  function DigitsValue(s: string): (r: nat)
    requires AllDigits(s)
    decreases |s|
  {
    if |s| == 0 then 0 else DigitsValue(s[..|s| - 1]) * 10 + DigitValue(s[|s| - 1])
  }

  /** Python's `str(n)` for a natural number. */
  function NatToDecimal(n: nat): (r: string)
    ensures 1 <= |r| && AllDigits(r)
    ensures n > 0 ==> r[0] != '0'
    ensures n < 10 ==> |r| == 1
    ensures n < 100 ==> |r| <= 2
    ensures n < 1000 ==> |r| <= 3
    ensures n < 10000 ==> |r| <= 4
    decreases n
  {
    if n < 10 then [DigitChar(n)] else NatToDecimal(n / 10) + [DigitChar(n % 10)]
  }

  /** Reading back the decimal rendering gives the number. */
  lemma {:induction false} DecimalRoundTrip(n: nat)
    ensures DigitsValue(NatToDecimal(n)) == n
    decreases n
  {
    if n >= 10 {
      var s := NatToDecimal(n);
      assert s[..|s| - 1] == NatToDecimal(n / 10);
      DecimalRoundTrip(n / 10);
    }
  }

  /** Left-pad with '0' to `width` characters, as `%02d` / `%04d` do. */
  function ZeroPad(s: string, width: nat): (r: string)
    ensures |r| == if |s| < width then width else |s|
    ensures EndsWith(r, s)
    ensures forall i :: 0 <= i < |r| - |s| ==> r[i] == '0'
  {
    if |s| < width then seq(width - |s|, _ => '0') + s else s
  }

  /** Leading zeros do not change the value read by `int(s)`. */
  lemma {:induction false} LeadingZerosValue(z: string, s: string)
    requires forall i :: 0 <= i < |z| ==> z[i] == '0'
    requires AllDigits(s)
    ensures AllDigits(z + s) && DigitsValue(z + s) == DigitsValue(s)
    decreases |s|
  {
    if |s| == 0 {
      assert z + s == z;
      ZerosValue(z);
    } else {
      assert (z + s)[..|z + s| - 1] == z + s[..|s| - 1];
      LeadingZerosValue(z, s[..|s| - 1]);
    }
  }

  lemma {:induction false} ZerosValue(z: string)
    requires forall i :: 0 <= i < |z| ==> z[i] == '0'
    ensures AllDigits(z) && DigitsValue(z) == 0
    decreases |z|
  {
    if |z| > 0 {
      ZerosValue(z[..|z| - 1]);
    }
  }

  /** Reading back a zero-padded decimal rendering gives the number. */
  lemma PaddedRoundTrip(n: nat, width: nat)
    ensures AllDigits(ZeroPad(NatToDecimal(n), width))
    ensures DigitsValue(ZeroPad(NatToDecimal(n), width)) == n
  {
    var s := NatToDecimal(n);
    DecimalRoundTrip(n);
    if |s| < width {
      LeadingZerosValue(seq(width - |s|, _ => '0'), s);
    }
  }

  /** Python's `s.split(sep)` for a one-character separator: the pieces between
      separators, including empty ones, so the result is never empty. */
  function Split(s: string, sep: char): (r: seq<string>)
    ensures |r| >= 1
    ensures forall k :: 0 <= k < |r| ==> sep !in r[k]
    decreases |s|
  {
    if |s| == 0 then [""]
    else if s[0] == sep then [""] + Split(s[1..], sep)
    else
      var rest := Split(s[1..], sep);
      [[s[0]] + rest[0]] + rest[1..]
  }

  /** Python's `sep.join(parts)`. */
  function Join(parts: seq<string>, sep: char): string
    decreases |parts|
  {
    if |parts| == 0 then ""
    else if |parts| == 1 then parts[0]
    else parts[0] + [sep] + Join(parts[1..], sep)
  }

  /** Joining the pieces of a split gives back the original string. */
  lemma {:induction false} SplitJoin(s: string, sep: char)
    ensures Join(Split(s, sep), sep) == s
    decreases |s|
  {
    if |s| == 0 {
    } else if s[0] == sep {
      SplitJoin(s[1..], sep);
      var rest := Split(s[1..], sep);
      assert Split(s, sep) == [""] + rest;
      assert s == [sep] + s[1..];
    } else {
      SplitJoin(s[1..], sep);
      var rest := Split(s[1..], sep);
      var r := [[s[0]] + rest[0]] + rest[1..];
      if |rest| == 1 {
        assert Join(r, sep) == [s[0]] + rest[0];
      } else {
        assert r[1..] == rest[1..];
        assert Join(r, sep) == [s[0]] + rest[0] + [sep] + Join(rest[1..], sep);
        assert Join(rest, sep) == rest[0] + [sep] + Join(rest[1..], sep);
      }
      assert s == [s[0]] + s[1..];
    }
  }

  /** The first piece of a split is everything before the first separator. */
  lemma {:induction false} SplitHead(a: string, b: string, sep: char)
    requires sep !in a
    ensures Split(a + [sep] + b, sep)[0] == a
    decreases |a|
  {
    var s := a + [sep] + b;
    if |a| == 0 {
      assert s[0] == sep;
    } else {
      assert s[1..] == a[1..] + [sep] + b;
      SplitHead(a[1..], b, sep);
      assert a == [a[0]] + a[1..];
    }
  }

  /** Python's `f"{i}"` for any integer. */
  function IntToDecimal(i: int): (r: string)
    ensures i >= 0 ==> r == NatToDecimal(i)
    ensures i < 0 ==> r == "-" + NatToDecimal(-i)
  {
    if i < 0 then "-" + NatToDecimal(-i) else NatToDecimal(i)
  }

  /** The characters `str.strip()` removes: Python's white space, which
      besides the ASCII spaces holds the separators U+001C–U+001F, U+0085,
      the no-break spaces and the Unicode space separators. */
  predicate IsSpace(c: char) {
    var n := c as int;
    (9 <= n <= 13) || (0x1C <= n <= 0x20) || n == 0x85 || n == 0xA0 || n == 0x1680 ||
    (0x2000 <= n <= 0x200A) || n == 0x2028 || n == 0x2029 || n == 0x202F || n == 0x205F || n == 0x3000
  }

  /** `str.lstrip()`: the suffix left after dropping leading white space. */
  function StripLeft(s: string): (r: string)
    ensures |r| <= |s| && r == s[|s| - |r|..]
    ensures |r| > 0 ==> !IsSpace(r[0])
    ensures forall i :: 0 <= i < |s| - |r| ==> IsSpace(s[i])
    decreases |s|
  {
    if |s| > 0 && IsSpace(s[0]) then StripLeft(s[1..]) else s
  }

  /** `str.rstrip()`: the prefix left after dropping trailing white space. */
  function StripRight(s: string): (r: string)
    ensures |r| <= |s| && r == s[..|r|]
    ensures |r| > 0 ==> !IsSpace(r[|r| - 1])
    ensures forall i :: |r| <= i < |s| ==> IsSpace(s[i])
    decreases |s|
  {
    if |s| > 0 && IsSpace(s[|s| - 1]) then StripRight(s[..|s| - 1]) else s
  }

  /** `str.strip()`. */
  function Strip(s: string): (r: string)
    ensures |r| == 0 || (!IsSpace(r[0]) && !IsSpace(r[|r| - 1]))
    ensures exists i :: OccursAt(s, r, i)
  {
    var left := StripLeft(s);
    var r := StripRight(left);
    assert r == s[|s| - |left|..|s| - |left| + |r|];
    assert OccursAt(s, r, |s| - |left|);
    r
  }
}

=== FILE: wrappers.dfy ===
/** Failure-compatible wrappers used throughout the model: `Option` for values
    that may be absent (Python's `None`, a missing dictionary key) and `Result`
    for computations that may raise. */
module Wrappers {

  datatype Option<+T> = None | Some(value: T) {

    predicate IsFailure() {
      None?
    }

    function PropagateFailure<U>(): Option<U>
      requires None?
    {
      None
    }

    function Extract(): T
      requires Some?
    {
      value
    }

    /** The value, or `default` when absent. */
    function GetOr(default: T): T {
      match this
      case Some(v) => v
      case None => default
    }
  }

  /** `Err` carries a short description of the exception the source raises. */
  datatype Result<+T> = Ok(value: T) | Err(error: string) {

    predicate IsFailure() {
      Err?
    }

    function PropagateFailure<U>(): Result<U>
      requires Err?
    {
      Err(error)
    }

    function Extract(): T
      requires Ok?
    {
      value
    }
  }
}
